=== FILE: README.md ===
# 2GIS lead collector — a Dafny model

This project models the lead-collection core of `astana_2gis_leads`. The
Python original drives a Chrome browser over 2GIS (the Kazakh city
directory) search results for Astana. From each firm's page it collects a
primary messenger contact and a website, tags every row with the search
query, and merges the results into an Excel master table.

The model covers the following, one Dafny module each:

- **`LinkResolver`** — `_extract_website_from_href`. It decodes
  `link.2gis.com` redirect links by taking the last path segment,
  percent-decoding it, padding it for base64, base64-decoding it as UTF-8,
  and keeping the first line that starts with `http://` or `https://`.
  Percent-encoding, base64 and UTF-8 are in `Codecs`. The Python string
  helpers (`strip`, `split`, `splitlines`, `lower`, `in`) are in `Text`.
- **`Contacts`** — the pure parts of `get_primary_contact`:
  - the `&text=` stripper for WhatsApp links and the `tg://` rewrite;
  - the passive scan of the page's social links into five slots;
  - the WA → TG → IG → FB → VK priority;
  - the classification of a contact into the `primary_type` tag;
  - the website exclusion list.
- **`Browser`** — the browser as a value. A `Driver` has tabs, a current tab
  and fresh window handles. The web is an oracle (`Web`) that maps an
  address to the address it lands on and to the page found there. Clicking
  a button opens a new tab and switches to it. The `finally` clean-up closes
  every tab but the main one.
- **`DetailExtractor`** — `get_primary_contact` itself, which proceeds in
  this order:
  1. open the firm's tab;
  2. wait for the firm id in the address;
  3. take the website from the links, or else from the "site" button;
  4. take the passive contact;
  5. fall back to clicking the button of each channel;
  6. clean up.
- **`Addresses`** — `norm_addr`, the deduplication key.
- **`Listing`** — the page loop's bookkeeping:
  - deduplication by address key;
  - tagging;
  - the enrichment budget;
  - enrichment of the rows not yet enriched;
  - pagination, which stops at the page limit or the last page, and fails
    when the first firm does not change.
- **`RunBatch`** — `scripts/run_batch.py`:
  - reading the query file;
  - selecting lines `START_LINE..END_LINE`;
  - building the search address;
  - `run_one_query`;
  - `main`'s concatenation into the master table.
- **`RunList`** — `scripts/run_selenium_list.py`, the earlier single-search
  loop that merges a page's cards only after moving on to the next page.
- **`MasterMerge`** — `save_leads_to_excel` in `export_excel.py`:
  1. stack the new leads above the old ones;
  2. drop duplicates by address, keeping the first;
  3. turn `id` into text;
  4. sort by query, then address;
  5. compute the column letter of the table range.

Timeouts (`WebDriverWait`) and uncaught exceptions become `Fault` values:

- `FirmPageTimeout`: the firm page never shows its id.
- `PageNotAdvanced(page)`: the first firm of the results does not change
  after a click to the next page.
- `NonAsciiBase64`: the `ValueError` that escapes `_extract_website_from_href`.

The exceptions the source catches are modelled by the branches that catch
them.

Two defects of `get_primary_contact` are kept apart from the rest (see
"Findings"). `DetailExtractor` models the lookup both as written and mended.
The loops of `Listing`, `RunBatch` and `RunList` take a `Version`, `AsWritten`
or `Mended`, and read the lookup's outcome for each firm from a `Directory`
(firm id to outcome). The ghost predicate `Serves` ties a directory to the
lookup of one version, and `Listing.EnrichOne` shows that each call returns
the directory's entry. `RunBatch.BatchAsWritten` and `RunList.RunList` are
the scripts as written; `RunBatch.BatchMended` and `RunList.RunListMended`
are the mended ones.

## Model

| member | source | states |
|---|---|---|
| LinkResolver.PadBase64 | astana_2gis_leads/two_gis_lead_collector.py:63-66 | the segment is kept as a prefix and completed with '=' to the next multiple of four, adding at most three characters |
| LinkResolver.FirstHttp | astana_2gis_leads/two_gis_lead_collector.py:75-79 | there is no result exactly when no line, once stripped, starts with http:// or https://; a result is the stripped first line that does |
| LinkResolver.RedirectTargetAsWritten | astana_2gis_leads/two_gis_lead_collector.py:59-79 | decoding a redirect segment raises exactly when the percent-decoded segment holds a non-ASCII character (b64decode's ValueError is not a binascii.Error); any other result is a stripped http(s) address |
| LinkResolver.ExtractWebsiteAsWritten | astana_2gis_leads/two_gis_lead_collector.py:55-85 | the function as written raises exactly on redirect links whose percent-decoded last segment is not ASCII |
| LinkResolver.ExtractWebsite | astana_2gis_leads/two_gis_lead_collector.py:55-85 | a plain link is returned itself exactly when it starts with "http"; a redirect yields a stripped http(s) address or nothing; it agrees with the function as written wherever that does not raise, and gives nothing where it does |
| LinkResolver.RedirectRoundTrip | astana_2gis_leads/two_gis_lead_collector.py:57-79 | a redirect link whose last segment is the base64 of the UTF-8 of a text, percent-encoded with quote's default safe='/', resolves to the first http(s) line of that text, provided the base64 text holds no '/' |
| LinkResolver.RedirectRoundTripEscaped | astana_2gis_leads/two_gis_lead_collector.py:57-79 | with the base64 text percent-encoded with safe='' (every '/' as %2F), the same round trip holds for every text |
| LinkResolver.AsWrittenRaisesOnNonAscii | astana_2gis_leads/two_gis_lead_collector.py:69-73 | the link https://link.2gis.com/%FF raises in the function as written and resolves to nothing in the mended one |
| Codecs.Utf8RoundTrip | astana_2gis_leads/two_gis_lead_collector.py:70 | UTF-8 decoding, in either error mode, inverts UTF-8 encoding |
| Codecs.B64RoundTrip | astana_2gis_leads/two_gis_lead_collector.py:70 | base64 decoding inverts base64 encoding and never fails on its output |
| Codecs.UnquoteOfQuote | astana_2gis_leads/two_gis_lead_collector.py:61 | percent-decoding inverts percent-encoding for every string, whether '/' is safe or escaped |
| Text.WordsOfJoin | astana_2gis_leads/scripts/run_batch.py:40 | splitting the space-joined words again gives back the same words |
| Text.SplitLinesOfUnlines | astana_2gis_leads/scripts/run_batch.py:36 | splitting newline-terminated lines gives back the lines |
| Contacts.StripTextParam | astana_2gis_leads/two_gis_lead_collector.py:153-159 | the result is a prefix of the link without "&text="; it ends right before the first "&text=" when there is one and is the whole link otherwise |
| Contacts.StripTextParamIdempotent | astana_2gis_leads/two_gis_lead_collector.py:153-159 | stripping twice is stripping once |
| Contacts.StripTextParamExamples | astana_2gis_leads/two_gis_lead_collector.py:155-159 | a "?text=" parameter is left in place and the empty link stays empty |
| Contacts.NormalizeTg | astana_2gis_leads/two_gis_lead_collector.py:161-171 | a stripped tg://resolve?domain= link becomes https://t.me/ followed by the domain; any other link is only stripped; the result is trimmed and never a tg://resolve link |
| Contacts.NormalizeTgIdempotent | astana_2gis_leads/two_gis_lead_collector.py:161-171 | normalising twice is normalising once |
| Contacts.NormalizeTgResolve | astana_2gis_leads/two_gis_lead_collector.py:167-170 | tg://resolve?domain=NAME becomes https://t.me/NAME for every NAME that does not end in whitespace |
| Contacts.FirstHit | astana_2gis_leads/two_gis_lead_collector.py:280-295 | the reference for one slot: empty exactly when no link matches the channel, otherwise a stripped link that matches and no earlier link of the page matches |
| Contacts.FirstHitCons | astana_2gis_leads/two_gis_lead_collector.py:280-295 | the reference read link by link: the first link when it matches, otherwise the reference on the rest of the page |
| Contacts.ScanSlot | astana_2gis_leads/two_gis_lead_collector.py:280-295 | Scan, the elif loop over the candidate links, fills a channel's slot with its first matching link, provided no higher-ranked channel matches any of the links |
| Contacts.ScanWhatsApp | astana_2gis_leads/two_gis_lead_collector.py:286-287 | the WhatsApp slot always holds the first WhatsApp link |
| Contacts.FirstFilled | astana_2gis_leads/two_gis_lead_collector.py:297-306 | the channel picked is filled and every channel ranked before it is empty; nothing is picked only when all slots are empty |
| Contacts.PassiveSelection | astana_2gis_leads/two_gis_lead_collector.py:271-306 | PassivePrimary of Scan, the contact the scan-and-priority code selects, is the normalised first link of the highest-priority channel present on the page |
| Contacts.Classify | astana_2gis_leads/scripts/run_batch.py:88-100 | the channel returned matches the lower-cased contact and no higher-ranked one does; none is returned only when no channel matches |
| Contacts.ClassifyIff | astana_2gis_leads/scripts/run_batch.py:88-100 | a contact is classified as a channel if and only if it matches that channel and no higher-ranked one |
| Contacts.TypeTag | astana_2gis_leads/scripts/run_batch.py:88-100 | the tag is one of wa, tg, ig, fb, vk, none, and is "none" exactly when no channel matched |
| Contacts.ClassifyOfSocialPick | astana_2gis_leads/scripts/run_batch.py:93-98 | a passively picked Instagram, Facebook or VK link is tagged with the channel it was picked for |
| Contacts.ExcludedIgnoresCase | astana_2gis_leads/two_gis_lead_collector.py:209-217 | Excluded, the website filter, tests the lower-cased link: a link and its lower case are rejected together |
| Browser.OpenTab | astana_2gis_leads/two_gis_lead_collector.py:141-148 | opening a tab keeps every open tab, adds one with a fresh handle, switches to it, and lands it where the web sends the address |
| Browser.ClickCapture | astana_2gis_leads/two_gis_lead_collector.py:174-193 | a click yields an address exactly when the page has the button and the landing address passes the channel's test; a click on a present button leaves the driver on a new tab at the landing address, never back on the old one; on a missing button nothing changes |
| Browser.Cleanup | astana_2gis_leads/two_gis_lead_collector.py:414-422 | after clean-up the main handle is current and the only tabs left are those of the main handle |
| Browser.CleanupValid | astana_2gis_leads/two_gis_lead_collector.py:414-422 | clean-up keeps handles distinct and the driver well formed |
| Browser.CleanupAfterGrowth | astana_2gis_leads/two_gis_lead_collector.py:140-148 | whatever tabs a lookup opened, clean-up returns the driver to exactly its main tab as before the lookup |
| DetailExtractor.LinkVerdict | astana_2gis_leads/two_gis_lead_collector.py:202-219 | a link taken as the website is never excluded (a social network, messenger or 2GIS address) |
| DetailExtractor.LinkVerdictCaught | astana_2gis_leads/two_gis_lead_collector.py:202-219 | with the decoding fault caught, a link never raises and a taken link is never excluded |
| DetailExtractor.CaughtVerdict | astana_2gis_leads/two_gis_lead_collector.py:208-219 | the mended verdict is the as-written verdict with a raise turned into a skip |
| DetailExtractor.ScanVerdicts | astana_2gis_leads/two_gis_lead_collector.py:202-220 | the link scan only fails with the decoding fault; it cannot fail without a raising link; a found website comes from a taken link |
| DetailExtractor.ScanVerdictsSpec | astana_2gis_leads/two_gis_lead_collector.py:202-220 | the scan finds nothing exactly when every link is skipped, and otherwise stops at the first link that is not skipped |
| DetailExtractor.ScanVerdictsCatch | astana_2gis_leads/two_gis_lead_collector.py:202-220 | where the scan does not fail, catching the fault changes nothing |
| DetailExtractor.ScanWebsiteAsWritten | astana_2gis_leads/two_gis_lead_collector.py:195-220 | the link scan as written fails only with the decoding fault and never returns an excluded website |
| DetailExtractor.ScanWebsite | astana_2gis_leads/two_gis_lead_collector.py:195-220 | the mended link scan never returns an excluded website |
| DetailExtractor.ScanWebsiteAgrees | astana_2gis_leads/two_gis_lead_collector.py:195-220 | the mended scan agrees with the one as written wherever that does not fail |
| DetailExtractor.SiteFromButton | astana_2gis_leads/two_gis_lead_collector.py:253-263 | the site button never yields an excluded website |
| DetailExtractor.SiteFromButtonResolves | astana_2gis_leads/two_gis_lead_collector.py:253-263 | the button's address is resolved through the redirect decoder (or kept) and dropped exactly when excluded |
| DetailExtractor.RedirectIsExcluded | astana_2gis_leads/two_gis_lead_collector.py:215-217 | an undecoded link.2gis.com address is always excluded by the "2gis." test |
| DetailExtractor.FirstNonEmpty | astana_2gis_leads/two_gis_lead_collector.py:309-410 | the result is empty exactly when all candidates are, and otherwise is the first non-empty one |
| DetailExtractor.ButtonResults | astana_2gis_leads/two_gis_lead_collector.py:309-410 | one result per channel button, each the normalised address its click captures |
| DetailExtractor.Fallbacks | astana_2gis_leads/two_gis_lead_collector.py:309-410 | a passive contact already found is kept and no button is clicked; the driver only grows |
| DetailExtractor.FallbacksAtHome | astana_2gis_leads/two_gis_lead_collector.py:309-410 | read from the firm's own page, the button chain yields the first non-empty of the passive contact and the channel buttons in priority order |
| DetailExtractor.FallbacksOnBlank | astana_2gis_leads/two_gis_lead_collector.py:309-410 | on a page with no buttons, and no passive contact, the chain yields the empty contact |
| DetailExtractor.FallbacksAsWritten | astana_2gis_leads/two_gis_lead_collector.py:309-410 | with no switch back after a click, each button of the chain is looked for on the page the previous click left in focus |
| DetailExtractor.ContactStep | astana_2gis_leads/two_gis_lead_collector.py:271-410 | the contact step (the passive scan on the focused page, then the button chain) only adds tabs to a well-formed driver |
| DetailExtractor.WebsiteStepAsWritten | astana_2gis_leads/two_gis_lead_collector.py:228-266 | the website step as written fails only with the decoding fault and never keeps an excluded website |
| DetailExtractor.WebsiteOf | astana_2gis_leads/two_gis_lead_collector.py:228-266 | the website read from a firm page is never excluded |
| DetailExtractor.WebsiteStep | astana_2gis_leads/two_gis_lead_collector.py:228-266 | the mended website step returns the website of the firm page and leaves the driver focused on that page |
| DetailExtractor.BodyAsWritten | astana_2gis_leads/two_gis_lead_collector.py:222-412 | the body as written fails only on the firm-page timeout or the decoding fault |
| DetailExtractor.Body | astana_2gis_leads/two_gis_lead_collector.py:222-412 | the mended body times out exactly when the address lacks the firm id, and otherwise returns the contact and website of the firm page |
| DetailExtractor.OpenFirm | astana_2gis_leads/two_gis_lead_collector.py:140-148 | the firm's page is opened in a new current tab at the landing address of its firm URL |
| DetailExtractor.GetPrimaryContactAsWritten | astana_2gis_leads/two_gis_lead_collector.py:126-422 | the lookup as written always ends back on exactly the main tab and fails only on a timeout or the decoding fault |
| DetailExtractor.GetPrimaryContact | astana_2gis_leads/two_gis_lead_collector.py:126-422 | the mended lookup ends on exactly the main tab and returns the firm page's contact and website, or the firm-page timeout when the page never shows the firm id |
| DetailExtractor.AgreesWithoutClicks | astana_2gis_leads/two_gis_lead_collector.py:222-306 | when the links give both a website and a passive contact, no button is clicked and the two lookups agree |
| DetailExtractor.BodiesAgree | astana_2gis_leads/two_gis_lead_collector.py:222-306 | the same agreement for the body on an open firm page |
| DetailExtractor.WebsiteStepsAgree | astana_2gis_leads/two_gis_lead_collector.py:228-232 | when the links give a website, neither step clicks and both return it |
| DetailExtractor.FocusLosesContact | astana_2gis_leads/two_gis_lead_collector.py:246-278 | when the site button lands on a blank page, the lookup as written reads the contact from that page and loses it, while the mended lookup keeps the firm page's contact |
| DetailExtractor.DecodeFaultEscapes | astana_2gis_leads/two_gis_lead_collector.py:69-73 | a link the decoder raises on makes the lookup as written fail, while the mended lookup succeeds |
| DetailExtractor.LinkScanRaisesOnExample | astana_2gis_leads/two_gis_lead_collector.py:202-208 | a firm page whose only link is https://link.2gis.com/%FF makes the link scan as written fail |
| DetailExtractor.ExampleVerdict | astana_2gis_leads/two_gis_lead_collector.py:208 | the verdict on https://link.2gis.com/%FF is a raise |
| DetailExtractor.CardLookupAsWritten | astana_2gis_leads/two_gis_lead_collector.py:126-422 | the reference outcome of the lookup as written: the timeout exactly when the card never shows the firm id, else the decoding fault only when the link scan raises, else the contact read off the page in focus after the site button |
| DetailExtractor.LookupAsWrittenIsCardLookup | astana_2gis_leads/two_gis_lead_collector.py:126-422 | the lookup as written depends on the firm's pages only, not on the driver's tabs: its result is the reference outcome |
| DetailExtractor.BodyAsWrittenIsCardLookup | astana_2gis_leads/two_gis_lead_collector.py:222-412 | the try body as written, on the card's tab, yields the reference outcome |
| Addresses.NormAddr | astana_2gis_leads/scripts/run_batch.py:39-40 | the key is lower-case, trimmed, single-spaced and free of no-break spaces, and has the same words as the lower-cased address with no-break spaces turned into spaces |
| Addresses.NormAddrIdempotent | astana_2gis_leads/scripts/run_batch.py:39-40 | normalising a key again leaves it unchanged |
| Listing.DedupBy | astana_2gis_leads/scripts/run_batch.py:69-77 | the kept items come from the input, have non-empty unseen keys that are pairwise distinct, and cover every non-empty unseen key of the input |
| Listing.DedupSnoc | astana_2gis_leads/scripts/run_batch.py:69-77 | one more item is kept exactly when its key is non-empty and neither seen nor already kept |
| Listing.DedupAppend | astana_2gis_leads/scripts/run_batch.py:69-77 | deduplicating two batches in turn, the second against the keys the first added, equals deduplicating them together |
| Listing.MergeCards | astana_2gis_leads/scripts/run_batch.py:69-77 | the rows grow by the page's deduplicated cards, tagged with the query and in page order, and the seen keys grow by exactly their keys |
| Listing.Cap | astana_2gis_leads/scripts/run_batch.py:82-84 | enrichment stops at the end of the rows or at the budget, and never goes back |
| Listing.Limit | astana_2gis_leads/scripts/run_batch.py:82-84 | the enrichment loop started at row 0 stops at this bound; it is every row without a budget and, with one, never more than the budget and short of it only when the rows run out |
| Listing.CapOfLimit | astana_2gis_leads/scripts/run_batch.py:82-84 | resuming enrichment where the previous page stopped reaches the same bound as enriching everything at once |
| Listing.EnrichOne | astana_2gis_leads/scripts/run_batch.py:86-100 | enriching a firm yields the directory's entry: its contact, website and tag, or the lookup's fault (the timeout, and as written also the decoding fault); the driver ends on its main tab |
| Listing.LookupIsContactFor | astana_2gis_leads/scripts/run_batch.py:86 | either version of the lookup yields a result that depends only on the web and the firm id, not on the driver's tabs |
| Listing.LookupOf | astana_2gis_leads/scripts/run_batch.py:86 | either version of the lookup leaves the driver well formed and on its main tab |
| Listing.UndecodableCard | astana_2gis_leads/two_gis_lead_collector.py:69-73 | a loading card whose link scan raises gives the decoding fault to enrichment as written, and is found by the mended lookup |
| Listing.EnrichRows | astana_2gis_leads/scripts/run_batch.py:82-102 | the rows from the resume point to the budget are enriched in order; it succeeds exactly when every lookup among them succeeds, on failure stops at a row within the budget whose lookup fails, with that firm's fault, every row before it from the resume point having loaded; and leaves every other row unchanged |
| Listing.ExpectedAppend | astana_2gis_leads/scripts/run_batch.py:69-77 | appending a page's new rows after the enriched ones keeps the enrichment of the old rows |
| Listing.Visit | astana_2gis_leads/scripts/run_batch.py:104-117 | the loop stops at the page limit or the last page, having advanced every page before; it fails at the first page whose click leaves the first firm unchanged |
| Listing.CollectedStep | astana_2gis_leads/scripts/run_batch.py:64-77 | one more page adds its deduplicated new cards after the ones already collected |
| Listing.CollectedPrefix | astana_2gis_leads/scripts/run_batch.py:69-77 | the rows of earlier pages are a prefix of the rows of later ones |
| Listing.MergedPage | astana_2gis_leads/scripts/run_batch.py:69-77 | merging a page's cards into the rows of the pages before it gives the rows of the pages up to it |
| Listing.AllFoundEarlier | astana_2gis_leads/scripts/run_batch.py:82-102 | if every firm in the budget loads after more pages, every firm in the budget loaded after fewer |
| Listing.FaultPersists | astana_2gis_leads/scripts/run_batch.py:82-102 | a firm that fails to load within the budget stays within the budget of every later page |
| RunBatch.QueryLinesSpec | astana_2gis_leads/scripts/run_batch.py:37 | every query kept is stripped, non-empty and not a comment, and a query is kept exactly when some line strips to it |
| RunBatch.ReadQueriesSpec | astana_2gis_leads/scripts/run_batch.py:35-37 | ReadQueries keeps exactly the stripped, non-empty, non-comment lines of the file, each a one-line query |
| RunBatch.ReadQueriesOfUnlines | astana_2gis_leads/scripts/run_batch.py:35-37 | a file written one clean query per line is read back as those queries, in order |
| RunBatch.QueryLinesOfQueries | astana_2gis_leads/scripts/run_batch.py:37 | filtering lines that are already clean queries keeps them all |
| RunBatch.PySlice | astana_2gis_leads/scripts/run_batch.py:124 | a Python slice with non-negative bounds: its length is clipped to the list and its items are the list's items from the lower bound on |
| RunBatch.SelectedInclusive | astana_2gis_leads/scripts/run_batch.py:26-27 | Selected, the mended selection, is lines START_LINE through END_LINE inclusive, clipped to the file |
| RunBatch.SelectedAsWrittenOverruns | astana_2gis_leads/scripts/run_batch.py:124 | SelectedAsWritten, the selection as written, takes one query past END_LINE whenever the file has it |
| RunBatch.SelectionExample | astana_2gis_leads/scripts/run_batch.py:124 | with START_LINE = END_LINE = 1 and two queries, the code runs both and the mended selection runs only the first |
| RunBatch.QueryOfUrl | astana_2gis_leads/scripts/run_batch.py:32-33 | BuildQueryUrl puts the percent-encoded stripped query last in the search address, which decodes back to the query |
| RunBatch.VisitPage | astana_2gis_leads/scripts/run_batch.py:64-102 | one round of the loop turns the state after the pages before into the state after this page, or fails with the fault of a firm within the budget, at or past the resume point, whose lookup fails while every firm before it loaded |
| RunBatch.PageLoop | astana_2gis_leads/scripts/run_batch.py:59-120 | the loop succeeds exactly when pagination completes and the lookup of every firm within the budget succeeds, and then returns the tagged, deduplicated, enriched rows of all pages reached |
| RunBatch.EnrichFaultStops | astana_2gis_leads/scripts/run_batch.py:82-102 | a firm within the budget whose lookup fails makes the whole search fail |
| RunBatch.UndecodableCardStopsQuery | astana_2gis_leads/scripts/run_batch.py:82-102 | a card with an undecodable redirect within the budget of the first page makes the whole query as written fail, while every directory of the mended lookup finds that firm |
| RunBatch.RunOneQuery | astana_2gis_leads/scripts/run_batch.py:47-120 | run_one_query on its search results: the rows of the page loop with normalised addresses as keys and the query as tag |
| RunBatch.MasterRowsStops | astana_2gis_leads/scripts/run_batch.py:139-160 | once a query fails, the whole run fails |
| RunBatch.Batch | astana_2gis_leads/scripts/run_batch.py:139-160 | main's loop over given queries succeeds exactly when every query succeeds, and its master table is their rows concatenated in order |
| RunBatch.BatchAsWritten | astana_2gis_leads/scripts/run_batch.py:122-163 | main as written runs the queries of the as-written slice (one past END_LINE) with the lookup as written; it succeeds exactly when each of them does, and fails only with the timeout, the decoding fault or a page that does not advance |
| RunBatch.BatchMended | astana_2gis_leads/scripts/run_batch.py:122-163 | main mended runs lines START_LINE..END_LINE with the mended lookup, and fails only with the timeout or a page that does not advance |
| RunList.MergePrevious | astana_2gis_leads/scripts/run_selenium_list.py:134-169 | merging the page just left and resuming enrichment at the old row count gives the state after that page, or fails on a firm within the budget |
| RunList.ListLoop | astana_2gis_leads/scripts/run_selenium_list.py:98-169 | the loop succeeds exactly when pagination completes and the lookup of every firm within the budget succeeds, and then holds the rows of the pages before the last one reached |
| RunList.ListFaultStops | astana_2gis_leads/scripts/run_selenium_list.py:148-166 | a firm within the budget whose lookup fails makes the whole run fail |
| RunList.RunList | astana_2gis_leads/scripts/run_selenium_list.py:18-169 | the script as written, with three pages, 750 enrichments and the lookup as written, keeps the rows of every page but the last one reached, and fails only with the timeout, the decoding fault or a page that does not advance |
| RunList.RunListMended | astana_2gis_leads/scripts/run_selenium_list.py:98-169 | merging before the stop checks, and the mended lookup, give the rows of every page reached, as run_one_query does |
| RunList.LastPageDropped | astana_2gis_leads/scripts/run_selenium_list.py:99-143 | a search with one page of one firm: the script keeps no row, the mended loop keeps the firm |
| MasterMerge.First | astana_2gis_leads/export_excel.py:25 | a row with the given address is found exactly when the address occurs, and it is the first such row: no earlier row has that address |
| MasterMerge.FirstConcat | astana_2gis_leads/export_excel.py:22-25 | in the stacked table, the first row with an address comes from the new leads whenever they hold that address |
| MasterMerge.DropFrom | astana_2gis_leads/export_excel.py:25 | the rows kept come from the table, have pairwise distinct addresses, and cover every address of the table |
| MasterMerge.DropFromFirst | astana_2gis_leads/export_excel.py:25 | a row is kept if and only if it is the first row with its address |
| MasterMerge.StringifyIds | astana_2gis_leads/export_excel.py:29 | every id becomes text, ids that were text are unchanged, and every other column stays as it was |
| MasterMerge.MergedRows | astana_2gis_leads/export_excel.py:25-29 | after dropping duplicates and stringifying ids, a row is present exactly when it is the first row of its address with its id as text |
| MasterMerge.StrLessTransitive | astana_2gis_leads/export_excel.py:31 | the lexicographic string order sort_values uses is transitive |
| MasterMerge.StrLessTotal | astana_2gis_leads/export_excel.py:31 | of two different strings, one comes first |
| MasterMerge.LeadLessTransitive | astana_2gis_leads/export_excel.py:31 | the order by query then address, missing values last, is transitive |
| MasterMerge.LeadLessTotal | astana_2gis_leads/export_excel.py:31 | two rows differing in query or address are ordered one way or the other |
| MasterMerge.Insert | astana_2gis_leads/export_excel.py:31 | inserting a row into a sorted table keeps it sorted and adds exactly that row |
| MasterMerge.SortLeads | astana_2gis_leads/export_excel.py:31 | the rows come out sorted by query then address, as a permutation of the rows that went in |
| MasterMerge.SortedUnique | astana_2gis_leads/export_excel.py:31 | two sorted permutations of rows with distinct addresses are equal, so the order of the result does not depend on the sort algorithm |
| MasterMerge.SaveLeadsFails | astana_2gis_leads/export_excel.py:14-31 | SaveLeads: the merge fails exactly when the stacked table lacks the address, id or query column, naming the first missing one in that order |
| MasterMerge.SaveLeadsShape | astana_2gis_leads/export_excel.py:14-31 | SaveLeads: a merged table keeps the stacked columns and is sorted, free of duplicate addresses and with every id present as text |
| MasterMerge.SaveLeadsRows | astana_2gis_leads/export_excel.py:20-31 | SaveLeads: the merged table has exactly the addresses of both tables, each once, with the first row for it in the stack |
| MasterMerge.NewBeatsOld | astana_2gis_leads/export_excel.py:20-25 | for an address among the new leads, the merged row is the first new lead with it, whatever the master file held |
| MasterMerge.StackedWellFormed | astana_2gis_leads/export_excel.py:16-22 | the table concat builds from two tables that hold no value in a column they lack holds none in a column it lacks |
| MasterMerge.MissingColumnIsEmpty | astana_2gis_leads/export_excel.py:14-31 | SaveLeads: on well-formed tables, the column a failed merge names holds no value in any stacked row |
| MasterMerge.NoFileIsEmptyFile | astana_2gis_leads/export_excel.py:16-22 | a missing master file acts as an empty one |
| MasterMerge.CardRowsFail | astana_2gis_leads/export_excel.py:14-29 | rows shaped as the collector's card records have no id column, so the merge fails with a missing id |
| MasterMerge.SaveLeadsIdempotent | astana_2gis_leads/export_excel.py:14-31 | SaveLeads: merging the same leads into the saved master again leaves it as it was |
| MasterMerge.ColumnName | astana_2gis_leads/export_excel.py:36-39 | a column name is a non-empty string of capital letters |
| MasterMerge.ColumnNumberOfName | astana_2gis_leads/export_excel.py:36-39 | reading a column name back as a number gives the column number, so every column has its own name |
| MasterMerge.AsWrittenAgreesToZ | astana_2gis_leads/export_excel.py:39 | ColumnLetterAsWritten: chr(64 + n) is the right column letter for columns 1 to 26 |
| MasterMerge.AsWrittenBreaksAfterZ | astana_2gis_leads/export_excel.py:39 | ColumnLetterAsWritten: from column 27 on, chr(64 + n) is not a capital letter; column 27 gives '[' where "AA" is meant |

## Left out

- Browser start-up, `driver.get`, `time.sleep` and random delays, `print`
  and the `pick_scroll_root` / `first_firm_id` / `click_page` helpers. The
  results of a search are given as a sequence of `ResultsPage`s, each with
  its cards and its first firm id. `selenium_helpers.py` is not part of this
  model.
- The `collect_cards_from_root` JavaScript. The cards a page yields are
  input to the model.
- The XPath `translate`/`contains` button locators. A page's buttons are a
  map from `Control` (the site button or a channel's button) to the address
  the click opens.
- The `WebDriverWait` timeouts and the click, tab and URL waits inside
  `_click_open_newtab_and_get_url`. A click on a button the page has opens
  its tab. When the address fails the channel's test, the wait's exception
  is caught by the caller, as in the source.
- Excel files, `openpyxl` styling and `run_id` / `run_date` / `city` / CRM
  columns, `safe_name` and the per-query files. `save_leads_to_excel` is a
  function from the new leads and the master table read from the file to
  the table written. Only the column letter of the range reference is
  modelled, not its row number.
- Column order. A `Frame` holds its column names as a set, so the ordered
  union `concat` builds (the new table's columns first, then the master's
  others) and the order of columns in the file are not modelled. Only the
  three columns the merge reads are tied to the rows' values
  (`MasterMerge.WellFormed`).
- pandas dtypes. A missing value is `None`. `astype(str)` turns it into
  "nan", and numeric ids that pandas would print as floats are not
  modelled.
- `Lower` follows Python's `str.lower` for ASCII, Latin-1 and Cyrillic
  letters only; other scripts are left unchanged.
- The CSS selectors match the `href` attribute as written, while
  `get_attribute("href")` returns the browser's resolved address. The model
  gives each link as one string and uses it for both; only that difference
  is left out. The selectors, the strip and the skip of empty links are
  modelled on that string (`Contacts.IsCandidate`, `Contacts.ScanFrom`,
  `DetailExtractor.IsWebLink`).
- The unused `requests` session and cache of `TwoGisLeadCollector`, and
  `request_preparing`.

## Findings

| source | as written | input that shows it | evidently intended | confidence | as-written member | corrected member |
|---|---|---|---|---|---|---|
| astana_2gis_leads/two_gis_lead_collector.py:69-73 | `b64decode` is guarded by `except binascii.Error`, but a non-ASCII string makes it raise `ValueError`, which escapes and aborts the whole lookup and the run | a firm page whose only link is `https://link.2gis.com/%FF` (percent-decoded to U+FFFD) | an undecodable redirect resolves to nothing and the link is skipped | not executed | LinkResolver.ExtractWebsiteAsWritten, shown by LinkResolver.AsWrittenRaisesOnNonAscii, DetailExtractor.DecodeFaultEscapes and, for the run, RunBatch.UndecodableCardStopsQuery | LinkResolver.ExtractWebsite, DetailExtractor.GetPrimaryContact, used by RunBatch.BatchMended |
| astana_2gis_leads/two_gis_lead_collector.py:189 | `_click_open_newtab_and_get_url` switches to the new tab and never back, so after the site button is clicked the passive scan and the channel buttons read the opened site instead of the firm page | a firm page with a WhatsApp link and no website link, whose site button opens a blank page | the contact is read from the firm page | not executed | DetailExtractor.GetPrimaryContactAsWritten, shown by DetailExtractor.FocusLosesContact, used by RunBatch.BatchAsWritten | DetailExtractor.GetPrimaryContact, used by RunBatch.BatchMended |
| astana_2gis_leads/scripts/run_batch.py:124 | `queries[START_LINE - 1: END_LINE + 1]` takes one line past END_LINE, which line 27 declares inclusive | START_LINE = END_LINE = 1 with two queries in the file: both are run | lines START_LINE..END_LINE inclusive, `queries[START_LINE - 1: END_LINE]` | not executed | RunBatch.SelectedAsWritten, shown by RunBatch.SelectionExample and RunBatch.SelectedAsWrittenOverruns, used by RunBatch.BatchAsWritten | RunBatch.Selected, with RunBatch.SelectedInclusive, used by RunBatch.BatchMended |
| astana_2gis_leads/export_excel.py:39 | the range reference uses `chr(64 + end_col)`, which is a column letter only up to 26 columns | a table of 27 columns gives `A1:[n` | the Excel column name ("AA" for 27) | not executed | MasterMerge.ColumnLetterAsWritten, shown by MasterMerge.AsWrittenBreaksAfterZ | MasterMerge.ColumnName, with MasterMerge.ColumnNumberOfName |
| astana_2gis_leads/scripts/run_selenium_list.py:103-143 | the stop checks come before the merge, which handles the cards of the page just left only after the click, so the cards of the last page reached are never merged | a search with a single page holding one firm: no row is saved | every page reached contributes its cards, as in `run_one_query` | not executed | RunList.ListLoop, shown by RunList.LastPageDropped | RunList.RunListMended |

=== FILE: addresses.dfy ===
/** `norm_addr`: the key both run loops deduplicate cards by. */
module Addresses {
  import opened Text

  /** `s.replace("\xa0", " ")`. */
  function ReplaceNbsp(s: string): (r: string)
    ensures |r| == |s|
    ensures '\U{A0}' !in r
  {
    seq(|s|, i requires 0 <= i < |s| => if s[i] == '\U{A0}' then ' ' else s[i])
  }

  /** `" ".join(s.lower().replace("\xa0", " ").split())`: lower-case, the
      no-break space turned into a space, runs of whitespace collapsed to one
      space, the ends trimmed. (`s or ""` maps a missing address to `""`,
      which is how a missing address is represented here.) */
  function NormAddr(s: string): (r: string)
    ensures SingleSpaced(r) && Trimmed(r)
    ensures IsLower(r)
    ensures '\U{A0}' !in r
    ensures Words(r) == Words(ReplaceNbsp(Lower(s)))
  {
    var x := ReplaceNbsp(Lower(s));
    var ws := Words(x);
    NormAddrShape(x);
    LoweredIsLower(s);
    JoinShape(ws);
    WordsOfJoin(ws);
    JoinSpace(ws)
  }

  /** The facts about the words of the lowered text that `NormAddr` needs. */
  lemma NormAddrShape(x: string)
    ensures var ws := Words(x); var r := JoinSpace(ws);
      AreWords(ws) && '\U{A0}' !in r && (IsLower(x) ==> IsLower(r))
  {
    var ws := Words(x);
    JoinChars(ws, c => c != '\U{A0}');
    if IsLower(x) {
      WordsChars(x, c => LowerChar(c) == c);
      JoinChars(ws, c => LowerChar(c) == c);
    }
  }

  /** Lower-casing and then replacing the no-break space leaves lower-case
      text. */
  lemma LoweredIsLower(s: string)
    ensures IsLower(ReplaceNbsp(Lower(s)))
  {
    LowerIsLower(s);
  }

  /** A property every character of `x` has, every character of its words
      has too. */
  lemma {:induction false} WordsChars(x: string, p: char -> bool)
    requires forall i :: 0 <= i < |x| ==> p(x[i])
    ensures forall k, i :: 0 <= k < |Words(x)| && 0 <= i < |Words(x)[k]| ==> p(Words(x)[k][i])
    decreases |x|
  {
    var t := LStrip(x);
    if t != [] {
      var n := TokenLen(t);
      var off := |x| - |t|;
      assert t[..n] == x[off..off + n] && t[n..] == x[off + n..];
      SliceChars(x, off, off + n, p);
      SliceChars(x, off + n, |x|, p);
      WordsChars(t[n..], p);
      assert Words(x) == [t[..n]] + Words(t[n..]);
      CharsCons(t[..n], Words(t[n..]), p);
    }
  }

  lemma SliceChars(x: string, a: nat, b: nat, p: char -> bool)
    requires a <= b <= |x|
    requires forall i :: 0 <= i < |x| ==> p(x[i])
    ensures forall i :: 0 <= i < |x[a..b]| ==> p(x[a..b][i])
  {
    forall i | 0 <= i < |x[a..b]| ensures p(x[a..b][i]) {
      assert x[a..b][i] == x[a + i];
    }
  }

  lemma CharsCons(head: string, tail: seq<string>, p: char -> bool)
    requires forall i :: 0 <= i < |head| ==> p(head[i])
    requires forall k, i :: 0 <= k < |tail| && 0 <= i < |tail[k]| ==> p(tail[k][i])
    ensures forall k, i :: 0 <= k < |[head] + tail| && 0 <= i < |([head] + tail)[k]| ==> p(([head] + tail)[k][i])
  {
    var ws := [head] + tail;
    forall k, i | 0 <= k < |ws| && 0 <= i < |ws[k]| ensures p(ws[k][i]) {
      if k > 0 {
        assert ws[k] == tail[k - 1];
      }
    }
  }

  /** Normalising twice is normalising once, so a stored key normalises to
      itself. */
  lemma NormAddrIdempotent(s: string)
    ensures NormAddr(NormAddr(s)) == NormAddr(s)
  {
    var r := NormAddr(s);
    LowerOfLower(r);
    assert ReplaceNbsp(r) == r;
    assert Words(ReplaceNbsp(Lower(r))) == Words(ReplaceNbsp(Lower(s)));
  }
}

=== FILE: browser.dfy ===
/** The slice of Selenium the contact lookup relies on, as a state machine:
    open tabs with their handles and addresses, the focused tab, opening a
    tab, clicking a button that opens a new tab, and closing tabs. The web
    itself is an oracle: what each address shows and where it redirects. */
module Browser {
  import opened Outcomes
  import opened Text
  import opened Contacts

  /** The buttons the lookup clicks: the "website" button and one button per
      messenger or network. */
  datatype Control = SiteButton | ChannelButton(channel: Channel)

  /** A loaded page: its link targets in document order, and for each button
      it shows, the address that clicking it opens in a new tab. */
  datatype Page = Page(hrefs: seq<string>, buttons: map<Control, string>)

  /** A page with no links and no buttons (an address the oracle does not know). */
  const Blank: Page := Page([], map[])

  /** The web: the page at each address, and the addresses that redirect. */
  datatype Web = Web(pages: map<string, Page>, redirects: map<string, string>)

  /** Where the browser ends up after loading `url`. */
  function Land(w: Web, url: string): string {
    if url in w.redirects then w.redirects[url] else url
  }

  function Content(w: Web, url: string): Page {
    if url in w.pages then w.pages[url] else Blank
  }

  // ---------------------------------------------------------------------------
  // Tabs

  datatype Tab = Tab(handle: nat, url: string)

  /** The driver: open tabs in opening order (`window_handles`), the handle
      of the focused tab, and the next handle to hand out. */
  datatype Driver = Driver(tabs: seq<Tab>, current: nat, nextHandle: nat)

  /** Handles are distinct and all below `nextHandle`. */
  predicate Valid(d: Driver) {
    && (forall i :: 0 <= i < |d.tabs| ==> d.tabs[i].handle < d.nextHandle)
    && (forall i, j :: 0 <= i < j < |d.tabs| ==> d.tabs[i].handle != d.tabs[j].handle)
  }

  predicate IsOpen(d: Driver, h: nat) {
    exists i :: 0 <= i < |d.tabs| && d.tabs[i].handle == h
  }

  /** The set of open handles. */
  function HandleSet(d: Driver): set<nat> {
    set t | t in d.tabs :: t.handle
  }

  lemma OpenOfHandleSet(d: Driver, h: nat)
    requires h in HandleSet(d)
    ensures IsOpen(d, h)
  {
    var t :| t in d.tabs && t.handle == h;
    var i :| 0 <= i < |d.tabs| && d.tabs[i] == t;
  }

  /** The address shown by the tab with handle `h`; `""` if none is open. */
  function UrlIn(tabs: seq<Tab>, h: nat): (u: string)
    ensures (forall i :: 0 <= i < |tabs| ==> tabs[i].handle != h) ==> u == ""
  {
    if tabs == [] then ""
    else if tabs[0].handle == h then tabs[0].url
    else UrlIn(tabs[1..], h)
  }

  /** With distinct handles, a tab's handle finds that tab's address. */
  lemma {:induction false} UrlInAt(tabs: seq<Tab>, i: nat)
    requires i < |tabs|
    requires forall a, b :: 0 <= a < b < |tabs| ==> tabs[a].handle != tabs[b].handle
    ensures UrlIn(tabs, tabs[i].handle) == tabs[i].url
    decreases i
  {
    if i > 0 {
      assert tabs[0].handle != tabs[i].handle;
      UrlInAt(tabs[1..], i - 1);
    }
  }

  /** `driver.current_url`. */
  function CurrentUrl(d: Driver): string {
    UrlIn(d.tabs, d.current)
  }

  function CurrentPage(d: Driver, w: Web): Page {
    Content(w, CurrentUrl(d))
  }

  /** `e` is `d` with tabs opened after it: the old tabs unchanged and in
      place, every new handle at least `d`'s next handle. */
  predicate Grows(d: Driver, e: Driver) {
    && |d.tabs| <= |e.tabs| && e.tabs[..|d.tabs|] == d.tabs && d.nextHandle <= e.nextHandle
    && (forall i :: |d.tabs| <= i < |e.tabs| ==> d.nextHandle <= e.tabs[i].handle)
  }

  lemma GrowsTrans(a: Driver, b: Driver, c: Driver)
    requires Grows(a, b) && Grows(b, c)
    ensures Grows(a, c)
  {
    assert c.tabs[..|a.tabs|] == c.tabs[..|b.tabs|][..|a.tabs|];
    forall i | |a.tabs| <= i < |c.tabs| ensures a.nextHandle <= c.tabs[i].handle {
      if i < |b.tabs| {
        assert c.tabs[i] == c.tabs[..|b.tabs|][i] == b.tabs[i];
      }
    }
  }

  /** `window.open(url, '_blank')` followed by switching to the newest
      handle: the new tab shows where `url` lands and has the focus. */
  function OpenTab(d: Driver, w: Web, url: string): (r: Driver)
    ensures Valid(d) ==> Valid(r) && Grows(d, r)
    ensures Valid(d) ==> IsOpen(r, r.current) && CurrentUrl(r) == Land(w, url)
    ensures d.nextHandle <= r.current && |d.tabs| <= |r.tabs| && r.tabs[..|d.tabs|] == d.tabs
  {
    var r := Driver(d.tabs + [Tab(d.nextHandle, Land(w, url))], d.nextHandle, d.nextHandle + 1);
    assert r.tabs[..|d.tabs|] == d.tabs;
    if Valid(d) then
      assert r.tabs[|d.tabs|].handle == r.current;
      UrlInAt(r.tabs, |d.tabs|);
      r
    else r
  }

  /** The `url_ok` test each click waits for, on the new tab's address. */
  predicate Accepts(ctl: Control, u: string) {
    match ctl
    case SiteButton => StartsWith(u, "http")
    case ChannelButton(WhatsApp) => Contains(u, "whatsapp") || Contains(u, "wa.me")
    case ChannelButton(Telegram) => Contains(u, "t.me/") || StartsWith(u, "tg://")
    case ChannelButton(Instagram) => Contains(u, "instagram.com")
    case ChannelButton(Facebook) => Contains(u, "facebook.com")
    case ChannelButton(VKontakte) => Contains(u, "vk.com")
  }

  /** Reference: what a click on `ctl` captures, read off the page and the
      web alone: the landing address of the button's target, when the page
      has the button and that address passes `url_ok`. */
  function Capture(w: Web, page: Page, ctl: Control): (r: Option<string>)
    ensures r.Some? ==> Accepts(ctl, r.value)
    ensures r.Some? <==> ctl in page.buttons && Accepts(ctl, Land(w, page.buttons[ctl]))
  {
    if ctl in page.buttons && Accepts(ctl, Land(w, page.buttons[ctl])) then
      Some(Land(w, page.buttons[ctl]))
    else None
  }

  /** `_click_open_newtab_and_get_url`: no button means the click wait times
      out and nothing changes; otherwise the button opens a new tab, the
      focus moves to it and stays there, and its address is returned if it
      passes `url_ok` (else the wait times out). A timeout is `None`. */
  function ClickCapture(d: Driver, w: Web, ctl: Control): (r: (Option<string>, Driver))
    ensures r.0 == Capture(w, CurrentPage(d, w), ctl)
    ensures ctl !in CurrentPage(d, w).buttons ==> r.1 == d
    ensures Valid(d) ==> Valid(r.1) && Grows(d, r.1)
    ensures ctl in CurrentPage(d, w).buttons ==> d.nextHandle <= r.1.current
    ensures Valid(d) && ctl in CurrentPage(d, w).buttons ==>
              IsOpen(r.1, r.1.current) && CurrentUrl(r.1) == Land(w, CurrentPage(d, w).buttons[ctl])
  {
    var page := CurrentPage(d, w);
    if ctl !in page.buttons then (None, d)
    else
      var target := Land(w, page.buttons[ctl]);
      var e := OpenTab(d, w, page.buttons[ctl]);
      (if Accepts(ctl, target) then Some(target) else None, e)
  }

  /** Tabs appended after the one with handle `h` do not change what `h`
      shows. */
  lemma {:induction false} UrlInPrefix(a: seq<Tab>, b: seq<Tab>, h: nat)
    requires exists i :: 0 <= i < |a| && a[i].handle == h
    ensures UrlIn(a + b, h) == UrlIn(a, h)
  {
    if a[0].handle != h {
      var i :| 0 <= i < |a| && a[i].handle == h;
      assert a[1..][i - 1].handle == h;
      assert (a + b)[1..] == a[1..] + b;
      UrlInPrefix(a[1..], b, h);
    }
  }

  /** Switching back to a tab of `d` after opening more shows the same page
      as before. */
  lemma Refocus(d: Driver, e: Driver, w: Web)
    requires Valid(d) && IsOpen(d, d.current) && Grows(d, e)
    ensures CurrentPage(e.(current := d.current), w) == CurrentPage(d, w)
    ensures IsOpen(e.(current := d.current), d.current)
  {
    var i :| 0 <= i < |d.tabs| && d.tabs[i].handle == d.current;
    assert e.tabs == d.tabs + e.tabs[|d.tabs|..] by {
      assert e.tabs == e.tabs[..|d.tabs|] + e.tabs[|d.tabs|..];
    }
    UrlInPrefix(d.tabs, e.tabs[|d.tabs|..], d.current);
    assert e.tabs[i] == e.tabs[..|d.tabs|][i];
  }

  // ---------------------------------------------------------------------------
  // Closing tabs

  /** The tabs left after closing handle `h`. */
  function Without(tabs: seq<Tab>, h: nat): (r: seq<Tab>)
    ensures forall t :: t in r <==> t in tabs && t.handle != h
  {
    if tabs == [] then []
    else if tabs[0].handle == h then Without(tabs[1..], h)
    else [tabs[0]] + Without(tabs[1..], h)
  }

  /** The cleanup loop over a snapshot `hs` of the handles: every handle in
      it other than `main` is switched to and closed. */
  function CloseEach(tabs: seq<Tab>, hs: seq<nat>, main: nat): (r: seq<Tab>)
    ensures forall t :: t in r <==> t in tabs && (t.handle == main || t.handle !in hs)
    decreases |hs|
  {
    if hs == [] then tabs
    else
      var next := if hs[0] != main then Without(tabs, hs[0]) else tabs;
      CloseEach(next, hs[1..], main)
  }

  /** `list(driver.window_handles)`. */
  function Handles(tabs: seq<Tab>): (hs: seq<nat>)
    ensures |hs| == |tabs| && forall i :: 0 <= i < |tabs| ==> hs[i] == tabs[i].handle
  {
    if tabs == [] then [] else [tabs[0].handle] + Handles(tabs[1..])
  }

  /** The `finally` block: close every tab but `main`, then focus `main`.
      Only `main`'s tab survives, and it has the focus. */
  function Cleanup(d: Driver, main: nat): (r: Driver)
    ensures r.current == main && r.nextHandle == d.nextHandle
    ensures forall t :: t in r.tabs <==> t in d.tabs && t.handle == main
    ensures HandleSet(r) == HandleSet(d) * {main}
  {
    var hs := Handles(d.tabs);
    HandlesCover(d.tabs);
    Driver(CloseEach(d.tabs, hs, main), main, d.nextHandle)
  }

  lemma HandlesCover(tabs: seq<Tab>)
    ensures forall t :: t in tabs ==> t.handle in Handles(tabs)
  {
    var hs := Handles(tabs);
    forall t | t in tabs ensures t.handle in hs {
      var i :| 0 <= i < |tabs| && tabs[i] == t;
      assert hs[i] == t.handle;
    }
  }

  /** No two tabs share a handle. */
  predicate DistinctHandles(tabs: seq<Tab>) {
    forall i, j :: 0 <= i < j < |tabs| ==> tabs[i].handle != tabs[j].handle
  }

  lemma DistinctTail(tabs: seq<Tab>)
    requires tabs != [] && DistinctHandles(tabs)
    ensures DistinctHandles(tabs[1..])
  {
    var tail := tabs[1..];
    forall i, j | 0 <= i < j < |tail| ensures tail[i].handle != tail[j].handle {
      assert tail[i] == tabs[i + 1] && tail[j] == tabs[j + 1];
    }
  }

  lemma ConsDistinct(t: Tab, rest: seq<Tab>)
    requires DistinctHandles(rest)
    requires forall u :: u in rest ==> u.handle != t.handle
    ensures DistinctHandles([t] + rest)
  {
    var r := [t] + rest;
    forall i, j | 0 <= i < j < |r| ensures r[i].handle != r[j].handle {
      assert r[j] == rest[j - 1];
      if i > 0 {
        assert r[i] == rest[i - 1];
      }
    }
  }

  /** Closing a tab never makes two tabs share a handle. */
  lemma {:induction false} WithoutDistinct(tabs: seq<Tab>, h: nat)
    requires DistinctHandles(tabs)
    ensures DistinctHandles(Without(tabs, h))
  {
    if tabs != [] {
      var tail := tabs[1..];
      DistinctTail(tabs);
      WithoutDistinct(tail, h);
      if tabs[0].handle != h {
        var rest := Without(tail, h);
        forall u | u in rest ensures u.handle != tabs[0].handle {
          var k :| 0 <= k < |tail| && tail[k] == u;
          assert tail[k] == tabs[k + 1];
        }
        ConsDistinct(tabs[0], rest);
      }
    }
  }

  lemma {:induction false} CloseEachDistinct(tabs: seq<Tab>, hs: seq<nat>, main: nat)
    requires DistinctHandles(tabs)
    ensures DistinctHandles(CloseEach(tabs, hs, main))
    decreases |hs|
  {
    if hs != [] {
      var next := if hs[0] != main then Without(tabs, hs[0]) else tabs;
      if hs[0] != main {
        WithoutDistinct(tabs, hs[0]);
      }
      CloseEachDistinct(next, hs[1..], main);
    }
  }

  /** The cleanup leaves a valid driver. */
  lemma CleanupValid(d: Driver, main: nat)
    requires Valid(d)
    ensures Valid(Cleanup(d, main))
  {
    var r := Cleanup(d, main);
    assert DistinctHandles(d.tabs);
    CloseEachDistinct(d.tabs, Handles(d.tabs), main);
    forall i | 0 <= i < |r.tabs| ensures r.tabs[i].handle < r.nextHandle {
      assert r.tabs[i] in d.tabs;
    }
  }

  /** Tabs opened on top of `d` carry handles `d` never used, so the tabs
      with a handle of `d` are exactly `d`'s. */
  lemma GrowsKeepsOld(d: Driver, e: Driver, h: nat)
    requires Valid(d) && Grows(d, e) && h < d.nextHandle
    ensures forall t :: t in e.tabs && t.handle == h <==> t in d.tabs && t.handle == h
  {
    forall t | t in e.tabs && t.handle == h ensures t in d.tabs {
      var i :| 0 <= i < |e.tabs| && e.tabs[i] == t;
      assert i < |d.tabs|;
      assert t == e.tabs[..|d.tabs|][i];
    }
    forall t | t in d.tabs ensures t in e.tabs {
      var i :| 0 <= i < |d.tabs| && d.tabs[i] == t;
      assert t == e.tabs[..|d.tabs|][i];
    }
  }

  /** After any number of tabs opened on top of `d`, the cleanup leaves
      exactly the tab that had the focus in `d`, focused. */
  lemma CleanupAfterGrowth(d: Driver, e: Driver)
    requires Valid(d) && IsOpen(d, d.current) && Grows(d, e)
    ensures Cleanup(e, d.current).current == d.current
    ensures forall t :: t in Cleanup(e, d.current).tabs <==> t in d.tabs && t.handle == d.current
    ensures HandleSet(Cleanup(e, d.current)) == {d.current}
  {
    var main := d.current;
    var k :| 0 <= k < |d.tabs| && d.tabs[k].handle == main;
    KeptTabs(d, e, main);
    OldHandleOpen(d, e, k);
    OnlyHandle(e, main);
  }

  lemma KeptTabs(d: Driver, e: Driver, h: nat)
    requires Valid(d) && Grows(d, e) && h < d.nextHandle
    ensures forall t :: t in Cleanup(e, h).tabs <==> t in d.tabs && t.handle == h
  {
    GrowsKeepsOld(d, e, h);
  }

  lemma OldHandleOpen(d: Driver, e: Driver, k: nat)
    requires Grows(d, e) && k < |d.tabs|
    ensures d.tabs[k].handle in HandleSet(e)
  {
    assert e.tabs[k] == e.tabs[..|d.tabs|][k] == d.tabs[k];
  }

  lemma OnlyHandle(e: Driver, h: nat)
    requires h in HandleSet(e)
    ensures HandleSet(Cleanup(e, h)) == {h}
  {
    assert HandleSet(Cleanup(e, h)) == HandleSet(e) * {h};
  }
}

=== FILE: codecs.dfy ===
/** The library codecs `_extract_website_from_href` leans on, written out the
    way CPython implements them: UTF-8 decoding with the `ignore` and
    `replace` error handlers, `urllib.parse.unquote`/`quote`, and the
    non-strict base64 decoder behind `base64.b64decode` (section 4 of RFC 4648
    alphabet), each with the encoder that inverts it. */
module Codecs {
  import opened Outcomes
  import opened Text

  newtype byte = x: int | 0 <= x < 0x100

  // ---------------------------------------------------------------------------
  // UTF-8

  predicate IsCont(b: byte) {
    0x80 <= b <= 0xBF
  }

  /** One decoding step: a well-formed sequence gives its scalar value and
      length; an ill-formed one gives the length of its maximal subpart, the
      span CPython's error handlers skip (one `U+FFFD` under `replace`). */
  datatype Step = Scalar(c: char, len: nat) | Bad(len: nat)

  function DecodeStep(bs: seq<byte>): (st: Step)
    requires |bs| > 0
    ensures 1 <= st.len <= |bs|
  {
    var b0 := bs[0] as int;
    if b0 < 0x80 then Scalar(b0 as char, 1)
    else if 0xC2 <= b0 <= 0xDF then
      if |bs| < 2 || !IsCont(bs[1]) then Bad(1)
      else Scalar(((b0 - 0xC0) * 64 + (bs[1] as int - 0x80)) as char, 2)
    else if 0xE0 <= b0 <= 0xEF then
      var lo := if b0 == 0xE0 then 0xA0 else 0x80;
      var hi := if b0 == 0xED then 0x9F else 0xBF;
      if |bs| < 2 || !(lo <= bs[1] as int <= hi) then Bad(1)
      else if |bs| < 3 || !IsCont(bs[2]) then Bad(2)
      else
        var v := (b0 - 0xE0) * 4096 + (bs[1] as int - 0x80) * 64 + (bs[2] as int - 0x80);
        Scalar(v as char, 3)
    else if 0xF0 <= b0 <= 0xF4 then
      var lo := if b0 == 0xF0 then 0x90 else 0x80;
      var hi := if b0 == 0xF4 then 0x8F else 0xBF;
      if |bs| < 2 || !(lo <= bs[1] as int <= hi) then Bad(1)
      else if |bs| < 3 || !IsCont(bs[2]) then Bad(2)
      else if |bs| < 4 || !IsCont(bs[3]) then Bad(3)
      else
        var v := (b0 - 0xF0) * 262144 + (bs[1] as int - 0x80) * 4096
                 + (bs[2] as int - 0x80) * 64 + (bs[3] as int - 0x80);
        Scalar(v as char, 4)
    else Bad(1)
  }

  /** `bytes.decode("utf-8", errors)` with `errors` either "replace" or "ignore". */
  function Utf8Decode(bs: seq<byte>, replace: bool): string
    decreases |bs|
  {
    if bs == [] then []
    else
      match DecodeStep(bs)
      case Scalar(c, n) => [c] + Utf8Decode(bs[n..], replace)
      case Bad(n) => (if replace then "\U{FFFD}" else "") + Utf8Decode(bs[n..], replace)
  }

  /** `str.encode("utf-8")` for one scalar value. */
  function EncodeChar(c: char): (bs: seq<byte>)
    ensures 1 <= |bs| <= 4
  {
    var v := c as int;
    if v < 0x80 then [v as byte]
    else if v < 0x800 then [(0xC0 + v / 64) as byte, (0x80 + v % 64) as byte]
    else if v < 0x10000 then
      [(0xE0 + v / 4096) as byte, (0x80 + (v / 64) % 64) as byte, (0x80 + v % 64) as byte]
    else
      [(0xF0 + v / 262144) as byte, (0x80 + (v / 4096) % 64) as byte,
       (0x80 + (v / 64) % 64) as byte, (0x80 + v % 64) as byte]
  }

  /** `s.encode("utf-8")`. */
  function Utf8Encode(s: string): seq<byte> {
    if s == [] then [] else EncodeChar(s[0]) + Utf8Encode(s[1..])
  }

  /** Decoding the encoding of one scalar value reads exactly that value. */
  lemma DecodeStepOfEncodeChar(c: char, rest: seq<byte>)
    ensures DecodeStep(EncodeChar(c) + rest) == Scalar(c, |EncodeChar(c)|)
  {
    var v := c as int;
    if v < 0x80 {
    } else if v < 0x800 {
      DecodeTwo(c, rest);
    } else if v < 0x10000 {
      DecodeThree(c, rest);
    } else {
      DecodeFour(c, rest);
    }
  }

  lemma DecodeTwo(c: char, rest: seq<byte>)
    requires 0x80 <= c as int < 0x800
    ensures DecodeStep(EncodeChar(c) + rest) == Scalar(c, 2)
  {
    var v := c as int;
    var q := v / 64;
    var l := v % 64;
    assert v == q * 64 + l;
    assert 2 <= q < 32;
    var bs := EncodeChar(c) + rest;
    assert bs[0] as int == 0xC0 + q && bs[1] as int == 0x80 + l;
    assert ((bs[0] as int - 0xC0) * 64 + (bs[1] as int - 0x80)) == v;
  }

  lemma DecodeThree(c: char, rest: seq<byte>)
    requires 0x800 <= c as int < 0x10000
    ensures DecodeStep(EncodeChar(c) + rest) == Scalar(c, 3)
  {
    var v := c as int;
    var q := v / 4096;
    var m := (v / 64) % 64;
    var l := v % 64;
    assert v / 64 == q * 64 + m;
    assert v == q * 4096 + m * 64 + l;
    assert q < 16;
    assert q == 0 ==> m >= 0x20;
    assert q == 13 ==> m < 0x20;
    var bs := EncodeChar(c) + rest;
    assert bs[0] as int == 0xE0 + q && bs[1] as int == 0x80 + m && bs[2] as int == 0x80 + l;
    assert (bs[0] as int - 0xE0) * 4096 + (bs[1] as int - 0x80) * 64 + (bs[2] as int - 0x80) == v;
  }

  lemma DecodeFour(c: char, rest: seq<byte>)
    requires 0x10000 <= c as int
    ensures DecodeStep(EncodeChar(c) + rest) == Scalar(c, 4)
  {
    var v := c as int;
    var q := v / 262144;
    var m1 := (v / 4096) % 64;
    var m2 := (v / 64) % 64;
    var l := v % 64;
    assert v / 4096 == q * 64 + m1;
    assert v / 64 == (v / 4096) * 64 + m2;
    assert v == q * 262144 + m1 * 4096 + m2 * 64 + l;
    assert q <= 4;
    assert q == 0 ==> m1 >= 0x10;
    assert q == 4 ==> m1 < 0x10;
    var bs := EncodeChar(c) + rest;
    assert bs[0] as int == 0xF0 + q && bs[1] as int == 0x80 + m1;
    assert bs[2] as int == 0x80 + m2 && bs[3] as int == 0x80 + l;
    assert (bs[0] as int - 0xF0) * 262144 + (bs[1] as int - 0x80) * 4096
           + (bs[2] as int - 0x80) * 64 + (bs[3] as int - 0x80) == v;
  }

  /** UTF-8 decoding inverts UTF-8 encoding, whichever error handler is named. */
  lemma {:induction false} Utf8RoundTrip(s: string, replace: bool)
    ensures Utf8Decode(Utf8Encode(s), replace) == s
  {
    if s != [] {
      var e := EncodeChar(s[0]);
      var tail := Utf8Encode(s[1..]);
      DecodeStepOfEncodeChar(s[0], tail);
      assert (e + tail)[|e|..] == tail;
      Utf8RoundTrip(s[1..], replace);
      assert s == [s[0]] + s[1..];
    }
  }

  predicate IsAscii(s: string) {
    forall i :: 0 <= i < |s| ==> s[i] < '\U{80}'
  }

  /** The bytes of an ASCII string, one per character. */
  function AsciiBytes(s: string): (bs: seq<byte>)
    requires IsAscii(s)
    ensures |bs| == |s|
    ensures forall i :: 0 <= i < |s| ==> bs[i] as int == s[i] as int
  {
    seq(|s|, i requires 0 <= i < |s| => s[i] as int as byte)
  }

  lemma {:induction false} Utf8EncodeAscii(s: string)
    requires IsAscii(s)
    ensures Utf8Encode(s) == AsciiBytes(s)
  {
    if s != [] {
      assert IsAscii(s[1..]) by {
        forall i | 0 <= i < |s[1..]| ensures s[1..][i] < '\U{80}' {
          assert s[1..][i] == s[i + 1];
        }
      }
      Utf8EncodeAscii(s[1..]);
      assert EncodeChar(s[0]) == [s[0] as int as byte];
      assert AsciiBytes(s) == [s[0] as int as byte] + AsciiBytes(s[1..]);
    }
  }

  // ---------------------------------------------------------------------------
  // Percent-encoding: `urllib.parse.unquote` and `urllib.parse.quote`

  predicate IsHexDigit(c: char) {
    ('0' <= c <= '9') || ('a' <= c <= 'f') || ('A' <= c <= 'F')
  }

  function HexValue(c: char): (v: nat)
    requires IsHexDigit(c)
    ensures v < 16
  {
    if '0' <= c <= '9' then c as int - '0' as int
    else if 'a' <= c <= 'f' then c as int - 'a' as int + 10
    else c as int - 'A' as int + 10
  }

  /** `unquote_to_bytes` on a run of ASCII characters: `%XY` with two hex
      digits becomes the byte XY, anything else (a lone `%` included) is kept. */
  function PercentBytes(s: string): seq<byte>
    requires IsAscii(s)
    decreases |s|
  {
    if s == [] then []
    else if s[0] == '%' && |s| >= 3 && IsHexDigit(s[1]) && IsHexDigit(s[2]) then
      [(HexValue(s[1]) * 16 + HexValue(s[2])) as byte] + PercentBytes(s[3..])
    else [s[0] as int as byte] + PercentBytes(s[1..])
  }

  /** Length of the leading run of ASCII characters. */
  function AsciiRunLen(s: string): (n: nat)
    ensures n <= |s| && IsAscii(s[..n])
    ensures n == |s| || s[n] >= '\U{80}'
  {
    if s == [] || s[0] >= '\U{80}' then 0
    else
      var n := 1 + AsciiRunLen(s[1..]);
      assert s[..n] == [s[0]] + s[1..][..n - 1];
      n
  }

  /** Percent-decoding after the `%` check: each maximal ASCII run is
      unquoted to bytes and decoded as UTF-8 with `replace`; other
      characters pass through. */
  function UnquoteRuns(s: string): string
    decreases |s|
  {
    if s == [] then []
    else if s[0] >= '\U{80}' then [s[0]] + UnquoteRuns(s[1..])
    else
      var n := AsciiRunLen(s);
      Utf8Decode(PercentBytes(s[..n]), true) + UnquoteRuns(s[n..])
  }

  /** `urllib.parse.unquote(s)`: strings without `%` are returned as they are. */
  function Unquote(s: string): string {
    if '%' !in s then s else UnquoteRuns(s)
  }

  /** The characters `quote` never escapes: letters, digits and `_.-~`. */
  predicate IsUnreserved(c: char) {
    ('A' <= c <= 'Z') || ('a' <= c <= 'z') || ('0' <= c <= '9')
    || c == '_' || c == '.' || c == '-' || c == '~'
  }

  function HexDigit(v: nat): (c: char)
    requires v < 16
    ensures IsHexDigit(c) && HexValue(c) == v
  {
    if v < 10 then (v + '0' as int) as char else (v - 10 + 'A' as int) as char
  }

  /** One byte as `quote` writes it: kept when unreserved, or when it is
      `/` and `/` is safe; written `%XY` otherwise. */
  function QuoteByte(b: byte, slashSafe: bool): (s: string)
    ensures IsAscii(s)
  {
    var c := b as int as char;
    if b < 0x80 && (IsUnreserved(c) || (slashSafe && c == '/')) then [c]
    else ['%', HexDigit(b as int / 16), HexDigit(b as int % 16)]
  }

  function QuoteBytes(bs: seq<byte>, slashSafe: bool): (s: string)
    ensures IsAscii(s)
  {
    if bs == [] then [] else QuoteByte(bs[0], slashSafe) + QuoteBytes(bs[1..], slashSafe)
  }

  /** `urllib.parse.quote(s)` with its default `safe='/'`: the UTF-8 bytes of
      `s`, each kept when unreserved or `/` and written `%XY` otherwise. */
  function Quote(s: string): (q: string)
    ensures IsAscii(q)
  {
    QuoteBytes(Utf8Encode(s), true)
  }

  /** `urllib.parse.quote(s, safe='')`: as `Quote`, but `/` is escaped too. */
  function QuoteAll(s: string): (q: string)
    ensures IsAscii(q)
  {
    QuoteBytes(Utf8Encode(s), false)
  }

  lemma {:induction false} PercentBytesOfQuote(bs: seq<byte>, slashSafe: bool)
    ensures PercentBytes(QuoteBytes(bs, slashSafe)) == bs
  {
    if bs != [] {
      PercentBytesOfQuote(bs[1..], slashSafe);
      QuoteByteRead(bs[0], slashSafe, QuoteBytes(bs[1..], slashSafe));
    }
  }

  /** A quoted byte reads back as that byte, whatever ASCII text follows. */
  lemma QuoteByteRead(b: byte, slashSafe: bool, rest: string)
    requires IsAscii(rest)
    ensures IsAscii(QuoteByte(b, slashSafe) + rest)
    ensures PercentBytes(QuoteByte(b, slashSafe) + rest) == [b] + PercentBytes(rest)
  {
    var s := QuoteByte(b, slashSafe) + rest;
    var c := b as int as char;
    assert IsAscii(s) by {
      forall i | 0 <= i < |s| ensures s[i] < '\U{80}' {
        if i >= |QuoteByte(b, slashSafe)| {
          assert s[i] == rest[i - |QuoteByte(b, slashSafe)|];
        }
      }
    }
    if b < 0x80 && (IsUnreserved(c) || (slashSafe && c == '/')) {
      assert s[0] == c && s[1..] == rest;
    } else {
      assert s[0] == '%' && s[1] == HexDigit(b as int / 16) && s[2] == HexDigit(b as int % 16);
      assert s[3..] == rest;
      assert (b as int / 16) * 16 + b as int % 16 == b as int;
    }
  }

  /** A string without `%` is all kept characters, so it is its own quote. */
  lemma {:induction false} QuoteBytesWithoutPercent(bs: seq<byte>, slashSafe: bool)
    requires '%' !in QuoteBytes(bs, slashSafe)
    ensures PercentBytes(QuoteBytes(bs, slashSafe)) == bs
  {
    PercentBytesOfQuote(bs, slashSafe);
  }

  /** A run of all-ASCII text is decoded in one piece. */
  lemma UnquoteRunsAscii(s: string)
    requires IsAscii(s) && s != []
    ensures UnquoteRuns(s) == Utf8Decode(PercentBytes(s), true)
  {
    var n := AsciiRunLen(s);
    AsciiRunLenOfAscii(s);
    assert s[..n] == s && s[n..] == [];
  }

  lemma AsciiRunLenOfAscii(s: string)
    requires IsAscii(s)
    ensures AsciiRunLen(s) == |s|
  {
    if s != [] {
      AsciiRunLenOfAscii(s[1..]);
    }
  }

  /** Text whose decoded bytes are exactly its characters. */
  lemma {:induction false} PercentBytesPlain(s: string)
    requires IsAscii(s) && '%' !in s
    ensures PercentBytes(s) == AsciiBytes(s)
  {
    if s != [] {
      PercentBytesPlain(s[1..]);
      assert AsciiBytes(s) == [s[0] as int as byte] + AsciiBytes(s[1..]);
    }
  }

  /** `unquote(quote(s)) == s`, with or without `/` among the safe
      characters: percent-decoding inverts percent-encoding. */
  lemma UnquoteOfQuote(s: string)
    ensures Unquote(Quote(s)) == s
    ensures Unquote(QuoteAll(s)) == s
  {
    UnquoteOfQuoted(s, true);
    UnquoteOfQuoted(s, false);
  }

  lemma UnquoteOfQuoted(s: string, slashSafe: bool)
    ensures Unquote(QuoteBytes(Utf8Encode(s), slashSafe)) == s
  {
    var q := QuoteBytes(Utf8Encode(s), slashSafe);
    PercentBytesOfQuote(Utf8Encode(s), slashSafe);
    if '%' in q {
      UnquoteRunsAscii(q);
      Utf8RoundTrip(s, true);
    } else {
      PercentBytesPlain(q);
      Utf8EncodeAscii(q);
      Utf8RoundTrip(q, true);
      Utf8RoundTrip(s, true);
    }
  }

  // ---------------------------------------------------------------------------
  // Base64: `binascii.a2b_base64` in its default, non-strict mode

  /** The value of a character of the standard base64 alphabet (section 4 of
      RFC 4648), or -1 for a character the decoder skips. */
  function B64Value(c: char): (v: int)
    ensures -1 <= v < 64
  {
    if 'A' <= c <= 'Z' then c as int - 'A' as int
    else if 'a' <= c <= 'z' then c as int - 'a' as int + 26
    else if '0' <= c <= '9' then c as int - '0' as int + 52
    else if c == '+' then 62
    else if c == '/' then 63
    else -1
  }

  /** Why `binascii` rejects a base64 string: one data character too many
      (`number of data characters ... cannot be 1 more than a multiple of 4`)
      or `Incorrect padding`. */
  datatype B64Error = ExcessDataChar | IncorrectPadding

  /** The decoder's state between characters: position in the current quad,
      the bits still to be emitted, and the pad characters seen since the last
      data character. */
  predicate QuadState(quad: nat, left: nat) {
    && quad < 4
    && (quad == 0 ==> left == 0)
    && (quad == 1 ==> left < 64)
    && (quad == 2 ==> left < 16)
    && (quad == 3 ==> left < 4)
  }

  function Cons(b: byte, r: Result<seq<byte>, B64Error>): Result<seq<byte>, B64Error> {
    match r
    case Ok(bs) => Ok([b] + bs)
    case Err(e) => Err(e)
  }

  /** The decoding loop of `a2b_base64`: skip characters outside the alphabet,
      stop at a pad sequence that completes a quad, and fail when the input
      ends inside a quad. */
  function A2B(s: string, quad: nat, left: nat, pads: nat): Result<seq<byte>, B64Error>
    requires QuadState(quad, left)
    decreases |s|
  {
    if s == [] then
      if quad == 0 then Ok([])
      else if quad == 1 then Err(ExcessDataChar)
      else Err(IncorrectPadding)
    else if s[0] == '=' then
      if quad >= 2 && quad + pads + 1 >= 4 then Ok([])
      else A2B(s[1..], quad, left, if quad >= 2 then pads + 1 else pads)
    else
      var v := B64Value(s[0]);
      if v < 0 then A2B(s[1..], quad, left, pads)
      else if quad == 0 then A2B(s[1..], 1, v, 0)
      else if quad == 1 then Cons((left * 4 + v / 16) as byte, A2B(s[1..], 2, v % 16, 0))
      else if quad == 2 then Cons((left * 16 + v / 4) as byte, A2B(s[1..], 3, v % 4, 0))
      else Cons((left * 64 + v) as byte, A2B(s[1..], 0, 0, 0))
  }

  /** `base64.b64decode(s)` for an ASCII string (non-ASCII input raises
      before decoding starts, which callers model separately). */
  function B64Decode(s: string): Result<seq<byte>, B64Error> {
    A2B(s, 0, 0, 0)
  }

  /** The base64 alphabet, by value. */
  function B64Char(v: nat): (c: char)
    requires v < 64
    ensures B64Value(c) == v && c != '='
  {
    if v < 26 then (v + 'A' as int) as char
    else if v < 52 then (v - 26 + 'a' as int) as char
    else if v < 62 then (v - 52 + '0' as int) as char
    else if v == 62 then '+'
    else '/'
  }

  /** Three bytes as four base64 characters, six bits each. */
  function Quad(b0: byte, b1: byte, b2: byte): (q: string)
    ensures |q| == 4
  {
    var x0 := b0 as int; var x1 := b1 as int; var x2 := b2 as int;
    [B64Char(x0 / 4), B64Char((x0 % 4) * 16 + x1 / 16), B64Char((x1 % 16) * 4 + x2 / 64), B64Char(x2 % 64)]
  }

  /** Two trailing bytes: three characters and one `=`. */
  function PadOne(b0: byte, b1: byte): (q: string)
    ensures |q| == 4
  {
    var x0 := b0 as int; var x1 := b1 as int;
    [B64Char(x0 / 4), B64Char((x0 % 4) * 16 + x1 / 16), B64Char((x1 % 16) * 4), '=']
  }

  /** One trailing byte: two characters and two `=`. */
  function PadTwo(b0: byte): (q: string)
    ensures |q| == 4
  {
    var x0 := b0 as int;
    [B64Char(x0 / 4), B64Char((x0 % 4) * 16), '=', '=']
  }

  /** Standard base64 encoding with `=` padding (section 4 of RFC 4648). */
  function B64Encode(bs: seq<byte>): (s: string)
    ensures |s| % 4 == 0
    decreases |bs|
  {
    if |bs| == 0 then []
    else if |bs| == 1 then PadTwo(bs[0])
    else if |bs| == 2 then PadOne(bs[0], bs[1])
    else Quad(bs[0], bs[1], bs[2]) + B64Encode(bs[3..])
  }

  lemma DecodeFullQuad(b0: byte, b1: byte, b2: byte, rest: string)
    ensures A2B(Quad(b0, b1, b2) + rest, 0, 0, 0) == Cons(b0, Cons(b1, Cons(b2, A2B(rest, 0, 0, 0))))
  {
    var x0 := b0 as int;
    var x1 := b1 as int;
    var x2 := b2 as int;
    var c0 := x0 / 4;
    var c1 := (x0 % 4) * 16 + x1 / 16;
    var c2 := (x1 % 16) * 4 + x2 / 64;
    var c3 := x2 % 64;
    var s := [B64Char(c0), B64Char(c1), B64Char(c2), B64Char(c3)] + rest;
    assert s == Quad(b0, b1, b2) + rest;
    var s1 := s[1..];
    var s2 := s1[1..];
    var s3 := s2[1..];
    assert s3[1..] == rest;
    assert c0 * 4 + c1 / 16 == x0;
    assert (c1 % 16) * 16 + c2 / 4 == x1;
    assert (c2 % 4) * 64 + c3 == x2;
    assert A2B(s3, 3, c2 % 4, 0) == Cons(b2, A2B(rest, 0, 0, 0));
    assert A2B(s2, 2, c1 % 16, 0) == Cons(b1, A2B(s3, 3, c2 % 4, 0));
    assert A2B(s1, 1, c0, 0) == Cons(b0, A2B(s2, 2, c1 % 16, 0));
    assert A2B(s, 0, 0, 0) == A2B(s1, 1, c0, 0);
  }

  lemma DecodeTwoPad(b0: byte)
    ensures A2B(PadTwo(b0), 0, 0, 0) == Ok([b0])
  {
    var x0 := b0 as int;
    var c0 := x0 / 4;
    var c1 := (x0 % 4) * 16;
    var s := [B64Char(c0), B64Char(c1), '=', '='];
    var s1 := s[1..];
    var s2 := s1[1..];
    assert s2 == "==" && s2[1..] == "=";
    assert c0 * 4 + c1 / 16 == x0;
    assert c1 % 16 == 0;
    assert A2B(s2[1..], 2, 0, 1) == Ok([]);
    assert A2B(s2, 2, 0, 0) == Ok([]);
    assert A2B(s1, 1, c0, 0) == Cons(b0, A2B(s2, 2, c1 % 16, 0));
    assert A2B(s, 0, 0, 0) == A2B(s1, 1, c0, 0);
    assert [b0] + [] == [b0];
  }

  lemma DecodeOnePad(b0: byte, b1: byte)
    ensures A2B(PadOne(b0, b1), 0, 0, 0) == Ok([b0, b1])
  {
    var x0 := b0 as int;
    var x1 := b1 as int;
    var c0 := x0 / 4;
    var c1 := (x0 % 4) * 16 + x1 / 16;
    var c2 := (x1 % 16) * 4;
    var s := [B64Char(c0), B64Char(c1), B64Char(c2), '='];
    var s1 := s[1..];
    var s2 := s1[1..];
    var s3 := s2[1..];
    assert s3 == "=";
    assert c0 * 4 + c1 / 16 == x0;
    assert (c1 % 16) * 16 + c2 / 4 == x1;
    assert c2 % 4 == 0;
    assert A2B(s3, 3, 0, 0) == Ok([]);
    assert A2B(s2, 2, c1 % 16, 0) == Cons(b1, A2B(s3, 3, c2 % 4, 0));
    assert A2B(s1, 1, c0, 0) == Cons(b0, A2B(s2, 2, c1 % 16, 0));
    assert A2B(s, 0, 0, 0) == A2B(s1, 1, c0, 0);
    assert [b1] + [] == [b1];
    assert [b0] + [b1] == [b0, b1];
  }

  lemma ConsThree(b0: byte, b1: byte, b2: byte, rest: seq<byte>)
    ensures Cons(b0, Cons(b1, Cons(b2, Ok(rest)))) == Ok([b0, b1, b2] + rest)
  {
    assert [b0] + ([b1] + ([b2] + rest)) == [b0, b1, b2] + rest;
  }

  /** Decoding inverts encoding: `b64decode(b64encode(bs)) == bs`. */
  lemma {:induction false} B64RoundTrip(bs: seq<byte>)
    ensures B64Decode(B64Encode(bs)) == Ok(bs)
    decreases |bs|
  {
    if |bs| == 1 {
      DecodeTwoPad(bs[0]);
      assert [bs[0]] == bs;
    } else if |bs| == 2 {
      DecodeOnePad(bs[0], bs[1]);
      assert [bs[0], bs[1]] == bs;
    } else if |bs| >= 3 {
      var rest := bs[3..];
      B64RoundTrip(rest);
      DecodeFullQuad(bs[0], bs[1], bs[2], B64Encode(rest));
      ConsThree(bs[0], bs[1], bs[2], rest);
      assert bs == [bs[0], bs[1], bs[2]] + rest;
    }
  }
}

=== FILE: contacts.dfy ===
/** Contact selection on a firm page: the WhatsApp and Telegram normalisers,
    the passive scan that fills one slot per messenger, the fixed priority
    WhatsApp > Telegram > Instagram > Facebook > VK, the `primary_type`
    classifier the run scripts apply to the result, and the filter that keeps
    messengers and 2GIS pages out of the website column. */
module Contacts {
  import opened Outcomes
  import opened Text

  // ---------------------------------------------------------------------------
  // Normalisers

  /** The query parameter WhatsApp share links carry a message in. */
  const TextParam: string := "&text="

  /** An occurrence of `t` before the first one is impossible, so the text
      before the first occurrence does not contain `t`. */
  lemma BeforeFirstHasNone(s: string, t: string)
    requires t != [] && Contains(s, t)
    ensures !Contains(s[..Find(s, t).value], t)
  {
    var i := Find(s, t).value;
    forall j ensures !OccursAt(s[..i], t, j) {
      PrefixOccurrence(s, t, i, j);
    }
    ContainsIff(s[..i], t);
  }

  /** An occurrence in a prefix of `s` is an occurrence in `s` that ends
      within the prefix. */
  lemma PrefixOccurrence(s: string, t: string, i: nat, j: int)
    requires i <= |s|
    ensures OccursAt(s[..i], t, j) ==> OccursAt(s, t, j) && j + |t| <= i
  {
    if OccursAt(s[..i], t, j) {
      var p := s[..i];
      forall k | 0 <= k < |t| ensures s[j + k] == t[k] {
        assert s[j + k] == p[j + k] == p[j..j + |t|][k];
      }
      assert s[j..j + |t|] == t;
    }
  }

  /** `_strip_text_param`: cut a WhatsApp link at its first `&text=`. The
      result is a prefix of the input that contains no `&text=`; a link
      without one is returned unchanged. */
  function StripTextParam(url: string): (r: string)
    ensures |r| <= |url| && r == url[..|r|]
    ensures !Contains(r, TextParam)
    ensures Contains(url, TextParam) ==> OccursAt(url, TextParam, |r|)
    ensures !Contains(url, TextParam) ==> r == url
  {
    if url == [] then []
    else if Contains(url, TextParam) then
      BeforeFirstHasNone(url, TextParam);
      Before(url, TextParam)
    else url
  }

  /** Cutting twice cuts nothing more. */
  lemma StripTextParamIdempotent(url: string)
    ensures StripTextParam(StripTextParam(url)) == StripTextParam(url)
  {
  }

  /** Only the literal `&text=` is cut: a link with no `&` at all, such as one
      whose message follows `?text=`, is kept whole. */
  lemma StripTextParamWithoutAmpersand(url: string)
    requires '&' !in url
    ensures StripTextParam(url) == url
  {
    FirstCharOfOccurrence(url, TextParam);
    assert TextParam[0] == '&';
  }

  lemma StripTextParamExamples()
    ensures StripTextParam("https://wa.me/77011234567?text=hi") == "https://wa.me/77011234567?text=hi"
    ensures StripTextParam("") == ""
  {
    StripTextParamWithoutAmpersand("https://wa.me/77011234567?text=hi");
  }

  /** Telegram's deep-link form, and the web form it is rewritten to. */
  const TgResolve: string := "tg://resolve?domain="
  const TmeBase: string := "https://t.me/"

  /** `u.split(TgResolve, 1)[1]` for a `u` that starts with it. */
  lemma AfterPrefix(u: string)
    requires StartsWith(u, TgResolve)
    ensures Contains(u, TgResolve) && After(u, TgResolve) == u[|TgResolve|..]
  {
    assert Find(u, TgResolve) == Some(0);
  }

  /** The rewritten link is trimmed and no longer a deep link. */
  lemma TmeLinkTrimmed(u: string)
    requires StartsWith(u, TgResolve) && !IsSpace(u[|u| - 1])
    ensures Trimmed(TmeBase + u[|TgResolve|..])
    ensures !StartsWith(TmeBase + u[|TgResolve|..], TgResolve)
  {
    var x := u[|TgResolve|..];
    var r := TmeBase + x;
    assert r[0] == 'h';
    assert !StartsWith(r, TgResolve) by {
      if |TgResolve| <= |r| {
        assert r[..|TgResolve|][0] == r[0];
      }
    }
    if x == [] {
      assert r[|r| - 1] == '/';
    } else {
      assert r[|r| - 1] == x[|x| - 1] == u[|u| - 1];
    }
  }

  lemma TgRewrite(u: string)
    requires StartsWith(u, TgResolve) && !IsSpace(u[|u| - 1])
    ensures Contains(u, TgResolve)
    ensures var r := TmeBase + After(u, TgResolve);
      r == TmeBase + u[|TgResolve|..] && Trimmed(r) && !StartsWith(r, TgResolve)
  {
    AfterPrefix(u);
    TmeLinkTrimmed(u);
  }

  /** `_normalize_tg`: strip the link, and rewrite `tg://resolve?domain=X`
      to `https://t.me/X`; anything else comes back stripped. */
  function NormalizeTg(url: string): (r: string)
    ensures StartsWith(Strip(url), TgResolve) ==> r == TmeBase + Strip(url)[|TgResolve|..]
    ensures !StartsWith(Strip(url), TgResolve) ==> r == Strip(url)
    ensures Trimmed(r) && !StartsWith(r, TgResolve)
  {
    if url == [] then
      assert |Strip(url)| == 0;
      []
    else
      var u := Strip(url);
      if StartsWith(u, TgResolve) then
        TgRewrite(u);
        TmeBase + After(u, TgResolve)
      else u
  }

  /** Normalising a normalised Telegram link changes nothing. */
  lemma NormalizeTgIdempotent(url: string)
    ensures NormalizeTg(NormalizeTg(url)) == NormalizeTg(url)
  {
    StripOfTrimmed(NormalizeTg(url));
  }

  /** A resolve link whose domain does not end in whitespace becomes the
      `t.me` link of that domain. */
  lemma NormalizeTgResolve(name: string)
    requires name == [] || !IsSpace(name[|name| - 1])
    ensures NormalizeTg(TgResolve + name) == TmeBase + name
  {
    var u := TgResolve + name;
    assert u[0] == 't' && u[|u| - 1] == (if name == [] then '=' else name[|name| - 1]);
    assert Trimmed(u);
    StripOfTrimmed(u);
    assert u[..|TgResolve|] == TgResolve;
    assert u[|TgResolve|..] == name;
  }

  // ---------------------------------------------------------------------------
  // Channels and the passive scan

  /** The messengers and networks a primary contact can come from, in
      priority order. */
  datatype Channel = WhatsApp | Telegram | Instagram | Facebook | VKontakte

  /** Position in the priority order: lower wins. */
  function Rank(c: Channel): nat {
    match c
    case WhatsApp => 0
    case Telegram => 1
    case Instagram => 2
    case Facebook => 3
    case VKontakte => 4
  }

  /** The priority order itself. */
  const Priority: seq<Channel> := [WhatsApp, Telegram, Instagram, Facebook, VKontakte]

  /** Whether a lower-cased link belongs to a channel; the scan and the
      `primary_type` classifier test the same substrings. */
  predicate Matches(c: Channel, low: string) {
    match c
    case WhatsApp => Contains(low, "whatsapp") || Contains(low, "wa.me")
    case Telegram => Contains(low, "t.me") || StartsWith(low, "tg://")
    case Instagram => Contains(low, "instagram.com")
    case Facebook => Contains(low, "facebook.com")
    case VKontakte => Contains(low, "vk.com")
  }

  /** The anchors the CSS selector picks up: case-sensitive substrings of the
      raw `href` attribute. */
  predicate IsCandidate(raw: string) {
    || Contains(raw, "api.whatsapp.com/send") || Contains(raw, "wa.me")
    || Contains(raw, "whatsapp.com/send") || Contains(raw, "t.me") || Contains(raw, "tg://")
    || Contains(raw, "instagram.com") || Contains(raw, "facebook.com") || Contains(raw, "vk.com")
  }

  /** One stored link per channel; `""` means not found yet. */
  datatype Slots = Slots(wa: string, tg: string, ig: string, fb: string, vk: string) {
    function Get(c: Channel): string {
      match c
      case WhatsApp => wa
      case Telegram => tg
      case Instagram => ig
      case Facebook => fb
      case VKontakte => vk
    }
  }

  const NoSlots: Slots := Slots("", "", "", "", "")

  /** One pass of the `elif` chain: the link goes to the first channel, in
      priority order, whose slot is still empty and whose substrings the
      lower-cased link contains; the link itself is stored, not its lower
      case. */
  function Place(sl: Slots, href: string): Slots {
    var low := Lower(href);
    if sl.wa == "" && Matches(WhatsApp, low) then sl.(wa := href)
    else if sl.tg == "" && Matches(Telegram, low) then sl.(tg := href)
    else if sl.ig == "" && Matches(Instagram, low) then sl.(ig := href)
    else if sl.fb == "" && Matches(Facebook, low) then sl.(fb := href)
    else if sl.vk == "" && Matches(VKontakte, low) then sl.(vk := href)
    else sl
  }

  /** A raw `href` the scan would file under channel `c` if `c`'s slot were
      the first empty one it matches. */
  predicate Hit(raw: string, c: Channel) {
    IsCandidate(raw) && Strip(raw) != [] && Matches(c, Lower(Strip(raw)))
  }

  /** The scan over the candidate anchors in document order, each `href`
      stripped and empty ones skipped. */
  function ScanFrom(sl: Slots, hrefs: seq<string>): Slots
    decreases |hrefs|
  {
    if hrefs == [] then sl
    else
      var h := Strip(hrefs[0]);
      var next := if IsCandidate(hrefs[0]) && h != [] then Place(sl, h) else sl;
      ScanFrom(next, hrefs[1..])
  }

  function Scan(hrefs: seq<string>): Slots {
    ScanFrom(NoSlots, hrefs)
  }

  /** Link by link, whether it is a hit for `c`. */
  function Hits(hrefs: seq<string>, c: Channel): (bs: seq<bool>)
    ensures |bs| == |hrefs|
    ensures forall j :: 0 <= j < |hrefs| ==> bs[j] == Hit(hrefs[j], c)
  {
    seq(|hrefs|, i requires 0 <= i < |hrefs| => Hit(hrefs[i], c))
  }

  /** The index of the first link of the page that is a hit for `c`. */
  function HitIndex(hrefs: seq<string>, c: Channel): (r: Option<nat>)
    ensures r.Some? ==> r.value < |hrefs| && Hit(hrefs[r.value], c)
    ensures r.Some? ==> forall j :: 0 <= j < r.value ==> !Hit(hrefs[j], c)
    ensures r.None? ==> forall j :: 0 <= j < |hrefs| ==> !Hit(hrefs[j], c)
  {
    FirstTrue(Hits(hrefs, c))
  }

  /** Reference: the first link of the page, stripped, that is a hit for
      `c`, or `""`. */
  function FirstHit(hrefs: seq<string>, c: Channel): (r: string)
    ensures r == [] <==> forall i :: 0 <= i < |hrefs| ==> !Hit(hrefs[i], c)
    ensures r != [] ==> exists i :: 0 <= i < |hrefs| && Hit(hrefs[i], c) && r == Strip(hrefs[i])
                                    && forall j :: 0 <= j < i ==> !Hit(hrefs[j], c)
  {
    match HitIndex(hrefs, c)
    case None => []
    case Some(i) => Strip(hrefs[i])
  }

  lemma HitsTail(hrefs: seq<string>, c: Channel)
    requires hrefs != []
    ensures Hits(hrefs, c)[1..] == Hits(hrefs[1..], c)
  {
    var bs, ts := Hits(hrefs, c), Hits(hrefs[1..], c);
    forall j | 0 <= j < |ts| ensures bs[1..][j] == ts[j] {
      assert hrefs[1..][j] == hrefs[j + 1];
    }
  }

  /** The first hit read link by link: the head when it is a hit, otherwise
      the first hit of the rest. */
  lemma FirstHitCons(hrefs: seq<string>, c: Channel)
    requires hrefs != []
    ensures FirstHit(hrefs, c) == if Hit(hrefs[0], c) then Strip(hrefs[0]) else FirstHit(hrefs[1..], c)
  {
    var bs, tl := Hits(hrefs, c), hrefs[1..];
    HitsTail(hrefs, c);
    FirstTrueCons(bs);
    assert bs[0] == Hit(hrefs[0], c);
    assert HitIndex(tl, c) == FirstTrue(bs[1..]);
    if !bs[0] {
      match HitIndex(tl, c)
      case Some(k) => assert hrefs[k + 1] == tl[k];
      case None =>
    }
  }

  /** One placement seen from a channel none of whose higher-priority
      channels the link matches: the slot takes the link exactly when it was
      empty and the link matches. */
  lemma PlaceSlot(sl: Slots, h: string, c: Channel)
    requires forall d :: Rank(d) < Rank(c) ==> !Matches(d, Lower(h))
    ensures Place(sl, h).Get(c) == if sl.Get(c) == "" && Matches(c, Lower(h)) then h else sl.Get(c)
  {
    var low := Lower(h);
    if Rank(c) > 0 { assert !Matches(WhatsApp, low) by { assert Rank(WhatsApp) < Rank(c); } }
    if Rank(c) > 1 { assert !Matches(Telegram, low) by { assert Rank(Telegram) < Rank(c); } }
    if Rank(c) > 2 { assert !Matches(Instagram, low) by { assert Rank(Instagram) < Rank(c); } }
    if Rank(c) > 3 { assert !Matches(Facebook, low) by { assert Rank(Facebook) < Rank(c); } }
  }

  /** Each slot ends up holding the first hit for its channel, provided no
      link on the page is a hit for a higher-priority channel; a slot already
      filled keeps its link. */
  lemma {:induction false} ScanSlot(sl: Slots, hrefs: seq<string>, c: Channel)
    requires forall i, d :: 0 <= i < |hrefs| && Rank(d) < Rank(c) ==> !Hit(hrefs[i], d)
    ensures ScanFrom(sl, hrefs).Get(c) == if sl.Get(c) != "" then sl.Get(c) else FirstHit(hrefs, c)
    decreases |hrefs|
  {
    if hrefs != [] {
      var h := Strip(hrefs[0]);
      var next := if IsCandidate(hrefs[0]) && h != [] then Place(sl, h) else sl;
      if IsCandidate(hrefs[0]) && h != [] {
        forall d | Rank(d) < Rank(c) ensures !Matches(d, Lower(h)) {
          assert !Hit(hrefs[0], d);
        }
        PlaceSlot(sl, h, c);
      }
      assert forall i, d :: 0 <= i < |hrefs[1..]| && Rank(d) < Rank(c) ==> !Hit(hrefs[1..][i], d) by {
        assert forall i :: 1 <= i < |hrefs| ==> hrefs[i] == hrefs[1..][i - 1];
      }
      FirstHitCons(hrefs, c);
      ScanSlot(next, hrefs[1..], c);
    }
  }

  /** The WhatsApp slot has nothing above it: it always holds the first
      WhatsApp hit. */
  lemma ScanWhatsApp(hrefs: seq<string>)
    ensures Scan(hrefs).wa == FirstHit(hrefs, WhatsApp)
  {
    ScanSlot(NoSlots, hrefs, WhatsApp);
  }

  /** The normalisation applied to a slot before it becomes the primary
      contact. */
  function Normalize(c: Channel, h: string): string {
    match c
    case WhatsApp => StripTextParam(h)
    case Telegram => NormalizeTg(h)
    case _ => h
  }

  /** The primary contact from the filled slots: the first non-empty slot in
      priority order, normalised. */
  function PassivePrimary(sl: Slots): string {
    if sl.wa != "" then Normalize(WhatsApp, sl.wa)
    else if sl.tg != "" then Normalize(Telegram, sl.tg)
    else if sl.ig != "" then Normalize(Instagram, sl.ig)
    else if sl.fb != "" then Normalize(Facebook, sl.fb)
    else if sl.vk != "" then Normalize(VKontakte, sl.vk)
    else ""
  }

  /** The first channel, in priority order, whose slot is filled. */
  function FirstFilled(sl: Slots): (k: Option<Channel>)
    ensures k.Some? ==> sl.Get(k.value) != ""
    ensures k.Some? ==> forall d :: Rank(d) < Rank(k.value) ==> sl.Get(d) == ""
    ensures k.None? ==> forall d :: sl.Get(d) == ""
  {
    if sl.wa != "" then Some(WhatsApp)
    else if sl.tg != "" then Some(Telegram)
    else if sl.ig != "" then Some(Instagram)
    else if sl.fb != "" then Some(Facebook)
    else if sl.vk != "" then Some(VKontakte)
    else None
  }

  /** Reference slots: each channel's first hit on the page, independently of
      the other channels. */
  function FirstHits(hrefs: seq<string>): Slots {
    Slots(FirstHit(hrefs, WhatsApp), FirstHit(hrefs, Telegram), FirstHit(hrefs, Instagram),
          FirstHit(hrefs, Facebook), FirstHit(hrefs, VKontakte))
  }

  lemma FirstHitsGet(hrefs: seq<string>, c: Channel)
    ensures FirstHits(hrefs).Get(c) == FirstHit(hrefs, c)
  {
  }

  /** Reference selection: the highest-priority channel with any hit on the
      page, and its first hit, normalised. */
  function PriorityPick(hrefs: seq<string>): string {
    match FirstFilled(FirstHits(hrefs))
    case None => ""
    case Some(c) => Normalize(c, FirstHit(hrefs, c))
  }

  /** The slot chain in closed form: it normalises the slot of the first
      filled channel. */
  lemma PassivePrimaryOf(sl: Slots)
    ensures PassivePrimary(sl) == match FirstFilled(sl)
                                  case None => ""
                                  case Some(c) => Normalize(c, sl.Get(c))
  {
  }

  /** A channel with no higher-priority hits: its scanned slot is its first
      hit. */
  lemma ScanSlotTop(hrefs: seq<string>, c: Channel)
    requires forall d :: Rank(d) < Rank(c) ==> FirstHit(hrefs, d) == ""
    ensures Scan(hrefs).Get(c) == FirstHit(hrefs, c)
  {
    forall i, d | 0 <= i < |hrefs| && Rank(d) < Rank(c) ensures !Hit(hrefs[i], d) {
      assert FirstHit(hrefs, d) == "";
    }
    ScanSlot(NoSlots, hrefs, c);
  }

  /** The passive selection picks the highest-priority channel that has any
      link on the page, and that channel's first link in document order,
      even though lower slots may hold other links than their first hit. */
  lemma PassiveSelection(hrefs: seq<string>)
    ensures PassivePrimary(Scan(hrefs)) == PriorityPick(hrefs)
  {
    var sl := Scan(hrefs);
    var ref := FirstHits(hrefs);
    var k := FirstFilled(ref);
    forall d | k.None? || Rank(d) <= Rank(k.value) ensures sl.Get(d) == ref.Get(d) {
      ScanAgrees(hrefs, d);
    }
    SameFirstFilled(sl, ref);
    PassivePrimaryOf(sl);
    if k.Some? {
      FirstHitsGet(hrefs, k.value);
    }
  }

  /** A slot below which the first hits are all empty is scanned as its
      first hit. */
  lemma ScanAgrees(hrefs: seq<string>, d: Channel)
    requires forall e :: Rank(e) < Rank(d) ==> FirstHits(hrefs).Get(e) == ""
    ensures Scan(hrefs).Get(d) == FirstHits(hrefs).Get(d)
  {
    forall e | Rank(e) < Rank(d) ensures FirstHit(hrefs, e) == "" {
      FirstHitsGet(hrefs, e);
    }
    ScanSlotTop(hrefs, d);
    FirstHitsGet(hrefs, d);
  }

  /** Two slot records that agree up to the first filled slot of one have
      the same first filled slot. */
  lemma SameFirstFilled(sl: Slots, ref: Slots)
    requires forall d :: FirstFilled(ref).None? || Rank(d) <= Rank(FirstFilled(ref).value) ==> sl.Get(d) == ref.Get(d)
    ensures FirstFilled(sl) == FirstFilled(ref)
  {
    var k := FirstFilled(ref);
    var j := FirstFilled(sl);
    if k.Some? {
      assert sl.Get(k.value) != "";
      assert Rank(j.value) == Rank(k.value);
    } else {
      assert forall d :: sl.Get(d) == ref.Get(d);
    }
  }

  // ---------------------------------------------------------------------------
  // `primary_type`

  /** The `primary_type` column: the first channel, in priority order, whose
      substrings the lower-cased contact contains; `None` is `"none"`. */
  function Classify(pc: string): (k: Option<Channel>)
    ensures k.Some? ==> Matches(k.value, Lower(pc))
    ensures k.Some? ==> forall d :: Rank(d) < Rank(k.value) ==> !Matches(d, Lower(pc))
    ensures k.None? ==> forall d :: !Matches(d, Lower(pc))
  {
    var low := Lower(pc);
    if Matches(WhatsApp, low) then Some(WhatsApp)
    else if Matches(Telegram, low) then Some(Telegram)
    else if Matches(Instagram, low) then Some(Instagram)
    else if Matches(Facebook, low) then Some(Facebook)
    else if Matches(VKontakte, low) then Some(VKontakte)
    else None
  }

  /** The classification is the unique highest-priority match: both
      directions. */
  lemma ClassifyIff(pc: string, c: Channel)
    ensures Classify(pc) == Some(c) <==>
      (Matches(c, Lower(pc)) && forall d :: Rank(d) < Rank(c) ==> !Matches(d, Lower(pc)))
  {
    if Matches(c, Lower(pc)) && forall d :: Rank(d) < Rank(c) ==> !Matches(d, Lower(pc)) {
      var k := Classify(pc);
      assert k.Some?;
      if Rank(k.value) < Rank(c) {
      } else if Rank(c) < Rank(k.value) {
      } else {
        assert k.value == c;
      }
    }
  }

  /** The string written to the `primary_type` column. */
  function TypeTag(k: Option<Channel>): (t: string)
    ensures t in {"wa", "tg", "ig", "fb", "vk", "none"}
    ensures (t == "none") <==> k.None?
  {
    match k
    case None => "none"
    case Some(WhatsApp) => "wa"
    case Some(Telegram) => "tg"
    case Some(Instagram) => "ig"
    case Some(Facebook) => "fb"
    case Some(VKontakte) => "vk"
  }

  /** A primary taken from an Instagram, Facebook or VK link is classified
      under that same channel: the link matched no higher channel, or that
      channel would have been picked. */
  lemma ClassifyOfSocialPick(hrefs: seq<string>)
    requires FirstFilled(FirstHits(hrefs)) in {Some(Instagram), Some(Facebook), Some(VKontakte)}
    ensures Classify(PriorityPick(hrefs)) == FirstFilled(FirstHits(hrefs))
  {
    var ref := FirstHits(hrefs);
    var c := FirstFilled(ref).value;
    var h := FirstHit(hrefs, c);
    FirstHitsGet(hrefs, c);
    assert h == ref.Get(c) != "";
    var i :| 0 <= i < |hrefs| && Hit(hrefs[i], c) && h == Strip(hrefs[i]);
    assert PriorityPick(hrefs) == h;
    forall d | Rank(d) < Rank(c) ensures !Matches(d, Lower(h)) {
      assert ref.Get(d) == "";
      FirstHitsGet(hrefs, d);
      assert !Hit(hrefs[i], d);
    }
    ClassifyIff(h, c);
  }

  // ---------------------------------------------------------------------------
  // The website filter

  /** A candidate website the collector rejects: a messenger or social
      network, or a 2GIS page that did not decode to an outside site. The
      test is on the lower-cased link. */
  predicate Excluded(raw: string) {
    var low := Lower(raw);
    || Contains(low, "instagram.com") || Contains(low, "t.me") || Contains(low, "facebook.com")
    || Contains(low, "vk.com") || Contains(low, "wa.me") || Contains(low, "whatsapp.com")
    || Contains(low, "2gis.")
  }

  /** The filter ignores case: a link and its lower case are rejected
      together. */
  lemma ExcludedIgnoresCase(raw: string)
    ensures Excluded(raw) <==> Excluded(Lower(raw))
  {
    LowerIsLower(raw);
    LowerOfLower(Lower(raw));
  }
}

=== FILE: detail_extractor.dfy ===
/** `get_primary_contact`: open the firm's card in a new tab, find its website
    (links first, then the website button), pick one primary contact (links
    first, then one button per channel), and close every tab it opened. */
module DetailExtractor {
  import opened Outcomes
  import opened Text
  import opened LinkResolver
  import opened Contacts
  import opened Browser

  /** The firm card address is this prefix followed by the firm id. */
  const FirmBase: string := "https://2gis.kz/astana/firm/"

  /** The pair the lookup returns: the primary contact (`""` when none) and
      the website, if one was found. */
  datatype Contact = Contact(primary: string, website: Option<string>)

  /** A lookup's outcome together with the browser it leaves behind. */
  datatype Lookup = Lookup(result: Result<Contact, Fault>, driver: Driver)

  // ---------------------------------------------------------------------------
  // The website from the card's links

  /** The CSS selector for website candidates: an `href` starting with
      `http://` or `https://`. */
  predicate IsWebLink(raw: string) {
    StartsWith(raw, "http://") || StartsWith(raw, "https://")
  }

  /** `_extract_website_from_href(href) or href`, with the decoding fault
      caught. */
  function Resolve(h: string): string {
    ExtractWebsite(h).GetOr(h)
  }

  /** What the loop body of `_try_extract_website_from_links` does with one
      link: skip it, raise, or return a website. */
  datatype Verdict = Skip | Raise | Take(site: string)

  /** The loop body as written: strip the `href`, skip it if empty, decode
      it (which may raise), and skip what the filter rejects. */
  function LinkVerdict(raw: string): (v: Verdict)
    ensures v.Take? ==> !Excluded(v.site)
  {
    var h := Strip(raw);
    if !IsWebLink(raw) || h == [] then Skip
    else
      match ExtractWebsiteAsWritten(h)
      case Err(_) => Raise
      case Ok(o) => Filter(o.GetOr(h))
  }

  /** The filter on a decoded candidate: skipped when rejected, taken
      otherwise. */
  function Filter(site: string): (v: Verdict)
    ensures v.Skip? <==> Excluded(site)
    ensures v.Take? ==> v.site == site
  {
    if Excluded(site) then Skip else Take(site)
  }

  /** The loop body with the decoding fault caught. */
  function LinkVerdictCaught(raw: string): (v: Verdict)
    ensures !v.Raise?
    ensures v.Take? ==> !Excluded(v.site)
  {
    var h := Strip(raw);
    if !IsWebLink(raw) || h == [] then Skip
    else Filter(Resolve(h))
  }

  /** A fault turned into a skip. */
  function Catch(v: Verdict): Verdict {
    if v.Raise? then Skip else v
  }

  /** Catching the fault turns a raising link into a skipped one and changes
      nothing else: a link that fails to decode is a 2GIS link, which the
      filter rejects anyway. */
  lemma CaughtVerdict(raw: string)
    ensures LinkVerdictCaught(raw) == Catch(LinkVerdict(raw))
  {
    var h := Strip(raw);
    if IsWebLink(raw) && h != [] {
      var a := ExtractWebsiteAsWritten(h);
      if a.Err? {
        assert Resolve(h) == h;
        assert Excluded(h) by { RedirectIsExcluded(h); }
      } else {
        assert Resolve(h) == a.value.GetOr(h);
      }
    }
  }

  /** The `for a in links` loop over the links' verdicts: the first link not
      skipped decides. */
  function ScanVerdicts(vs: seq<Verdict>): (r: Result<Option<string>, Fault>)
    ensures r.Err? ==> r.error == NonAsciiBase64
    ensures (forall i :: 0 <= i < |vs| ==> !vs[i].Raise?) ==> r.Ok?
    ensures r.Ok? && r.value.Some? ==> exists i :: 0 <= i < |vs| && vs[i] == Take(r.value.value)
  {
    if vs == [] then Ok(None)
    else
      assert forall i :: 1 <= i < |vs| ==> vs[i] == vs[1..][i - 1];
      match vs[0]
      case Skip => ScanVerdicts(vs[1..])
      case Raise => Err(NonAsciiBase64)
      case Take(s) => Ok(Some(s))
  }

  /** The loop's outcome, both ways: `None` exactly when every link is
      skipped, otherwise what the first link not skipped says. */
  lemma {:induction false} ScanVerdictsSpec(vs: seq<Verdict>)
    ensures ScanVerdicts(vs) == Ok(None) <==> forall i :: 0 <= i < |vs| ==> vs[i].Skip?
    ensures forall i :: 0 <= i < |vs| && !vs[i].Skip? && (forall j :: 0 <= j < i ==> vs[j].Skip?) ==>
              ScanVerdicts(vs) == (if vs[i].Raise? then Err(NonAsciiBase64) else Ok(Some(vs[i].site)))
    decreases |vs|
  {
    if vs != [] {
      ScanVerdictsSpec(vs[1..]);
      assert forall i :: 1 <= i < |vs| ==> vs[i] == vs[1..][i - 1];
      forall i | 0 <= i < |vs| && !vs[i].Skip? && (forall j :: 0 <= j < i ==> vs[j].Skip?)
        ensures ScanVerdicts(vs) == (if vs[i].Raise? then Err(NonAsciiBase64) else Ok(Some(vs[i].site)))
      {
        if i > 0 {
          assert forall j :: 0 <= j < i - 1 ==> vs[1..][j].Skip?;
        }
      }
    }
  }

  /** Where the loop as written returns, catching the faults returns the
      same. */
  lemma {:induction false} ScanVerdictsCatch(vs: seq<Verdict>)
    ensures ScanVerdicts(vs).Ok? ==> ScanVerdicts(vs) == ScanVerdicts(seq(|vs|, i requires 0 <= i < |vs| => Catch(vs[i])))
    decreases |vs|
  {
    var cs := seq(|vs|, i requires 0 <= i < |vs| => Catch(vs[i]));
    if vs != [] {
      ScanVerdictsCatch(vs[1..]);
      assert cs[1..] == seq(|vs| - 1, i requires 0 <= i < |vs| - 1 => Catch(vs[1..][i]));
    }
  }

  /** `_try_extract_website_from_links` as written, on the card's links. */
  function ScanWebsiteAsWritten(hrefs: seq<string>): (r: Result<Option<string>, Fault>)
    ensures r.Err? ==> r.error == NonAsciiBase64
    ensures r.Ok? && r.value.Some? ==> !Excluded(r.value.value)
  {
    var vs := seq(|hrefs|, i requires 0 <= i < |hrefs| => LinkVerdict(hrefs[i]));
    ScanVerdicts(vs)
  }

  /** `_try_extract_website_from_links` with decoding faults caught: never
      raises, and returns a website the filter keeps. */
  function ScanWebsite(hrefs: seq<string>): (r: Option<string>)
    ensures r.Some? ==> !Excluded(r.value)
  {
    var vs := seq(|hrefs|, i requires 0 <= i < |hrefs| => LinkVerdictCaught(hrefs[i]));
    match ScanVerdicts(vs)
    case Ok(o) => o
    case Err(_) => None
  }

  /** Wherever the scan as written returns, it returns what the corrected
      scan returns; it raises exactly when the first link not skipped is one
      whose decoding fails. */
  lemma ScanWebsiteAgrees(hrefs: seq<string>)
    ensures ScanWebsiteAsWritten(hrefs).Ok? ==> ScanWebsiteAsWritten(hrefs).value == ScanWebsite(hrefs)
  {
    var vs := seq(|hrefs|, i requires 0 <= i < |hrefs| => LinkVerdict(hrefs[i]));
    var cs := seq(|hrefs|, i requires 0 <= i < |hrefs| => LinkVerdictCaught(hrefs[i]));
    forall i | 0 <= i < |hrefs| ensures cs[i] == Catch(vs[i]) {
      CaughtVerdict(hrefs[i]);
    }
    assert cs == seq(|vs|, i requires 0 <= i < |vs| => Catch(vs[i]));
    ScanVerdictsCatch(vs);
  }

  // ---------------------------------------------------------------------------
  // The website button

  /** The website-button branch: the captured address, decoded when it is a
      redirect, unless the filter rejects it. Capture and decoding sit in a
      `try` whose `except` gives `None`. */
  function SiteFromButton(u: Option<string>): (r: Option<string>)
    ensures r.Some? ==> !Excluded(r.value)
  {
    match u
    case None => None
    case Some(v) =>
      match ExtractWebsiteAsWritten(v)
      case Err(_) => None
      case Ok(o) =>
        var raw := o.GetOr(v);
        if Excluded(raw) then None else Some(raw)
  }

  /** Lower-casing keeps `2gis.` where `link.2gis.com` occurs. */
  lemma RedirectIsExcluded(v: string)
    requires IsRedirect(v)
    ensures Excluded(v)
  {
    assert exists i :: OccursAt(v, RedirectHost, i) by { ContainsIff(v, RedirectHost); }
    var i :| OccursAt(v, RedirectHost, i);
    assert Contains(Lower(v), "2gis.") by {
      LowerKeepsHost(v, i);
      ContainsAt(Lower(v), "2gis.", i + 5);
    }
  }

  /** The `2gis.` inside `link.2gis.com` is already lower-case. */
  lemma LowerKeepsHost(v: string, i: int)
    requires OccursAt(v, RedirectHost, i)
    ensures OccursAt(Lower(v), "2gis.", i + 5)
  {
    var low := Lower(v);
    assert v[i..i + 13] == RedirectHost;
    forall k | 0 <= k < 5 ensures low[i + 5 + k] == "2gis."[k] {
      assert v[i + 5 + k] == v[i..i + 13][5 + k];
    }
  }

  /** The fault the `except` swallows changes nothing: a link that fails to
      decode is a 2GIS link, which the filter rejects anyway. So the branch
      is the resolved address, if the filter keeps it. */
  lemma SiteFromButtonResolves(v: string)
    ensures SiteFromButton(Some(v)) == if Excluded(Resolve(v)) then None else Some(Resolve(v))
  {
    if ExtractWebsiteAsWritten(v).Err? {
      RedirectIsExcluded(v);
    }
  }

  // ---------------------------------------------------------------------------
  // The button chain for the primary contact

  /** What a channel button contributes: the captured address, normalised
      for WhatsApp and Telegram, or `""` when the click failed. */
  function ButtonContact(c: Channel, u: Option<string>): string {
    match u
    case None => ""
    case Some(v) => Normalize(c, v)
  }

  /** The first non-empty result of an ordered list of strategies, or `""`. */
  function FirstNonEmpty(results: seq<string>): (r: string)
    ensures r == "" <==> forall i :: 0 <= i < |results| ==> results[i] == ""
    ensures r != "" ==> exists i :: 0 <= i < |results| && results[i] == r
                                    && forall j :: 0 <= j < i ==> results[j] == ""
  {
    if results == [] then ""
    else if results[0] != "" then results[0]
    else
      assert forall i :: 1 <= i < |results| ==> results[i] == results[1..][i - 1];
      FirstNonEmpty(results[1..])
  }

  /** Reference: each channel button's contribution, read off one page. */
  function ButtonResults(w: Web, page: Page, chans: seq<Channel>): (rs: seq<string>)
    ensures |rs| == |chans|
    ensures forall i :: 0 <= i < |chans| ==> rs[i] == ButtonContact(chans[i], Capture(w, page, ChannelButton(chans[i])))
  {
    if chans == [] then []
    else [ButtonContact(chans[0], Capture(w, page, ChannelButton(chans[0])))] + ButtonResults(w, page, chans[1..])
  }

  /** The `if not primary_contact:` blocks, one per channel in `chans`. Each
      click runs on whatever tab has the focus; `home`, when present, is
      switched back to after each click (the code as written has none). */
  function Fallbacks(d: Driver, w: Web, primary: string, chans: seq<Channel>, home: Option<nat>): (r: (string, Driver))
    ensures primary != "" ==> r == (primary, d)
    ensures Valid(d) ==> Valid(r.1) && Grows(d, r.1)
    decreases |chans|
  {
    if primary != "" || chans == [] then (primary, d)
    else
      var (u, e) := ClickCapture(d, w, ChannelButton(chans[0]));
      var e' := if home.Some? then e.(current := home.value) else e;
      var r := Fallbacks(e', w, ButtonContact(chans[0], u), chans[1..], home);
      if Valid(d) then GrowsTrans(d, e', r.1); r else r
  }

  /** Returning to the card after every click makes the chain the first
      non-empty result among the passive pick and the buttons of the card,
      in order. */
  lemma {:induction false} FallbacksAtHome(d: Driver, w: Web, primary: string, chans: seq<Channel>)
    requires Valid(d) && IsOpen(d, d.current)
    ensures Fallbacks(d, w, primary, chans, Some(d.current)).0
            == FirstNonEmpty([primary] + ButtonResults(w, CurrentPage(d, w), chans))
    decreases |chans|
  {
    var rs := [primary] + ButtonResults(w, CurrentPage(d, w), chans);
    if primary == "" && chans != [] {
      var (u, e) := ClickCapture(d, w, ChannelButton(chans[0]));
      var e' := e.(current := d.current);
      Refocus(d, e, w);
      FallbacksAtHome(e', w, ButtonContact(chans[0], u), chans[1..]);
      assert rs[1..] == ButtonResults(w, CurrentPage(d, w), chans);
      assert ButtonResults(w, CurrentPage(d, w), chans)
             == [ButtonContact(chans[0], u)] + ButtonResults(w, CurrentPage(d, w), chans[1..]);
    } else if primary == "" {
      assert rs == [""];
      assert FirstNonEmpty(rs[1..]) == "";
    }
  }

  /** A chain whose clicks land on a page without buttons yields `""`. */
  lemma {:induction false} FallbacksOnBlank(d: Driver, w: Web, chans: seq<Channel>)
    requires CurrentPage(d, w).buttons == map[]
    ensures Fallbacks(d, w, "", chans, None).0 == ""
    decreases |chans|
  {
    if chans != [] {
      FallbacksOnBlank(d, w, chans[1..]);
    }
  }

  // ---------------------------------------------------------------------------
  // The whole lookup

  /** Step 1 as written, on the card's tab: the link scan (which may raise),
      then, if it found nothing, the website button, after which the focus
      stays on the tab the button opened. */
  function WebsiteStepAsWritten(d: Driver, w: Web): (r: (Result<Option<string>, Fault>, Driver))
    ensures Valid(d) ==> Valid(r.1) && Grows(d, r.1)
    ensures r.0.Err? ==> r.0.error == NonAsciiBase64
    ensures r.0.Ok? && r.0.value.Some? ==> !Excluded(r.0.value.value)
  {
    match ScanWebsiteAsWritten(CurrentPage(d, w).hrefs)
    case Err(e) => (Err(e), d)
    case Ok(Some(s)) => (Ok(Some(s)), d)
    case Ok(None) =>
      var (u, e) := ClickCapture(d, w, SiteButton);
      (Ok(SiteFromButton(u)), e)
  }

  /** Reference website of a card: its first accepted link, else what its
      website button captures, if the filter keeps it. */
  function WebsiteOf(w: Web, page: Page): (r: Option<string>)
    ensures r.Some? ==> !Excluded(r.value)
  {
    match ScanWebsite(page.hrefs)
    case Some(s) => Some(s)
    case None => SiteFromButton(Capture(w, page, SiteButton))
  }

  /** Step 1 mended: faults caught, and the focus back on the card after
      the website button. */
  function WebsiteStep(d: Driver, w: Web): (r: (Option<string>, Driver))
    requires Valid(d) && IsOpen(d, d.current)
    ensures r.0 == WebsiteOf(w, CurrentPage(d, w))
    ensures Valid(r.1) && Grows(d, r.1) && r.1.current == d.current && IsOpen(r.1, d.current)
    ensures CurrentPage(r.1, w) == CurrentPage(d, w)
  {
    match ScanWebsite(CurrentPage(d, w).hrefs)
    case Some(s) => (Some(s), d)
    case None =>
      var (u, e) := ClickCapture(d, w, SiteButton);
      Refocus(d, e, w);
      (SiteFromButton(u), e.(current := d.current))
  }

  /** Step 2: the passive pick on the focused tab, then the button chain. */
  function ContactStep(d: Driver, w: Web, home: Option<nat>): (r: (string, Driver))
    ensures Valid(d) ==> Valid(r.1) && Grows(d, r.1)
  {
    Fallbacks(d, w, PassivePrimary(Scan(CurrentPage(d, w).hrefs)), Priority, home)
  }

  /** Reference contact of a card, read off the card alone: the first
      non-empty of the passive pick and the five buttons in priority order,
      and the card's website. */
  function ContactOf(w: Web, page: Page): Contact {
    Contact(FirstNonEmpty([PassivePrimary(Scan(page.hrefs))] + ButtonResults(w, page, Priority)),
            WebsiteOf(w, page))
  }

  /** The `try` body as written, starting on the card's tab. */
  function BodyAsWritten(d: Driver, w: Web, firmId: string): (r: (Result<Contact, Fault>, Driver))
    ensures Valid(d) ==> Valid(r.1) && Grows(d, r.1)
    ensures r.0.Err? ==> r.0.error in {FirmPageTimeout, NonAsciiBase64}
    ensures r.0.Ok? && r.0.value.website.Some? ==> !Excluded(r.0.value.website.value)
  {
    if !Contains(CurrentUrl(d), firmId) then (Err(FirmPageTimeout), d)
    else
      var (site, d1) := WebsiteStepAsWritten(d, w);
      match site
      case Err(e) => (Err(e), d1)
      case Ok(site) =>
        var (primary, d2) := ContactStep(d1, w, None);
        if Valid(d) then GrowsTrans(d, d1, d2); (Ok(Contact(primary, site)), d2)
        else (Ok(Contact(primary, site)), d2)
  }

  /** The `try` body with both defects mended: it fails only on the firm
      page timeout, and otherwise returns the card's reference contact. */
  function Body(d: Driver, w: Web, firmId: string): (r: (Result<Contact, Fault>, Driver))
    requires Valid(d) && IsOpen(d, d.current)
    ensures Valid(r.1) && Grows(d, r.1)
    ensures r.0 == if Contains(CurrentUrl(d), firmId) then Ok(ContactOf(w, CurrentPage(d, w)))
                   else Err(FirmPageTimeout)
  {
    if !Contains(CurrentUrl(d), firmId) then (Err(FirmPageTimeout), d)
    else
      var (site, d1) := WebsiteStep(d, w);
      var (primary, d2) := ContactStep(d1, w, Some(d.current));
      FallbacksAtHome(d1, w, PassivePrimary(Scan(CurrentPage(d1, w).hrefs)), Priority);
      GrowsTrans(d, d1, d2);
      (Ok(Contact(primary, site)), d2)
  }

  /** The card's tab, opened from the focused tab of `d`. */
  function OpenFirm(d: Driver, w: Web, firmId: string): (r: Driver)
    requires Valid(d)
    ensures Valid(r) && Grows(d, r) && IsOpen(r, r.current)
    ensures CurrentUrl(r) == Land(w, FirmBase + firmId)
  {
    OpenTab(d, w, FirmBase + firmId)
  }

  /** `get_primary_contact` as written. Whatever happens, the `finally`
      block leaves only the tab that had the focus on entry, focused. */
  function GetPrimaryContactAsWritten(d: Driver, w: Web, firmId: string): (r: Lookup)
    requires Valid(d) && IsOpen(d, d.current)
    ensures r.driver.current == d.current && HandleSet(r.driver) == {d.current}
    ensures forall t :: t in r.driver.tabs <==> t in d.tabs && t.handle == d.current
    ensures Valid(r.driver) && IsOpen(r.driver, d.current)
    ensures r.result.Err? ==> r.result.error in {FirmPageTimeout, NonAsciiBase64}
    ensures r.result.Ok? && r.result.value.website.Some? ==> !Excluded(r.result.value.website.value)
  {
    var firm := OpenFirm(d, w, firmId);
    var (res, e) := BodyAsWritten(firm, w, firmId);
    GrowsTrans(d, firm, e);
    CleanupAfterGrowth(d, e);
    CleanupValid(e, d.current);
    OpenOfHandleSet(Cleanup(e, d.current), d.current);
    Lookup(res, Cleanup(e, d.current))
  }

  /** `get_primary_contact` with both defects mended: the same cleanup, a
      fault only when the card never loads, and otherwise the contact the
      card itself determines. */
  function GetPrimaryContact(d: Driver, w: Web, firmId: string): (r: Lookup)
    requires Valid(d) && IsOpen(d, d.current)
    ensures r.driver.current == d.current && HandleSet(r.driver) == {d.current}
    ensures forall t :: t in r.driver.tabs <==> t in d.tabs && t.handle == d.current
    ensures Valid(r.driver) && IsOpen(r.driver, d.current)
    ensures r.result == if Contains(Land(w, FirmBase + firmId), firmId)
                        then Ok(ContactOf(w, Content(w, Land(w, FirmBase + firmId))))
                        else Err(FirmPageTimeout)
  {
    var firm := OpenFirm(d, w, firmId);
    var (res, e) := Body(firm, w, firmId);
    GrowsTrans(d, firm, e);
    CleanupAfterGrowth(d, e);
    CleanupValid(e, d.current);
    OpenOfHandleSet(Cleanup(e, d.current), d.current);
    Lookup(res, Cleanup(e, d.current))
  }

  // ---------------------------------------------------------------------------
  // Where the code as written and the mended version part

  /** The card's address once loaded, and what it shows. */
  function CardUrl(w: Web, firmId: string): string {
    Land(w, FirmBase + firmId)
  }

  function CardPage(w: Web, firmId: string): Page {
    Content(w, CardUrl(w, firmId))
  }

  // ---------------------------------------------------------------------------
  // The code as written, read off the pages

  /** The page in focus after a click on `ctl` on `page`: the page the
      button opens, or `page` itself when it has no such button. */
  function AfterClick(w: Web, page: Page, ctl: Control): Page {
    if ctl in page.buttons then Content(w, Land(w, page.buttons[ctl])) else page
  }

  /** Reference for the button chain as written: each button is looked for
      on the page the previous click left in focus. */
  function ChainFrom(w: Web, page: Page, primary: string, chans: seq<Channel>): string
    decreases |chans|
  {
    if primary != "" || chans == [] then primary
    else
      var ctl := ChannelButton(chans[0]);
      ChainFrom(w, AfterClick(w, page, ctl), ButtonContact(chans[0], Capture(w, page, ctl)), chans[1..])
  }

  /** Without a switch back, the chain follows the focus from page to page. */
  lemma {:induction false} FallbacksAsWritten(d: Driver, w: Web, primary: string, chans: seq<Channel>)
    requires Valid(d)
    ensures Fallbacks(d, w, primary, chans, None).0 == ChainFrom(w, CurrentPage(d, w), primary, chans)
    decreases |chans|
  {
    if primary != "" || chans == [] {
    } else {
      var ctl := ChannelButton(chans[0]);
      var (u, e) := ClickCapture(d, w, ctl);
      assert CurrentPage(e, w) == AfterClick(w, CurrentPage(d, w), ctl);
      FallbacksAsWritten(e, w, ButtonContact(chans[0], u), chans[1..]);
    }
  }

  /** Reference for `get_primary_contact` as written, read off the pages
      alone: a timeout when the card never loads; the fault of the link
      scan; else the website of the links, or the one the website button
      captures, after which the contact is read off the page that button
      left in focus. */
  function CardLookupAsWritten(w: Web, firmId: string): (r: Result<Contact, Fault>)
    ensures r.Err? ==> r.error in {FirmPageTimeout, NonAsciiBase64}
    ensures r.Err? && r.error == NonAsciiBase64 ==> ScanWebsiteAsWritten(CardPage(w, firmId).hrefs).Err?
    ensures !Contains(CardUrl(w, firmId), firmId) <==> r == Err(FirmPageTimeout)
  {
    var card := CardPage(w, firmId);
    if !Contains(CardUrl(w, firmId), firmId) then Err(FirmPageTimeout)
    else
      match ScanWebsiteAsWritten(card.hrefs)
      case Err(e) => Err(e)
      case Ok(Some(s)) =>
        Ok(Contact(ChainFrom(w, card, PassivePrimary(Scan(card.hrefs)), Priority), Some(s)))
      case Ok(None) =>
        var next := AfterClick(w, card, SiteButton);
        Ok(Contact(ChainFrom(w, next, PassivePrimary(Scan(next.hrefs)), Priority),
                   SiteFromButton(Capture(w, card, SiteButton))))
  }

  /** `get_primary_contact` as written yields the reference outcome of the
      firm's card, whatever the browser's state. */
  lemma LookupAsWrittenIsCardLookup(d: Driver, w: Web, firmId: string)
    requires Valid(d) && IsOpen(d, d.current)
    ensures GetPrimaryContactAsWritten(d, w, firmId).result == CardLookupAsWritten(w, firmId)
  {
    var firm := OpenFirm(d, w, firmId);
    assert GetPrimaryContactAsWritten(d, w, firmId).result == BodyAsWritten(firm, w, firmId).0;
    BodyAsWrittenIsCardLookup(firm, w, firmId);
  }

  /** The `try` body as written, on the card's tab, yields the reference
      outcome. */
  lemma BodyAsWrittenIsCardLookup(firm: Driver, w: Web, firmId: string)
    requires Valid(firm) && CurrentUrl(firm) == CardUrl(w, firmId)
    ensures BodyAsWritten(firm, w, firmId).0 == CardLookupAsWritten(w, firmId)
  {
    var card := CardPage(w, firmId);
    assert CurrentPage(firm, w) == card;
    if Contains(CardUrl(w, firmId), firmId) && ScanWebsiteAsWritten(card.hrefs).Ok? {
      var d1 := WebsiteStepAsWritten(firm, w).1;
      FallbacksAsWritten(d1, w, PassivePrimary(Scan(CurrentPage(d1, w).hrefs)), Priority);
      if ScanWebsiteAsWritten(card.hrefs).value.None? {
        assert CurrentPage(d1, w) == AfterClick(w, card, SiteButton);
      }
    }
  }

  /** When the card's links yield a website without a fault and a passive
      contact, no button is clicked and both versions return the same. */
  lemma AgreesWithoutClicks(d: Driver, w: Web, firmId: string)
    requires Valid(d) && IsOpen(d, d.current)
    requires ScanWebsiteAsWritten(CardPage(w, firmId).hrefs).Ok?
    requires ScanWebsiteAsWritten(CardPage(w, firmId).hrefs).value.Some?
    requires PassivePrimary(Scan(CardPage(w, firmId).hrefs)) != ""
    ensures GetPrimaryContactAsWritten(d, w, firmId) == GetPrimaryContact(d, w, firmId)
  {
    var firm := OpenFirm(d, w, firmId);
    assert CurrentPage(firm, w) == CardPage(w, firmId);
    BodiesAgree(firm, w, firmId);
  }

  /** The `try` bodies agree on a card whose links settle the website
      without a fault and hold a passive contact. */
  lemma BodiesAgree(firm: Driver, w: Web, firmId: string)
    requires Valid(firm) && IsOpen(firm, firm.current)
    requires ScanWebsiteAsWritten(CurrentPage(firm, w).hrefs).Ok?
    requires ScanWebsiteAsWritten(CurrentPage(firm, w).hrefs).value.Some?
    requires PassivePrimary(Scan(CurrentPage(firm, w).hrefs)) != ""
    ensures BodyAsWritten(firm, w, firmId) == Body(firm, w, firmId)
  {
    WebsiteStepsAgree(firm, w);
  }

  /** A website found among the card's links is found by both versions
      without a click. */
  lemma WebsiteStepsAgree(firm: Driver, w: Web)
    requires Valid(firm) && IsOpen(firm, firm.current)
    requires ScanWebsiteAsWritten(CurrentPage(firm, w).hrefs).Ok?
    requires ScanWebsiteAsWritten(CurrentPage(firm, w).hrefs).value.Some?
    ensures WebsiteStep(firm, w).1 == firm
    ensures WebsiteStepAsWritten(firm, w) == (Ok(WebsiteStep(firm, w).0), firm)
  {
    ScanWebsiteAgrees(CurrentPage(firm, w).hrefs);
  }

  /** The focus defect: a card with a contact link but no website link,
      whose website button opens a page without links or buttons. The code
      as written reads the contact links on that page and finds none; the
      mended version returns the card's contact. */
  lemma FocusLosesContact(d: Driver, w: Web, firmId: string)
    requires Valid(d) && IsOpen(d, d.current)
    requires Contains(CardUrl(w, firmId), firmId)
    requires ScanWebsiteAsWritten(CardPage(w, firmId).hrefs) == Ok(None)
    requires SiteButton in CardPage(w, firmId).buttons
    requires Content(w, Land(w, CardPage(w, firmId).buttons[SiteButton])) == Blank
    requires PassivePrimary(Scan(CardPage(w, firmId).hrefs)) != ""
    ensures GetPrimaryContactAsWritten(d, w, firmId).result.Ok?
    ensures GetPrimaryContactAsWritten(d, w, firmId).result.value.primary == ""
    ensures GetPrimaryContact(d, w, firmId).result.Ok?
    ensures GetPrimaryContact(d, w, firmId).result.value.primary == PassivePrimary(Scan(CardPage(w, firmId).hrefs))
  {
    var card := CardPage(w, firmId);
    var firm := OpenFirm(d, w, firmId);
    assert CurrentPage(firm, w) == card;
    var (u, e) := ClickCapture(firm, w, SiteButton);
    assert CurrentPage(e, w) == Blank;
    assert WebsiteStepAsWritten(firm, w).1 == e;
    assert Scan(Blank.hrefs) == NoSlots;
    FallbacksOnBlank(e, w, Priority);
    assert ContactStep(e, w, None).0 == "";
  }

  /** The decoding defect: a card whose link scan hits an undecodable
      redirect first. The code as written fails the whole lookup; the mended
      version returns a contact. */
  lemma DecodeFaultEscapes(d: Driver, w: Web, firmId: string)
    requires Valid(d) && IsOpen(d, d.current)
    requires Contains(CardUrl(w, firmId), firmId)
    requires ScanWebsiteAsWritten(CardPage(w, firmId).hrefs).Err?
    ensures GetPrimaryContactAsWritten(d, w, firmId).result == Err(NonAsciiBase64)
    ensures GetPrimaryContact(d, w, firmId).result.Ok?
  {
    var firm := OpenFirm(d, w, firmId);
    assert CurrentPage(firm, w) == CardPage(w, firmId);
  }

  /** A card whose only website link is `https://link.2gis.com/%FF` makes
      the link scan as written raise. */
  lemma LinkScanRaisesOnExample()
    ensures ScanWebsiteAsWritten(["https://link.2gis.com/%FF"]) == Err(NonAsciiBase64)
  {
    var hrefs := ["https://link.2gis.com/%FF"];
    var vs := seq(|hrefs|, i requires 0 <= i < |hrefs| => LinkVerdict(hrefs[i]));
    assert vs == [Raise] by {
      ExampleVerdict();
    }
    assert ScanVerdicts(vs) == Err(NonAsciiBase64);
  }

  lemma ExampleVerdict()
    ensures LinkVerdict("https://link.2gis.com/%FF") == Raise
  {
    var raw := "https://link.2gis.com/%FF";
    assert Trimmed(raw);
    StripOfTrimmed(raw);
    assert raw[..8] == "https://";
    assert IsWebLink(raw);
    AsWrittenRaisesOnNonAscii();
  }
}

=== FILE: link_resolver.dfy ===
/** `_extract_website_from_href`: unwrapping the `link.2gis.com` redirect
    links 2GIS puts in front of a firm's own website. */
module LinkResolver {
  import opened Outcomes
  import opened Text
  import opened Codecs

  /** The host of 2GIS's redirect service; an href mentioning it is decoded. */
  const RedirectHost: string := "link.2gis.com"

  predicate IsRedirect(href: string) {
    Contains(href, RedirectHost)
  }

  /** The padding step: append `=` until the length is a multiple of four. */
  function PadBase64(s: string): (r: string)
    ensures |s| <= |r| < |s| + 4 && |r| % 4 == 0
    ensures r[..|s|] == s
    ensures forall i :: |s| <= i < |r| ==> r[i] == '='
  {
    var pad := |s| % 4;
    if pad != 0 then s + seq(4 - pad, _ => '=') else s
  }

  /** Padding adds only ASCII characters. */
  lemma PadBase64Ascii(s: string)
    ensures IsAscii(PadBase64(s)) <==> IsAscii(s)
  {
    var r := PadBase64(s);
    if IsAscii(s) {
      forall i | 0 <= i < |r| ensures r[i] < '\U{80}' {
        if i < |s| {
          assert r[i] == r[..|s|][i];
        }
      }
    }
    if IsAscii(r) {
      forall i | 0 <= i < |s| ensures s[i] < '\U{80}' {
        assert s[i] == r[..|s|][i];
      }
    }
  }

  /** A decoded line the collector accepts as a website address. */
  predicate IsHttpUrl(s: string) {
    StartsWith(s, "http://") || StartsWith(s, "https://")
  }

  lemma HttpUrlStartsWithHttp(s: string)
    requires IsHttpUrl(s)
    ensures StartsWith(s, "http")
  {
    if StartsWith(s, "http://") {
      assert s[..4] == s[..7][..4];
    } else {
      assert s[..4] == s[..8][..4];
    }
  }

  /** The test applied to each decoded line: stripped, does it start with
      `http://` or `https://`? */
  predicate HttpLine(l: string) {
    IsHttpUrl(Strip(l))
  }

  /** The index of the first line that passes `HttpLine`. */
  function FirstHttpIndex(ls: seq<string>): (r: Option<nat>)
    ensures r.Some? ==> r.value < |ls| && HttpLine(ls[r.value])
    ensures r.Some? ==> forall j :: 0 <= j < r.value ==> !HttpLine(ls[j])
    ensures r.None? ==> forall j :: 0 <= j < |ls| ==> !HttpLine(ls[j])
  {
    var bs := seq(|ls|, i requires 0 <= i < |ls| => HttpLine(ls[i]));
    assert forall j :: 0 <= j < |ls| ==> bs[j] == HttpLine(ls[j]);
    FirstTrue(bs)
  }

  /** Step 5: the first line that, once stripped, starts with `http://` or
      `https://`, stripped; `None` when no line does. */
  function FirstHttp(ls: seq<string>): (r: Option<string>)
    ensures r.None? <==> forall j :: 0 <= j < |ls| ==> !HttpLine(ls[j])
    ensures r.Some? ==> IsHttpUrl(r.value) && r.value == Strip(r.value)
    ensures r.Some? ==> exists i :: 0 <= i < |ls| && HttpLine(ls[i]) && r.value == Strip(ls[i])
                                    && forall j :: 0 <= j < i ==> !HttpLine(ls[j])
  {
    match FirstHttpIndex(ls)
    case None => None
    case Some(i) =>
      StripIdempotent(ls[i]);
      Some(Strip(ls[i]))
  }

  /** Steps 2 to 5 on the last path segment, as the code is written:
      `base64.b64decode` raises `ValueError` (not `binascii.Error`) for a
      non-ASCII string, and nothing catches it. */
  function RedirectTargetAsWritten(segment: string): (r: Result<Option<string>, Fault>)
    ensures r.Err? <==> !IsAscii(Unquote(segment))
    ensures r.Err? ==> r.error == NonAsciiBase64
    ensures r.Ok? && r.value.Some? ==> IsHttpUrl(r.value.value) && r.value.value == Strip(r.value.value)
  {
    var padded := PadBase64(Unquote(segment));
    PadBase64Ascii(Unquote(segment));
    if !IsAscii(padded) then Err(NonAsciiBase64)
    else
      match B64Decode(padded)
      case Err(_) => Ok(None)
      case Ok(bs) => Ok(FirstHttp(SplitLines(Utf8Decode(bs, false))))
  }

  /** `_extract_website_from_href` as written: it may raise. */
  function ExtractWebsiteAsWritten(href: string): (r: Result<Option<string>, Fault>)
    ensures r.Err? <==> IsRedirect(href) && !IsAscii(Unquote(LastSegment(href)))
  {
    if IsRedirect(href) then RedirectTargetAsWritten(LastSegment(href))
    else if StartsWith(href, "http") then Ok(Some(href))
    else Ok(None)
  }

  /** `_extract_website_from_href` with the `ValueError` caught the way the
      `binascii.Error` is: the website behind a redirect, a plain `http…`
      link unchanged, or `None`; it never raises, and wherever the code as
      written returns, it returns the same. */
  function ExtractWebsite(href: string): (r: Option<string>)
    ensures r.Some? ==> StartsWith(r.value, "http")
    ensures !IsRedirect(href) ==> (r.Some? <==> StartsWith(href, "http"))
    ensures !IsRedirect(href) && r.Some? ==> r.value == href
    ensures IsRedirect(href) && r.Some? ==> IsHttpUrl(r.value) && r.value == Strip(r.value)
    ensures ExtractWebsiteAsWritten(href).Ok? ==> ExtractWebsiteAsWritten(href).value == r
    ensures ExtractWebsiteAsWritten(href).Err? ==> r.None?
  {
    match ExtractWebsiteAsWritten(href)
    case Err(_) => None
    case Ok(r) =>
      assert r.Some? && IsRedirect(href) ==> StartsWith(r.value, "http") by {
        if r.Some? && IsRedirect(href) {
          HttpUrlStartsWithHttp(r.value);
        }
      }
      r
  }

  /** `https://link.2gis.com/%FF`: the segment `%FF` percent-decodes (with
      `replace`) to U+FFFD, which is not ASCII, so the code as written raises
      `ValueError` where the intended version gives `None`. */
  lemma AsWrittenRaisesOnNonAscii()
    ensures ExtractWebsiteAsWritten("https://link.2gis.com/%FF") == Err(NonAsciiBase64)
    ensures ExtractWebsite("https://link.2gis.com/%FF") == None
  {
    var href := "https://link.2gis.com/%FF";
    ExampleIsRedirect();
    ExampleSegment();
    UnquoteFF();
    assert !IsAscii("\U{FFFD}") by {
      assert "\U{FFFD}"[0] >= '\U{80}';
    }
    var r := RedirectTargetAsWritten("%FF");
    assert r == Err(NonAsciiBase64);
    assert ExtractWebsiteAsWritten(href) == r;
  }

  lemma ExampleIsRedirect()
    ensures IsRedirect("https://link.2gis.com/%FF")
  {
    var href := "https://link.2gis.com/%FF";
    assert href[8..8 + |RedirectHost|] == RedirectHost;
    ContainsAt(href, RedirectHost, 8);
  }

  lemma ExampleSegment()
    ensures LastSegment("https://link.2gis.com/%FF") == "%FF"
  {
    LastSegmentOfPath("https://link.2gis.com", "%FF");
    assert "https://link.2gis.com" + "/" + "%FF" == "https://link.2gis.com/%FF";
  }

  lemma UnquoteFF()
    ensures Unquote("%FF") == "\U{FFFD}"
  {
    var seg := "%FF";
    AsciiRunLenOfAscii(seg);
    UnquoteRunsAscii(seg);
    assert seg[3..] == [];
    assert PercentBytes(seg) == [0xFF];
    assert DecodeStep([0xFF]) == Bad(1);
    assert Utf8Decode([0xFF], true) == "\U{FFFD}";
  }

  // ---------------------------------------------------------------------------
  // Round trip: a redirect built the way 2GIS builds one decodes to its target

  /** Base64 text is ASCII. */
  lemma {:induction false} B64EncodeAscii(bs: seq<byte>)
    ensures IsAscii(B64Encode(bs))
    decreases |bs|
  {
    if |bs| >= 3 {
      B64EncodeAscii(bs[3..]);
    }
  }

  /** The last segment of a path ending in a slash-free segment is that segment. */
  lemma {:induction false} LastSegmentOfPath(prefix: string, seg: string)
    requires '/' !in seg
    ensures LastSegment(prefix + "/" + seg) == seg
    decreases |seg|
  {
    var s := prefix + "/" + seg;
    if seg == [] {
      assert s[|s| - 1] == '/';
    } else {
      var init := seg[..|seg| - 1];
      assert '/' !in init by {
        forall i | 0 <= i < |init| ensures init[i] != '/' { assert init[i] == seg[i]; }
      }
      LastSegmentOfPath(prefix, init);
      assert s[..|s| - 1] == prefix + "/" + init;
      assert seg == init + [seg[|seg| - 1]];
    }
  }

  /** A redirect whose last segment is the percent-encoded base64 of the
      UTF-8 text `t` resolves to the first `http` line of `t`; here
      percent-encoding is `quote` with its default `safe='/'`, so the base64
      text must not contain `/`. */
  lemma RedirectRoundTrip(prefix: string, t: string)
    requires IsRedirect(prefix)
    requires '/' !in B64Encode(Utf8Encode(t))
    ensures ExtractWebsiteAsWritten(prefix + "/" + Quote(B64Encode(Utf8Encode(t))))
            == Ok(FirstHttp(SplitLines(t)))
    ensures ExtractWebsite(prefix + "/" + Quote(B64Encode(Utf8Encode(t)))) == FirstHttp(SplitLines(t))
  {
    var q := Quote(B64Encode(Utf8Encode(t)));
    EncodedSegment(t);
    RedirectHref(prefix, q);
    ExtractOfRedirect(prefix + "/" + q);
  }

  /** The same round trip with the base64 text quoted with `safe=''`, as
      `%2F` escapes every `/` it may hold: it needs no condition on `t`. */
  lemma RedirectRoundTripEscaped(prefix: string, t: string)
    requires IsRedirect(prefix)
    ensures ExtractWebsiteAsWritten(prefix + "/" + QuoteAll(B64Encode(Utf8Encode(t))))
            == Ok(FirstHttp(SplitLines(t)))
    ensures ExtractWebsite(prefix + "/" + QuoteAll(B64Encode(Utf8Encode(t)))) == FirstHttp(SplitLines(t))
  {
    var q := QuoteAll(B64Encode(Utf8Encode(t)));
    EncodedSegmentEscaped(t);
    RedirectHref(prefix, q);
    ExtractOfRedirect(prefix + "/" + q);
  }

  /** Appending a slash-free segment to a redirect link keeps it a redirect
      whose last segment is that segment. */
  lemma RedirectHref(prefix: string, seg: string)
    requires IsRedirect(prefix) && '/' !in seg
    ensures IsRedirect(prefix + "/" + seg) && LastSegment(prefix + "/" + seg) == seg
  {
    var href := prefix + "/" + seg;
    LastSegmentOfPath(prefix, seg);
    assert href[..|prefix|] == prefix;
    ContainsInSlice(href, RedirectHost, 0, |prefix|);
  }

  /** On a redirect link the extractor decodes the last segment. */
  lemma ExtractOfRedirect(href: string)
    requires IsRedirect(href)
    ensures ExtractWebsiteAsWritten(href) == RedirectTargetAsWritten(LastSegment(href))
  {
  }

  /** The segment itself: percent-decoding, padding, base64 and UTF-8
      decoding undo the encoding steps in turn. */
  lemma EncodedSegment(t: string)
    requires '/' !in B64Encode(Utf8Encode(t))
    ensures '/' !in Quote(B64Encode(Utf8Encode(t)))
    ensures RedirectTargetAsWritten(Quote(B64Encode(Utf8Encode(t)))) == Ok(FirstHttp(SplitLines(t)))
  {
    var b := B64Encode(Utf8Encode(t));
    B64EncodeAscii(Utf8Encode(t));
    QuoteKeepsNoSlash(b);
    UnquoteOfQuote(b);
    assert PadBase64(b) == b;
    B64RoundTrip(Utf8Encode(t));
    Utf8RoundTrip(t, false);
  }

  /** The fully escaped segment decodes the same way. */
  lemma EncodedSegmentEscaped(t: string)
    ensures '/' !in QuoteAll(B64Encode(Utf8Encode(t)))
    ensures RedirectTargetAsWritten(QuoteAll(B64Encode(Utf8Encode(t)))) == Ok(FirstHttp(SplitLines(t)))
  {
    var b := B64Encode(Utf8Encode(t));
    B64EncodeAscii(Utf8Encode(t));
    QuoteBytesNoSlash(Utf8Encode(b), false);
    UnquoteOfQuote(b);
    assert PadBase64(b) == b;
    B64RoundTrip(Utf8Encode(t));
    Utf8RoundTrip(t, false);
  }

  /** `quote` introduces a `/` only where the input had one. */
  lemma QuoteKeepsNoSlash(s: string)
    requires IsAscii(s) && '/' !in s
    ensures '/' !in Quote(s)
  {
    Utf8EncodeAscii(s);
    QuoteBytesNoSlash(AsciiBytes(s), true);
  }

  /** With `safe=''` no `/` survives quoting; with `safe='/'` only the
      input's own `/` bytes do. */
  lemma {:induction false} QuoteBytesNoSlash(bs: seq<byte>, slashSafe: bool)
    requires slashSafe ==> forall i :: 0 <= i < |bs| ==> bs[i] != '/' as int as byte
    ensures '/' !in QuoteBytes(bs, slashSafe)
  {
    if bs != [] {
      QuoteBytesNoSlash(bs[1..], slashSafe);
      assert HexDigit(bs[0] as int / 16) != '/' && HexDigit(bs[0] as int % 16) != '/';
    }
  }
}

=== FILE: listing.dfy ===
/** What both page loops share: the cards read off a results page, the rows
    they become, the deduplication by normalised address, the enrichment of
    rows in order under a budget, and the pagination through the results. */
module Listing {
  import opened Outcomes
  import opened Text
  import opened Contacts
  import opened Addresses
  import opened Browser
  import opened DetailExtractor

  // ---------------------------------------------------------------------------
  // Cards and rows

  /** A card as `collect_cards_from_root` returns it; how it is read off the
      page is not part of this model. */
  datatype Card = Card(firmId: string, name: string, address: string)

  /** The columns enrichment fills in. */
  datatype Enrichment = Enrichment(primary: string, website: Option<string>, primaryType: string)

  /** A row of the output: the card, the `query` column when the loop tags
      rows, and the enrichment once the row has been visited. */
  datatype Row = Row(card: Card, query: Option<string>, enrichment: Option<Enrichment>)

  /** The deduplication key: the normalised address. */
  function Key(c: Card): string {
    NormAddr(c.address)
  }

  // ---------------------------------------------------------------------------
  // Deduplication by a key
  //
  // Stated for any key function, so that what the key computes does not
  // weigh on the bookkeeping.

  function KeysBy<T(==)>(key: T -> string, xs: seq<T>): set<string> {
    set x | x in xs :: key(x)
  }

  /** The keys worth keeping: an element whose key is `""` is skipped. */
  function NonEmptyKeysBy<T(==)>(key: T -> string, xs: seq<T>): set<string> {
    set x | x in xs && key(x) != "" :: key(x)
  }

  lemma KeysSnoc<T>(key: T -> string, xs: seq<T>, x: T)
    ensures KeysBy(key, xs + [x]) == KeysBy(key, xs) + {key(x)}
    ensures NonEmptyKeysBy(key, xs + [x]) == NonEmptyKeysBy(key, xs) + (if key(x) != "" then {key(x)} else {})
  {
    assert forall y :: y in xs + [x] <==> y in xs || y == x;
  }

  lemma KeysConcat<T>(key: T -> string, a: seq<T>, b: seq<T>)
    ensures KeysBy(key, a + b) == KeysBy(key, a) + KeysBy(key, b)
  {
    assert forall y :: y in a + b <==> y in a || y in b;
  }

  /** What the merge loop appends when it starts from the keys `seen`: in
      order, each element whose key is non-empty and not seen yet, its key
      then counting as seen. */
  function DedupBy<T(==)>(key: T -> string, seen: set<string>, xs: seq<T>): (r: seq<T>)
    ensures forall x :: x in r ==> x in xs
    ensures forall i :: 0 <= i < |r| ==> key(r[i]) != "" && key(r[i]) !in seen
    ensures forall i, j :: 0 <= i < j < |r| ==> key(r[i]) != key(r[j])
    ensures KeysBy(key, r) == NonEmptyKeysBy(key, xs) - seen
    decreases |xs|
  {
    if xs == [] then []
    else
      var init := xs[..|xs| - 1];
      var x := xs[|xs| - 1];
      var prev := DedupBy(key, seen, init);
      assert xs == init + [x];
      KeysSnoc(key, init, x);
      KeysSnoc(key, prev, x);
      if key(x) == "" || key(x) in seen || key(x) in KeysBy(key, prev) then prev
      else
        KeptUnique(key, seen, prev, x);
        prev + [x]
  }

  /** Appending an element with a new, non-empty, unseen key keeps the keys
      of a merge result non-empty, unseen and pairwise different. */
  lemma KeptUnique<T>(key: T -> string, seen: set<string>, prev: seq<T>, x: T)
    requires forall i :: 0 <= i < |prev| ==> key(prev[i]) != "" && key(prev[i]) !in seen
    requires forall i, j :: 0 <= i < j < |prev| ==> key(prev[i]) != key(prev[j])
    requires key(x) != "" && key(x) !in seen && key(x) !in KeysBy(key, prev)
    ensures forall i :: 0 <= i < |prev + [x]| ==> key((prev + [x])[i]) != "" && key((prev + [x])[i]) !in seen
    ensures forall i, j :: 0 <= i < j < |prev + [x]| ==> key((prev + [x])[i]) != key((prev + [x])[j])
  {
    var r := prev + [x];
    forall i | 0 <= i < |r| ensures key(r[i]) != "" && key(r[i]) !in seen {
      if i < |prev| {
        assert r[i] == prev[i];
      }
    }
    forall i, j | 0 <= i < j < |r| ensures key(r[i]) != key(r[j]) {
      assert r[i] == prev[i];
      if j < |prev| {
        assert r[j] == prev[j];
      } else {
        assert prev[i] in prev;
      }
    }
  }

  /** One more element: kept exactly when its key is non-empty and not seen
      yet. */
  lemma DedupSnoc<T>(key: T -> string, seen: set<string>, xs: seq<T>, x: T)
    ensures DedupBy(key, seen, xs + [x])
         == if key(x) == "" || key(x) in seen + KeysBy(key, DedupBy(key, seen, xs))
            then DedupBy(key, seen, xs)
            else DedupBy(key, seen, xs) + [x]
  {
    assert (xs + [x])[..|xs|] == xs;
  }

  /** Merging two batches one after the other is merging the second with
      the keys of the first added to the seen ones. */
  lemma {:induction false} DedupAppend<T>(key: T -> string, seen: set<string>, a: seq<T>, b: seq<T>)
    ensures DedupBy(key, seen, a + b)
         == DedupBy(key, seen, a) + DedupBy(key, seen + KeysBy(key, DedupBy(key, seen, a)), b)
    decreases |b|
  {
    var da := DedupBy(key, seen, a);
    var s2 := seen + KeysBy(key, da);
    if b == [] {
      assert a + b == a;
    } else {
      var b0 := b[..|b| - 1];
      var c := b[|b| - 1];
      assert (a + b)[..|a + b| - 1] == a + b0;
      assert (a + b)[|a + b| - 1] == c;
      DedupAppend(key, seen, a, b0);
      var db0 := DedupBy(key, s2, b0);
      KeysConcat(key, da, db0);
      assert b[..|b| - 1] == b0;
    }
  }

  // ---------------------------------------------------------------------------
  // Rows

  /** New rows for `cards`, with the `query` column `tag` and not yet
      enriched. */
  function Tagged(cards: seq<Card>, tag: Option<string>): (r: seq<Row>)
    ensures |r| == |cards|
  {
    seq(|cards|, i requires 0 <= i < |cards| => Row(cards[i], tag, None))
  }

  lemma TaggedSnoc(cards: seq<Card>, c: Card, tag: Option<string>)
    ensures Tagged(cards + [c], tag) == Tagged(cards, tag) + [Row(c, tag, None)]
  {
    var l := Tagged(cards + [c], tag);
    var r := Tagged(cards, tag) + [Row(c, tag, None)];
    forall i | 0 <= i < |l| ensures l[i] == r[i] {
      if i < |cards| {
        assert (cards + [c])[i] == cards[i];
      }
    }
  }

  /** The merge step of a page (the inner `for c in cards` loop): appends the
      cards whose key is non-empty and unseen, tagged, and records their
      keys. Both loops call it with `Key`, the normalised address; it is
      stated for any key so that the normalisation does not weigh on the
      bookkeeping. */
  method MergeCards(key: Card -> string, rows: seq<Row>, seen: set<string>, cards: seq<Card>, tag: Option<string>)
    returns (rows': seq<Row>, seen': set<string>)
    ensures rows' == rows + Tagged(DedupBy(key, seen, cards), tag)
    ensures seen' == seen + KeysBy(key, DedupBy(key, seen, cards))
  {
    rows' := rows;
    seen' := seen;
    var k := 0;
    while k < |cards|
      invariant 0 <= k <= |cards|
      invariant rows' == rows + Tagged(DedupBy(key, seen, cards[..k]), tag)
      invariant seen' == seen + KeysBy(key, DedupBy(key, seen, cards[..k]))
    {
      var c := cards[k];
      var addrKey := key(c);
      var added := addrKey != "" && addrKey !in seen';
      MergeStepRows(key, rows, seen, cards, k, tag, added);
      MergeStepSeen(key, seen, cards, k, added);
      if added {
        seen' := seen' + {addrKey};
        rows' := rows' + [Row(c, tag, None)];
      }
      k := k + 1;
    }
    assert cards[..|cards|] == cards;
  }

  /** One round of the merge loop: the card at `k` is kept exactly when its
      key is non-empty and not among the seen keys, which are the keys given
      plus those of the cards kept so far. */
  lemma DedupStep(key: Card -> string, seen: set<string>, cards: seq<Card>, k: nat)
    requires k < |cards|
    ensures var prev := DedupBy(key, seen, cards[..k]);
      var c := cards[k];
      DedupBy(key, seen, cards[..k + 1])
        == if key(c) != "" && key(c) !in seen + KeysBy(key, prev) then prev + [c] else prev
  {
    assert cards[..k + 1] == cards[..k] + [cards[k]];
    DedupSnoc(key, seen, cards[..k], cards[k]);
  }

  /** The rows after a round of the merge loop. */
  lemma MergeStepRows(key: Card -> string, rows: seq<Row>, seen: set<string>, cards: seq<Card>, k: nat, tag: Option<string>,
                      added: bool)
    requires k < |cards|
    requires added <==> key(cards[k]) != "" && key(cards[k]) !in seen + KeysBy(key, DedupBy(key, seen, cards[..k]))
    ensures rows + Tagged(DedupBy(key, seen, cards[..k + 1]), tag)
         == if added then rows + Tagged(DedupBy(key, seen, cards[..k]), tag) + [Row(cards[k], tag, None)]
            else rows + Tagged(DedupBy(key, seen, cards[..k]), tag)
  {
    var prev := DedupBy(key, seen, cards[..k]);
    DedupStep(key, seen, cards, k);
    if added {
      TaggedSnoc(prev, cards[k], tag);
    }
  }

  /** The seen keys after a round of the merge loop. */
  lemma MergeStepSeen(key: Card -> string, seen: set<string>, cards: seq<Card>, k: nat, added: bool)
    requires k < |cards|
    requires added <==> key(cards[k]) != "" && key(cards[k]) !in seen + KeysBy(key, DedupBy(key, seen, cards[..k]))
    ensures seen + KeysBy(key, DedupBy(key, seen, cards[..k + 1]))
         == if added then seen + KeysBy(key, DedupBy(key, seen, cards[..k])) + {key(cards[k])}
            else seen + KeysBy(key, DedupBy(key, seen, cards[..k]))
  {
    var prev := DedupBy(key, seen, cards[..k]);
    DedupStep(key, seen, cards, k);
    if added {
      KeysSnoc(key, prev, cards[k]);
    }
  }

  // ---------------------------------------------------------------------------
  // Enrichment

  /** Which `get_primary_contact` the loops call: the code as written, or
      the one with both of its defects mended. */
  datatype Version = AsWritten | Mended

  /** The outcome of `get_primary_contact` for a firm: it depends on the
      firm's card only, not on the browser's state. */
  function ContactFor(w: Web, firmId: string, v: Version): Result<Contact, Fault> {
    match v
    case AsWritten => CardLookupAsWritten(w, firmId)
    case Mended =>
      if Contains(CardUrl(w, firmId), firmId) then Ok(ContactOf(w, DetailExtractor.CardPage(w, firmId)))
      else Err(FirmPageTimeout)
  }

  /** The faults a lookup ends a run with: the firm page timeout, and in
      the code as written also an undecodable redirect. */
  predicate LookupFault(f: Fault, v: Version) {
    f == FirmPageTimeout || (v == AsWritten && f == NonAsciiBase64)
  }

  /** The three columns written for a contact; `primary_type` is classified
      from the lower-cased primary contact. */
  function Classified(c: Contact): Enrichment {
    Enrichment(c.primary, c.website, TypeTag(Classify(c.primary)))
  }

  /** What enriching a row of firm `firmId` yields: the classified contact,
      or the fault that ends the run. */
  function Outcome(w: Web, firmId: string, v: Version): Result<Enrichment, Fault> {
    ClassifyOutcome(ContactFor(w, firmId, v))
  }

  function ClassifyOutcome(res: Result<Contact, Fault>): Result<Enrichment, Fault> {
    match res
    case Ok(c) => Ok(Classified(c))
    case Err(f) => Err(f)
  }

  /** The outcome for each firm. The loops are stated over such a directory
      rather than over `Outcome` itself, so that what a lookup computes does
      not weigh on the bookkeeping; `Serves` ties the two together. */
  type Directory = string -> Result<Enrichment, Fault>

  ghost predicate Serves(look: Directory, w: Web, v: Version) {
    forall id {:trigger Outcome(w, id, v)} :: look(id) == Outcome(w, id, v)
  }

  predicate Found(look: Directory, firmId: string) {
    look(firmId).Ok?
  }

  function EnrichmentFor(look: Directory, firmId: string): Option<Enrichment> {
    match look(firmId)
    case Ok(e) => Some(e)
    case Err(_) => None
  }

  /** How far the enrichment loop gets from `count` over `n` rows: to the
      end, or up to the budget when there is one and it is not used up. */
  function Cap(count: nat, n: nat, maxEnrich: Option<nat>): (k: nat)
    requires count <= n
    ensures count <= k <= n
    ensures maxEnrich.None? ==> k == n
    ensures maxEnrich.Some? && count <= maxEnrich.value ==> k <= maxEnrich.value
    ensures maxEnrich.Some? && count < maxEnrich.value ==> k == n || k == maxEnrich.value
    ensures maxEnrich.Some? && maxEnrich.value <= count ==> k == count
  {
    match maxEnrich
    case None => n
    case Some(m) => if count >= m then count else if n <= m then n else m
  }

  /** How many rows from the start end up enriched when enrichment starts
      at row 0: all of them, or the budget. */
  function Limit(n: nat, maxEnrich: Option<nat>): (k: nat)
    ensures k == Cap(0, n, maxEnrich)
    ensures k <= n
    ensures maxEnrich.None? ==> k == n
    ensures maxEnrich.Some? ==> k <= maxEnrich.value && (k == n || k == maxEnrich.value)
  {
    match maxEnrich
    case None => n
    case Some(m) => if n <= m then n else m
  }

  /** Enriching rows that were enriched up to the limit of fewer rows brings
      them to the limit of the new length: enrichment resumes where it
      stopped. */
  lemma CapOfLimit(before: nat, n: nat, maxEnrich: Option<nat>)
    requires before <= n
    ensures Limit(before, maxEnrich) <= n
    ensures Cap(Limit(before, maxEnrich), n, maxEnrich) == Limit(n, maxEnrich)
  {
  }

  /** The `get_primary_contact` of version `v`. */
  function LookupOf(d: Driver, w: Web, firmId: string, v: Version): (r: Lookup)
    requires Valid(d) && IsOpen(d, d.current)
    ensures Valid(r.driver) && IsOpen(r.driver, d.current) && r.driver.current == d.current
  {
    match v
    case AsWritten => GetPrimaryContactAsWritten(d, w, firmId)
    case Mended => GetPrimaryContact(d, w, firmId)
  }

  /** One row's enrichment (the body of the enrichment loop): a call of
      `get_primary_contact` from the results tab and the classification of
      the contact; the browser ends back on that tab alone. */
  method EnrichOne(look: Directory, v: Version, d: Driver, w: Web, firmId: string) returns (out: Result<Enrichment, Fault>, d': Driver)
    requires Valid(d) && IsOpen(d, d.current) && Serves(look, w, v)
    ensures out == look(firmId)
    ensures out.Err? ==> LookupFault(out.error, v)
    ensures Valid(d') && IsOpen(d', d.current) && d'.current == d.current
  {
    var res := LookupOf(d, w, firmId, v);
    LookupIsContactFor(d, w, firmId, v);
    out := ClassifyOutcome(res.result);
    assert out == Outcome(w, firmId, v);
    d' := res.driver;
  }

  /** `get_primary_contact` yields the outcome of the firm's card, whatever
      the browser's state. */
  lemma LookupIsContactFor(d: Driver, w: Web, firmId: string, v: Version)
    requires Valid(d) && IsOpen(d, d.current)
    ensures LookupOf(d, w, firmId, v).result == ContactFor(w, firmId, v)
  {
    if v == AsWritten {
      LookupAsWrittenIsCardLookup(d, w, firmId);
    }
  }

  /** A card whose link scan raises ends enrichment as written with the
      decoding fault, while the mended lookup finds it. */
  lemma UndecodableCard(look: Directory, w: Web, v: Version, firmId: string)
    requires Serves(look, w, v)
    requires Contains(CardUrl(w, firmId), firmId)
    requires ScanWebsiteAsWritten(DetailExtractor.CardPage(w, firmId).hrefs).Err?
    ensures v == AsWritten ==> look(firmId) == Err(NonAsciiBase64)
    ensures v == Mended ==> Found(look, firmId)
  {
    assert look(firmId) == Outcome(w, firmId, v);
  }

  /** The enrichment step of a page (`for row in rows[enriched_count:]`):
      from row `count` on, each row in turn, until the budget is used up,
      gets the primary contact, the website and the contact type of its firm.
      The first firm whose lookup fails ends the run with its fault. */
  method EnrichRows(look: Directory, v: Version, rows: seq<Row>, count: nat, maxEnrich: Option<nat>, d: Driver, w: Web)
    returns (r: Result<seq<Row>, Fault>, count': nat, d': Driver)
    requires count <= |rows|
    requires Valid(d) && IsOpen(d, d.current) && Serves(look, w, v)
    ensures Valid(d') && IsOpen(d', d.current) && d'.current == d.current
    ensures r.Ok? ==> count' == Cap(count, |rows|, maxEnrich)
    ensures r.Ok? <==> forall i :: count <= i < Cap(count, |rows|, maxEnrich) ==> Found(look, rows[i].card.firmId)
    ensures r.Err? ==> && LookupFault(r.error, v)
                       && count <= count' < Cap(count, |rows|, maxEnrich)
                       && (forall i :: count <= i < count' ==> Found(look, rows[i].card.firmId))
                       && look(rows[count'].card.firmId) == Err(r.error)
    ensures r.Ok? ==> |r.value| == |rows|
    ensures r.Ok? ==> forall i :: 0 <= i < |rows| ==>
      r.value[i] == if count <= i < count' then rows[i].(enrichment := EnrichmentFor(look, rows[i].card.firmId))
                    else rows[i]
  {
    var out := rows;
    var i := count;
    d' := d;
    while i < |rows|
      invariant count <= i <= Cap(count, |rows|, maxEnrich)
      invariant |out| == |rows|
      invariant forall j :: 0 <= j < |rows| ==>
        out[j] == if count <= j < i then rows[j].(enrichment := EnrichmentFor(look, rows[j].card.firmId))
                  else rows[j]
      invariant forall j :: count <= j < i ==> Found(look, rows[j].card.firmId)
      invariant Valid(d') && IsOpen(d', d.current) && d'.current == d.current
    {
      if maxEnrich.Some? && i >= maxEnrich.value {
        break;
      }
      var id := rows[i].card.firmId;
      var res, e := EnrichOne(look, v, d', w, id);
      d' := e;
      if res.Err? {
        return Err(res.error), i, d';
      }
      out := out[i := rows[i].(enrichment := Some(res.value))];
      i := i + 1;
    }
    count' := i;
    r := Ok(out);
  }

  /** The rows a loop holds once `cards` have been merged with the tag `tag`
      and the first `limit` of them enriched. */
  function Expected(cards: seq<Card>, tag: Option<string>, limit: nat, look: Directory): (r: seq<Row>)
    ensures |r| == |cards|
  {
    seq(|cards|, i requires 0 <= i < |cards| =>
      Row(cards[i], tag, if i < limit then EnrichmentFor(look, cards[i].firmId) else None))
  }

  /** Every firm among the first `limit` cards has a card that loads. */
  predicate AllFound(cards: seq<Card>, limit: nat, look: Directory) {
    forall i :: 0 <= i < |cards| && i < limit ==> Found(look, cards[i].firmId)
  }

  /** The rows of `cards`, the first `limit` enriched, when every firm
      among those has a card that loads; `None` when one does not. */
  function Enriched(cards: seq<Card>, tag: Option<string>, limit: nat, look: Directory): Option<seq<Row>> {
    if AllFound(cards, limit, look) then Some(Expected(cards, tag, limit, look)) else None
  }

  /** Appending freshly merged rows to enriched ones. */
  lemma ExpectedAppend(a: seq<Card>, b: seq<Card>, tag: Option<string>, limit: nat, look: Directory)
    requires limit <= |a|
    ensures Expected(a, tag, limit, look) + Tagged(b, tag) == Expected(a + b, tag, limit, look)
  {
    var l := Expected(a, tag, limit, look) + Tagged(b, tag);
    var r := Expected(a + b, tag, limit, look);
    forall i | 0 <= i < |r| ensures l[i] == r[i] {
      if i >= |a| {
        assert (a + b)[i] == b[i - |a|];
      }
    }
  }

  /** Enriching rows `count` up to `count'` of the expected rows moves their
      limit from `count` to `count'`. */
  lemma ExpectedEnrich(cards: seq<Card>, tag: Option<string>, count: nat, count': nat, look: Directory, out: seq<Row>)
    requires count <= count' <= |cards|
    requires |out| == |cards|
    requires forall i :: 0 <= i < |cards| ==>
      out[i] == if count <= i < count' then Expected(cards, tag, count, look)[i].(enrichment := EnrichmentFor(look, Expected(cards, tag, count, look)[i].card.firmId))
                else Expected(cards, tag, count, look)[i]
    ensures out == Expected(cards, tag, count', look)
  {
  }

  /** Enrichment that went through rows `count` up to `count'` without a
      fault extends the found prefix. */
  lemma AllFoundExtend(cards: seq<Card>, tag: Option<string>, count: nat, count': nat, look: Directory)
    requires count <= count' <= |cards|
    requires AllFound(cards, count, look)
    requires forall i :: count <= i < count' ==> Found(look, Expected(cards, tag, count, look)[i].card.firmId)
    ensures AllFound(cards, count', look)
  {
    forall i | 0 <= i < |cards| && i < count' ensures Found(look, cards[i].firmId) {
      if i >= count {
        assert Expected(cards, tag, count, look)[i].card == cards[i];
      }
    }
  }

  // ---------------------------------------------------------------------------
  // Pagination

  /** A page of results: its cards, and the firm id of its first card as
      `first_firm_id` reads it (`None` when there is none). */
  datatype ResultsPage = ResultsPage(cards: seq<Card>, firstId: Option<string>)

  /** Pages `1..|site|` of the results of a search; the link to page `p + 1`
      exists exactly when `p < |site|`. Clicking it from page `p` completes
      when the first firm id of the new page is present, non-empty and
      different from the one captured before the click. */
  predicate Advances(site: seq<ResultsPage>, p: int) {
    && 1 <= p < |site|
    && site[p].firstId.Some? && site[p].firstId.value != "" && site[p].firstId != site[p - 1].firstId
  }

  /** Where the pagination of a loop ends from page `p`: the last page
      reached, or the page whose advance timed out. */
  function Visit(site: seq<ResultsPage>, maxPages: int, p: nat): (r: Result<nat, Fault>)
    requires 1 <= p <= |site|
    ensures r.Ok? ==> p <= r.value <= |site| && (r.value >= maxPages || r.value == |site|)
    ensures r.Ok? ==> r.value == p || r.value <= maxPages
    ensures r.Ok? ==> forall q :: p <= q < r.value ==> Advances(site, q)
    ensures r.Err? ==> && r.error.PageNotAdvanced?
                       && p <= r.error.page < |site| && r.error.page < maxPages
                       && !Advances(site, r.error.page)
                       && forall q :: p <= q < r.error.page ==> Advances(site, q)
    decreases |site| - p
  {
    if p >= maxPages || p >= |site| then Ok(p)
    else if !Advances(site, p) then Err(PageNotAdvanced(p))
    else Visit(site, maxPages, p + 1)
  }

  /** The cards of the pages in order. */
  function AllCards(pages: seq<ResultsPage>): seq<Card> {
    if pages == [] then [] else AllCards(pages[..|pages| - 1]) + pages[|pages| - 1].cards
  }

  /** The deduplicated cards of pages `1..p`, by the key `key`. */
  function Collected(key: Card -> string, site: seq<ResultsPage>, p: nat): seq<Card>
    requires p <= |site|
  {
    DedupBy(key, {}, AllCards(site[..p]))
  }

  /** One more page adds its unseen cards after the ones already there. */
  lemma CollectedStep(key: Card -> string, site: seq<ResultsPage>, p: nat)
    requires p < |site|
    ensures Collected(key, site, p + 1)
         == Collected(key, site, p) + DedupBy(key, KeysBy(key, Collected(key, site, p)), site[p].cards)
  {
    assert site[..p + 1][..p] == site[..p];
    assert AllCards(site[..p + 1]) == AllCards(site[..p]) + site[p].cards;
    DedupAppend(key, {}, AllCards(site[..p]), site[p].cards);
    assert {} + KeysBy(key, Collected(key, site, p)) == KeysBy(key, Collected(key, site, p));
  }

  /** Rows are only ever appended: the rows after page `p` start the rows
      after any later page. */
  lemma {:induction false} CollectedPrefix(key: Card -> string, site: seq<ResultsPage>, p: nat, q: nat)
    requires p <= q <= |site|
    ensures |Collected(key, site, p)| <= |Collected(key, site, q)|
    ensures Collected(key, site, q)[..|Collected(key, site, p)|] == Collected(key, site, p)
    decreases q - p
  {
    if p < q {
      CollectedPrefix(key, site, p + 1, q);
      CollectedStep(key, site, p);
      var a := Collected(key, site, p);
      var b := Collected(key, site, p + 1);
      assert b[..|a|] == a;
    }
  }

  /** The merge step of page `p`: the rows of pages before it, enriched up
      to `count`, followed by the page's unseen cards, are the rows of pages
      up to `p`, enriched up to `count`; the seen keys grow accordingly. */
  lemma MergedPage(key: Card -> string, site: seq<ResultsPage>, p: nat, tag: Option<string>, count: nat, look: Directory)
    requires 1 <= p <= |site|
    requires count <= |Collected(key, site, p - 1)|
    ensures var before := Collected(key, site, p - 1);
            var added := DedupBy(key, KeysBy(key, before), site[p - 1].cards);
            && Expected(before, tag, count, look) + Tagged(added, tag) == Expected(Collected(key, site, p), tag, count, look)
            && KeysBy(key, before) + KeysBy(key, added) == KeysBy(key, Collected(key, site, p))
  {
    var before := Collected(key, site, p - 1);
    var added := DedupBy(key, KeysBy(key, before), site[p - 1].cards);
    CollectedStep(key, site, p - 1);
    ExpectedAppend(before, added, tag, count, look);
    KeysConcat(key, before, added);
  }

  /** Every firm enriched by the end of page `q` was enriched without a fault
      by the end of any earlier page `p`. */
  lemma AllFoundEarlier(key: Card -> string, site: seq<ResultsPage>, p: nat, q: nat, maxEnrich: Option<nat>, look: Directory)
    requires p <= q <= |site|
    requires AllFound(Collected(key, site, q), Limit(|Collected(key, site, q)|, maxEnrich), look)
    ensures AllFound(Collected(key, site, p), Limit(|Collected(key, site, p)|, maxEnrich), look)
  {
    var a := Collected(key, site, p);
    var b := Collected(key, site, q);
    CollectedPrefix(key, site, p, q);
    forall i | 0 <= i < |a| && i < Limit(|a|, maxEnrich) ensures Found(look, a[i].firmId) {
      assert a[i] == b[..|a|][i] == b[i];
    }
  }

  /** A firm whose lookup fails within the budget after page `p` is still
      within the budget after any later page `q`. */
  lemma FaultPersists(key: Card -> string, look: Directory, site: seq<ResultsPage>, p: nat, q: nat, maxEnrich: Option<nat>, at: nat)
    requires p <= q <= |site|
    requires at < Limit(|Collected(key, site, p)|, maxEnrich)
    requires !Found(look, Collected(key, site, p)[at].firmId)
    ensures !AllFound(Collected(key, site, q), Limit(|Collected(key, site, q)|, maxEnrich), look)
  {
    var a := Collected(key, site, p);
    var b := Collected(key, site, q);
    CollectedPrefix(key, site, p, q);
    assert b[at] == b[..|a|][at] == a[at];
    assert !Found(look, b[at].firmId);
  }
}

=== FILE: master_merge.dfy ===
/** `save_leads_to_excel` in `export_excel.py`, as a function over tables:
    the new leads stacked above the leads already in the master file,
    duplicates by address dropped keeping the first, the `id` column turned
    into text, the rows sorted by query and address; and the cell range the
    table style is given. */
module MasterMerge {
  import opened Outcomes

  // ---------------------------------------------------------------------------
  // Tables

  /** A row of the lead table: the three columns the merge reads, `None`
      standing for a missing value (NaN), and the other columns, carried
      along unchanged. */
  datatype Lead = Lead(id: Option<string>, query: Option<string>, address: Option<string>, others: seq<Option<string>>)

  /** A table: the names of its columns and its rows. A table built from
      records has the union of their keys as columns; one read from the file
      has the columns of its header. */
  datatype Frame = Frame(columns: set<string>, rows: seq<Lead>)

  /** The `KeyError` a missing column raises. */
  datatype MergeError = MissingColumn(column: string)

  function Addresses(ys: seq<Lead>): set<Option<string>> {
    set y | y in ys :: y.address
  }

  lemma AddressesCons(ys: seq<Lead>)
    requires ys != []
    ensures Addresses(ys) == {ys[0].address} + Addresses(ys[1..])
  {
    assert forall y :: y in ys <==> y == ys[0] || y in ys[1..];
  }

  lemma AddressesConcat(p: seq<Lead>, q: seq<Lead>)
    ensures Addresses(p + q) == Addresses(p) + Addresses(q)
  {
    assert forall y :: y in p + q <==> y in p || y in q;
  }

  /** The first row with address `a`, if any. */
  function First(ys: seq<Lead>, a: Option<string>): (r: Option<Lead>)
    ensures r.Some? <==> a in Addresses(ys)
    ensures r.Some? ==> r.value in ys && r.value.address == a
    ensures r.Some? ==> exists i :: 0 <= i < |ys| && ys[i] == r.value && forall j :: 0 <= j < i ==> ys[j].address != a
  {
    if ys == [] then None
    else
      AddressesCons(ys);
      if ys[0].address == a then Some(ys[0])
      else
        var r := First(ys[1..], a);
        assert r.Some? ==> exists i :: 0 <= i < |ys| && ys[i] == r.value && forall j :: 0 <= j < i ==> ys[j].address != a by {
          if r.Some? {
            var k :| 0 <= k < |ys[1..]| && ys[1..][k] == r.value && forall j :: 0 <= j < k ==> ys[1..][j].address != a;
            assert ys[k + 1] == ys[1..][k];
            forall j | 0 <= j < k + 1 ensures ys[j].address != a {
              if j > 0 { assert ys[j] == ys[1..][j - 1]; }
            }
          }
        }
        r
  }

  /** Where the first row with an address sits in two stacked tables: in
      the upper one whenever it has that address. */
  lemma {:induction false} FirstConcat(p: seq<Lead>, q: seq<Lead>, a: Option<string>)
    ensures First(p + q, a) == if a in Addresses(p) then First(p, a) else First(q, a)
  {
    if p == [] {
      assert p + q == q;
    } else {
      AddressesCons(p);
      assert (p + q)[1..] == p[1..] + q;
      FirstConcat(p[1..], q, a);
    }
  }

  // ---------------------------------------------------------------------------
  // `drop_duplicates(subset=["address"])`

  /** Rows whose address is neither in `seen` nor the address of an earlier
      row: the pass `drop_duplicates` makes, keeping first occurrences in
      order. */
  function DropFrom(ys: seq<Lead>, seen: set<Option<string>>): (r: seq<Lead>)
    ensures forall k :: 0 <= k < |r| ==> r[k] in ys && r[k].address !in seen
    ensures forall i, j :: 0 <= i < j < |r| ==> r[i].address != r[j].address
    ensures Addresses(r) == Addresses(ys) - seen
    decreases |ys|
  {
    if ys == [] then []
    else
      AddressesCons(ys);
      var y := ys[0];
      if y.address in seen then DropFrom(ys[1..], seen)
      else
        var rest := DropFrom(ys[1..], seen + {y.address});
        AddressesCons([y] + rest);
        assert ([y] + rest)[1..] == rest;
        [y] + rest
  }

  function DropDuplicates(ys: seq<Lead>): (r: seq<Lead>) {
    DropFrom(ys, {})
  }

  /** A row survives exactly when it is the first row with its address. */
  lemma {:induction false} DropFromFirst(ys: seq<Lead>, seen: set<Option<string>>, x: Lead)
    ensures x in DropFrom(ys, seen) <==> x in ys && x.address !in seen && First(ys, x.address) == Some(x)
    decreases |ys|
  {
    if ys != [] {
      var y := ys[0];
      var t := ys[1..];
      assert ys == [y] + t;
      if y.address in seen {
        DropFromFirst(t, seen, x);
      } else {
        DropFromFirst(t, seen + {y.address}, x);
      }
    }
  }

  /** Addresses pairwise distinct. */
  predicate Distinct(ys: seq<Lead>) {
    forall i, j :: 0 <= i < j < |ys| ==> ys[i].address != ys[j].address
  }

  // ---------------------------------------------------------------------------
  // `df_all["id"].astype(str)`

  /** The text `astype(str)` makes of an id: a missing one becomes "nan". */
  function IdText(id: Option<string>): string {
    if id.Some? then id.value else "nan"
  }

  function WithTextId(y: Lead): Lead {
    y.(id := Some(IdText(y.id)))
  }

  /** Every id turned into text; nothing else in a row changes, and a row
      whose id was already text is left as it was. */
  function StringifyIds(ys: seq<Lead>): (r: seq<Lead>)
    ensures |r| == |ys|
    ensures forall k :: 0 <= k < |r| ==> r[k].id.Some? && r[k].(id := ys[k].id) == ys[k]
    ensures forall k :: 0 <= k < |r| ==> ys[k].id.Some? ==> r[k] == ys[k]
  {
    seq(|ys|, k requires 0 <= k < |ys| => WithTextId(ys[k]))
  }

  /** The rows left by deduplication and the id pass, by what they are: for
      each address of the input, the first row with it, id as text. */
  lemma MergedRows(ys: seq<Lead>, x: Lead)
    ensures var m := StringifyIds(DropDuplicates(ys));
      x in m <==> x.address in Addresses(ys) && x == WithTextId(First(ys, x.address).value)
  {
    var d := DropDuplicates(ys);
    var m := StringifyIds(d);
    if x in m {
      var k :| 0 <= k < |m| && m[k] == x;
      DropFromFirst(ys, {}, d[k]);
    }
    if x.address in Addresses(ys) && x == WithTextId(First(ys, x.address).value) {
      var z := First(ys, x.address).value;
      DropFromFirst(ys, {}, z);
      var k :| 0 <= k < |d| && d[k] == z;
      assert m[k] == x;
    }
  }

  // ---------------------------------------------------------------------------
  // `sort_values(by=["query", "address"])`

  /** Python's order on strings: code point by code point, a proper prefix
      first. */
  predicate StrLess(a: string, b: string) {
    if a == [] then b != []
    else if b == [] then false
    else a[0] < b[0] || (a[0] == b[0] && StrLess(a[1..], b[1..]))
  }

  lemma {:induction false} StrLessIrreflexive(a: string)
    ensures !StrLess(a, a)
  {
    if a != [] {
      StrLessIrreflexive(a[1..]);
    }
  }

  lemma {:induction false} StrLessTransitive(a: string, b: string, c: string)
    requires StrLess(a, b) && StrLess(b, c)
    ensures StrLess(a, c)
  {
    if a != [] && a[0] == b[0] && b[0] == c[0] {
      StrLessTransitive(a[1..], b[1..], c[1..]);
    }
  }

  lemma {:induction false} StrLessTotal(a: string, b: string)
    requires a != b
    ensures StrLess(a, b) || StrLess(b, a)
  {
    if a != [] && b != [] && a[0] == b[0] {
      assert a == [a[0]] + a[1..] && b == [b[0]] + b[1..];
      StrLessTotal(a[1..], b[1..]);
    }
  }

  /** The order of one sort key: strings in Python's order, missing values
      last. */
  predicate OptLess(a: Option<string>, b: Option<string>) {
    match (a, b)
    case (Some(x), Some(y)) => StrLess(x, y)
    case (Some(_), None) => true
    case _ => false
  }

  /** Rows by query, then by address. */
  predicate LeadLess(x: Lead, y: Lead) {
    OptLess(x.query, y.query) || (x.query == y.query && OptLess(x.address, y.address))
  }

  predicate Sorted(ys: seq<Lead>) {
    forall i, j :: 0 <= i < j < |ys| ==> !LeadLess(ys[j], ys[i])
  }

  lemma OptLessIrreflexive(a: Option<string>)
    ensures !OptLess(a, a)
  {
    if a.Some? {
      StrLessIrreflexive(a.value);
    }
  }

  lemma OptLessTransitive(a: Option<string>, b: Option<string>, c: Option<string>)
    requires OptLess(a, b) && OptLess(b, c)
    ensures OptLess(a, c)
  {
    if c.Some? {
      StrLessTransitive(a.value, b.value, c.value);
    }
  }

  lemma OptLessTotal(a: Option<string>, b: Option<string>)
    requires a != b
    ensures OptLess(a, b) || OptLess(b, a)
  {
    if a.Some? && b.Some? {
      StrLessTotal(a.value, b.value);
    }
  }

  /** The row order is a strict order ... */
  lemma LeadLessIrreflexive(x: Lead)
    ensures !LeadLess(x, x)
  {
    OptLessIrreflexive(x.query);
    OptLessIrreflexive(x.address);
  }

  lemma LeadLessTransitive(x: Lead, y: Lead, z: Lead)
    requires LeadLess(x, y) && LeadLess(y, z)
    ensures LeadLess(x, z)
  {
    if OptLess(x.query, y.query) && OptLess(y.query, z.query) {
      OptLessTransitive(x.query, y.query, z.query);
    } else if x.query == y.query && y.query == z.query {
      OptLessTransitive(x.address, y.address, z.address);
    }
  }

  /** ... that ranks any two rows with different keys. */
  lemma LeadLessTotal(x: Lead, y: Lead)
    requires x.query != y.query || x.address != y.address
    ensures LeadLess(x, y) || LeadLess(y, x)
  {
    if x.query != y.query {
      OptLessTotal(x.query, y.query);
    } else {
      OptLessTotal(x.address, y.address);
    }
  }

  /** "Not after" is transitive. */
  lemma LeadLeqTransitive(x: Lead, y: Lead, z: Lead)
    requires !LeadLess(y, x) && !LeadLess(z, y)
    ensures !LeadLess(z, x)
  {
    if LeadLess(z, x) {
      if x.query != y.query || x.address != y.address {
        LeadLessTotal(x, y);
        LeadLessTransitive(z, x, y);
      }
    }
  }

  lemma SortedCons(y: Lead, t: seq<Lead>)
    requires Sorted(t)
    requires forall z :: z in t ==> !LeadLess(z, y)
    ensures Sorted([y] + t)
  {
    forall i, j | 0 <= i < j < |[y] + t| ensures !LeadLess(([y] + t)[j], ([y] + t)[i]) {
      if i == 0 {
        assert ([y] + t)[j] == t[j - 1];
      }
    }
  }

  /** `x` put in its place in the sorted rows `ys`. */
  function Insert(x: Lead, ys: seq<Lead>): (r: seq<Lead>)
    requires Sorted(ys)
    ensures Sorted(r)
    ensures multiset(r) == multiset(ys) + multiset{x}
    decreases |ys|
  {
    if ys == [] then [x]
    else
      assert ys == [ys[0]] + ys[1..];
      if !LeadLess(ys[0], x) then
        NoneBefore(x, ys);
        SortedCons(x, ys);
        [x] + ys
      else
        var rest := Insert(x, ys[1..]);
        NotBeforeHead(x, ys, rest);
        SortedCons(ys[0], rest);
        [ys[0]] + rest
  }

  lemma NoneBefore(x: Lead, ys: seq<Lead>)
    requires Sorted(ys) && ys != [] && !LeadLess(ys[0], x)
    ensures forall z :: z in ys ==> !LeadLess(z, x)
  {
    forall z | z in ys ensures !LeadLess(z, x) {
      var k :| 0 <= k < |ys| && ys[k] == z;
      if k > 0 {
        LeadLeqTransitive(x, ys[0], z);
      }
    }
  }

  lemma NotBeforeHead(x: Lead, ys: seq<Lead>, rest: seq<Lead>)
    requires Sorted(ys) && ys != [] && LeadLess(ys[0], x)
    requires multiset(rest) == multiset(ys[1..]) + multiset{x}
    ensures forall z :: z in rest ==> !LeadLess(z, ys[0])
  {
    forall z | z in rest ensures !LeadLess(z, ys[0]) {
      assert z in multiset(rest);
      if z == x {
        if LeadLess(x, ys[0]) {
          LeadLessTransitive(x, ys[0], x);
          LeadLessIrreflexive(x);
        }
      } else {
        assert z in multiset(ys[1..]);
        var k :| 0 <= k < |ys[1..]| && ys[1..][k] == z;
        assert ys[k + 1] == z;
      }
    }
  }

  /** Insertion sort: the rows in order by query and address. */
  function SortLeads(ys: seq<Lead>): (r: seq<Lead>)
    ensures Sorted(r)
    ensures multiset(r) == multiset(ys)
  {
    if ys == [] then []
    else
      assert ys == [ys[0]] + ys[1..];
      Insert(ys[0], SortLeads(ys[1..]))
  }

  /** Two places holding the same row count it twice. */
  lemma TwiceCounted(a: seq<Lead>, i: nat, j: nat)
    requires i < j < |a| && a[i] == a[j]
    ensures multiset(a)[a[i]] >= 2
  {
    assert a == a[..j] + a[j..];
    assert a[i] in a[..j];
    assert a[j..] == [a[j]] + a[j + 1..];
  }

  /** A distinct table holds each row once. */
  lemma {:induction false} DistinctOnce(b: seq<Lead>, v: Lead)
    requires Distinct(b)
    ensures multiset(b)[v] <= 1
  {
    if b != [] {
      assert b == [b[0]] + b[1..];
      DistinctOnce(b[1..], v);
      if v == b[0] {
        assert v !in b[1..];
      }
    }
  }

  /** Reordering keeps addresses distinct. */
  lemma DistinctPermutation(a: seq<Lead>, b: seq<Lead>)
    requires multiset(a) == multiset(b) && Distinct(b)
    ensures Distinct(a)
  {
    forall i, j | 0 <= i < j < |a| ensures a[i].address != a[j].address {
      if a[i].address == a[j].address {
        assert a[i] in multiset(b) && a[j] in multiset(b);
        var p :| 0 <= p < |b| && b[p] == a[i];
        var q :| 0 <= q < |b| && b[q] == a[j];
        assert p == q;
        TwiceCounted(a, i, j);
        DistinctOnce(b, a[i]);
      }
    }
  }

  /** Rows with distinct addresses have one sorted order only: the sort has
      no ties to break. */
  lemma {:induction false} SortedUnique(a: seq<Lead>, b: seq<Lead>)
    requires Sorted(a) && Sorted(b) && multiset(a) == multiset(b) && Distinct(a)
    ensures a == b
    decreases |a|
  {
    if a == [] {
      assert |b| == |multiset(b)| == 0;
    } else {
      SameHead(a, b);
      Tails(a, b);
      SortedUnique(a[1..], b[1..]);
    }
  }

  lemma Tails(a: seq<Lead>, b: seq<Lead>)
    requires multiset(a) == multiset(b)
    requires a != [] && b != [] && a[0] == b[0]
    ensures multiset(a[1..]) == multiset(b[1..])
  {
    assert a == [a[0]] + a[1..] && b == [b[0]] + b[1..];
    assert multiset(a) == multiset{a[0]} + multiset(a[1..]);
    assert multiset(b) == multiset{a[0]} + multiset(b[1..]);
    assert multiset(a[1..]) == multiset(a) - multiset{a[0]} == multiset(b[1..]);
  }

  /** Sorted rows holding the same rows, one per address, start alike. */
  lemma SameHead(a: seq<Lead>, b: seq<Lead>)
    requires Sorted(a) && Sorted(b) && multiset(a) == multiset(b) && Distinct(a) && a != []
    ensures b != [] && a[0] == b[0]
  {
    assert a[0] in multiset(b);
    var k :| 0 <= k < |b| && b[k] == a[0];
    assert b[0] in multiset(a);
    var m :| 0 <= m < |a| && a[m] == b[0];
    LeadLessIrreflexive(a[0]);
    assert !LeadLess(a[0], b[0]) by {
      if k > 0 { assert !LeadLess(b[k], b[0]); }
    }
    assert !LeadLess(b[0], a[0]) by {
      if m > 0 { assert !LeadLess(a[m], a[0]); }
    }
    if a[0].query != b[0].query || a[0].address != b[0].address {
      LeadLessTotal(a[0], b[0]);
    }
    assert m == 0;
  }

  // ---------------------------------------------------------------------------
  // The merge

  /** The table `concat([df_new, df_old])` builds: new rows first, the
      columns of both; with no master file, the new rows alone. */
  function Stacked(leads: Frame, master: Option<Frame>): Frame {
    match master
    case None => leads
    case Some(o) => Frame(leads.columns + o.columns, leads.rows + o.rows)
  }

  /** The three columns the merge reads. */
  const KeyColumns: set<string> := {"address", "id", "query"}

  /** The value a row holds in one of the three columns the merge reads. */
  function Field(y: Lead, column: string): Option<string> {
    if column == "id" then y.id
    else if column == "query" then y.query
    else if column == "address" then y.address
    else None
  }

  /** A table without one of the three columns holds no value in it: a
      record without the key gives no column, and a missing column is all
      NaN. */
  predicate WellFormed(f: Frame) {
    forall column, k :: column in KeyColumns && column !in f.columns && 0 <= k < |f.rows| ==> Field(f.rows[k], column).None?
  }

  /** Stacking keeps tables well formed: a column missing from the result
      is missing from both, so neither part's rows hold a value in it. */
  lemma StackedWellFormed(leads: Frame, master: Option<Frame>)
    requires WellFormed(leads) && (master.Some? ==> WellFormed(master.value))
    ensures WellFormed(Stacked(leads, master))
  {
    if master.Some? {
      var all := Stacked(leads, master);
      forall column, k | column in KeyColumns && column !in all.columns && 0 <= k < |all.rows| ensures Field(all.rows[k], column).None? {
        if k < |leads.rows| {
          assert all.rows[k] == leads.rows[k];
        } else {
          assert all.rows[k] == master.value.rows[k - |leads.rows|];
        }
      }
    }
  }

  /** A merge of well-formed tables that stops at a missing column stops
      at one none of the stacked rows holds a value in. */
  lemma MissingColumnIsEmpty(leads: Frame, master: Option<Frame>)
    requires WellFormed(leads) && (master.Some? ==> WellFormed(master.value))
    requires SaveLeads(leads, master).Err?
    ensures var all := Stacked(leads, master);
      forall k :: 0 <= k < |all.rows| ==> Field(all.rows[k], SaveLeads(leads, master).error.column).None?
  {
    StackedWellFormed(leads, master);
  }

  /** `save_leads_to_excel` up to writing the file: the missing column named
      by the first step that needs it, or the merged table. */
  function SaveLeads(leads: Frame, master: Option<Frame>): (r: Result<Frame, MergeError>) {
    var all := Stacked(leads, master);
    if "address" !in all.columns then Err(MissingColumn("address"))
    else if "id" !in all.columns then Err(MissingColumn("id"))
    else if "query" !in all.columns then Err(MissingColumn("query"))
    else Ok(Frame(all.columns, SortLeads(StringifyIds(DropDuplicates(all.rows)))))
  }

  /** When the merge fails: exactly when a column it needs is missing, the
      address column checked first, then the id, then the query. */
  lemma SaveLeadsFails(leads: Frame, master: Option<Frame>)
    ensures var all := Stacked(leads, master);
      SaveLeads(leads, master).Err? <==> !("address" in all.columns && "id" in all.columns && "query" in all.columns)
    ensures var all := Stacked(leads, master);
      SaveLeads(leads, master).Err? ==>
        SaveLeads(leads, master).error.column == if "address" !in all.columns then "address" else if "id" !in all.columns then "id" else "query"
  {
  }

  /** The shape of a merged table: the columns of both tables, rows sorted
      by query and address, one per address, every id text. */
  lemma SaveLeadsShape(leads: Frame, master: Option<Frame>)
    requires SaveLeads(leads, master).Ok?
    ensures var r := SaveLeads(leads, master).value;
      && r.columns == Stacked(leads, master).columns
      && Sorted(r.rows)
      && Distinct(r.rows)
      && (forall k :: 0 <= k < |r.rows| ==> r.rows[k].id.Some?)
  {
    var all := Stacked(leads, master);
    var m := StringifyIds(DropDuplicates(all.rows));
    var s := SaveLeads(leads, master).value.rows;
    assert s == SortLeads(m);
    DistinctPermutation(s, m);
    forall k | 0 <= k < |s| ensures s[k].id.Some? {
      assert s[k] in multiset(m);
    }
  }

  /** The rows of a merged table: for every address of the stacked input,
      the first row with it (new rows before the master's), its id as text,
      and nothing else. */
  lemma SaveLeadsRows(leads: Frame, master: Option<Frame>)
    requires SaveLeads(leads, master).Ok?
    ensures var all := Stacked(leads, master);
      var r := SaveLeads(leads, master).value;
      && Addresses(r.rows) == Addresses(all.rows)
      && (forall x :: x in r.rows <==> x.address in Addresses(all.rows) && x == WithTextId(First(all.rows, x.address).value))
  {
    var all := Stacked(leads, master);
    var m := StringifyIds(DropDuplicates(all.rows));
    var s := SaveLeads(leads, master).value.rows;
    assert s == SortLeads(m);
    forall x ensures x in s <==> x.address in Addresses(all.rows) && x == WithTextId(First(all.rows, x.address).value) {
      assert x in s <==> x in multiset(s);
      assert x in m <==> x in multiset(m);
      MergedRows(all.rows, x);
    }
    AddressesOfFirsts(s, all.rows);
  }

  /** A table holding, for each address of `ys`, its first row (id as
      text) has the addresses of `ys`. */
  lemma AddressesOfFirsts(s: seq<Lead>, ys: seq<Lead>)
    requires forall x :: x in s <==> x.address in Addresses(ys) && x == WithTextId(First(ys, x.address).value)
    ensures Addresses(s) == Addresses(ys)
  {
    forall a | a in Addresses(ys) ensures a in Addresses(s) {
      var x := WithTextId(First(ys, a).value);
      assert x in s;
    }
  }

  /** A new row beats a master row at the same address, and an earlier new
      row a later one: the rows of the merge at an address of the new table
      are its first new row there. */
  lemma NewBeatsOld(leads: Frame, master: Frame, x: Lead)
    requires SaveLeads(leads, Some(master)).Ok?
    requires x in SaveLeads(leads, Some(master)).value.rows && x.address in Addresses(leads.rows)
    ensures x == WithTextId(First(leads.rows, x.address).value)
  {
    SaveLeadsRows(leads, Some(master));
    FirstConcat(leads.rows, master.rows, x.address);
  }

  /** With no master file, the merge is the merge into an empty one. */
  lemma NoFileIsEmptyFile(leads: Frame)
    ensures SaveLeads(leads, None) == SaveLeads(leads, Some(Frame({}, [])))
  {
    assert leads.rows + [] == leads.rows;
    assert leads.columns + {} == leads.columns;
  }

  /** The card records the collector produces carry `firm_id`, not `id`:
      the merge of such rows stops at the id pass. */
  const CardColumns: set<string> := {"firm_url", "firm_id", "name", "address", "primary_contact", "query", "website", "primary_type"}

  lemma CardRowsFail(rows: seq<Lead>, master: Option<Frame>)
    requires master.Some? ==> "id" !in master.value.columns && "address" in master.value.columns
    ensures SaveLeads(Frame(CardColumns, rows), master) == Err(MissingColumn("id"))
  {
    assert "address" in CardColumns && "id" !in CardColumns;
  }

  /** Two equal merges: merging the same new rows into the merged master
      again gives the master back. */
  lemma {:induction false} SaveLeadsIdempotent(leads: Frame, master: Option<Frame>)
    requires SaveLeads(leads, master).Ok?
    ensures SaveLeads(leads, Some(SaveLeads(leads, master).value)) == SaveLeads(leads, master)
  {
    var all1 := Stacked(leads, master);
    var m1 := SaveLeads(leads, master).value;
    var all2 := Stacked(leads, Some(m1));
    SaveLeadsShape(leads, master);
    assert all2.columns == all1.columns;
    var x1 := StringifyIds(DropDuplicates(all1.rows));
    var x2 := StringifyIds(DropDuplicates(all2.rows));
    forall x ensures x in x2 <==> x in x1 {
      RemergedRow(leads, master, x);
    }
    SameRows(x1, x2);
    SortedUnique(SortLeads(x1), SortLeads(x2));
  }

  /** A row is in the second merge's table before sorting exactly when it is
      in the first's. */
  lemma RemergedRow(leads: Frame, master: Option<Frame>, x: Lead)
    requires SaveLeads(leads, master).Ok?
    ensures var m1 := SaveLeads(leads, master).value;
      x in StringifyIds(DropDuplicates(Stacked(leads, Some(m1)).rows))
      <==> x in StringifyIds(DropDuplicates(Stacked(leads, master).rows))
  {
    var all1 := Stacked(leads, master);
    var m1 := SaveLeads(leads, master).value;
    var all2 := Stacked(leads, Some(m1));
    SaveLeadsRows(leads, master);
    AddressesConcat(leads.rows, m1.rows);
    assert Addresses(all1.rows) == Addresses(leads.rows) + Addresses(m1.rows) by {
      if master.Some? {
        AddressesConcat(leads.rows, master.value.rows);
      }
    }
    MergedRows(all1.rows, x);
    MergedRows(all2.rows, x);
    var a := x.address;
    FirstConcat(leads.rows, m1.rows, a);
    if master.Some? {
      FirstConcat(leads.rows, master.value.rows, a);
    }
    if a in Addresses(all1.rows) && a !in Addresses(leads.rows) {
      var y := First(m1.rows, a).value;
      assert y in m1.rows;
    }
  }

  /** Two tables, each one row per address, with the same rows hold them
      equally often. */
  lemma SameRows(x1: seq<Lead>, x2: seq<Lead>)
    requires Distinct(x1) && Distinct(x2)
    requires forall x :: x in x2 <==> x in x1
    ensures multiset(x1) == multiset(x2)
  {
    forall v ensures multiset(x1)[v] == multiset(x2)[v] {
      DistinctOnce(x1, v);
      DistinctOnce(x2, v);
      assert v in x1 <==> v in multiset(x1);
      assert v in x2 <==> v in multiset(x2);
    }
  }

  // ---------------------------------------------------------------------------
  // The table range

  /** The largest column count a worksheet has. */
  const MaxColumns: nat := 16384

  /** The range end column as written, `chr(64 + end_col)`. */
  function ColumnLetterAsWritten(n: nat): (c: char)
    requires 1 <= n <= MaxColumns
  {
    (64 + n) as char
  }

  predicate IsUpper(c: char) {
    'A' <= c <= 'Z'
  }

  /** The spreadsheet's name of column `n`: A to Z, then AA, AB, and so on
      (bijective base 26). */
  function ColumnName(n: nat): (s: string)
    requires 1 <= n
    ensures s != [] && forall k :: 0 <= k < |s| ==> IsUpper(s[k])
    decreases n
  {
    if n <= 26 then [(64 + n) as char]
    else ColumnName((n - 1) / 26) + [(65 + (n - 1) % 26) as char]
  }

  /** The column a name stands for. */
  function ColumnNumber(s: string): int
    decreases |s|
  {
    if s == [] then 0
    else 26 * ColumnNumber(s[..|s| - 1]) + (s[|s| - 1] as int - 64)
  }

  /** Names and numbers are inverse. */
  lemma {:induction false} ColumnNumberOfName(n: nat)
    requires 1 <= n
    ensures ColumnNumber(ColumnName(n)) == n
    decreases n
  {
    var s := ColumnName(n);
    if n <= 26 {
      assert s[..0] == [];
    } else {
      var p := ColumnName((n - 1) / 26);
      assert s[..|s| - 1] == p;
      ColumnNumberOfName((n - 1) / 26);
    }
  }

  /** The letter as written is the column's name for the first 26 columns. */
  lemma AsWrittenAgreesToZ(n: nat)
    requires 1 <= n <= 26
    ensures [ColumnLetterAsWritten(n)] == ColumnName(n)
  {
  }

  /** From the 27th column on it is not a letter: a 27-column table gets
      the range end `[`, where the spreadsheet's name is `AA`. */
  lemma AsWrittenBreaksAfterZ(n: nat)
    requires 27 <= n <= MaxColumns
    ensures !IsUpper(ColumnLetterAsWritten(n))
    ensures ColumnLetterAsWritten(27) == '[' && ColumnName(27) == "AA"
  {
  }
}

=== FILE: outcomes.dfy ===
/** Optional values, results and the faults the collector lets escape. */
module Outcomes {

  /** A value that may be absent: Python's `None` versus a present value. */
  datatype Option<+T> = None | Some(value: T) {

    /** The value, or `default` when absent (Python's `x or default` for strings). */
    function GetOr(default: T): T {
      match this
      case Some(v) => v
      case None => default
    }
  }

  /** The outcome of a step that may raise instead of returning. */
  datatype Result<+T, +E> = Ok(value: T) | Err(error: E)

  /** The exceptions that escape a call in the collector and abort the caller.
      `NonAsciiBase64` is the `ValueError` that `base64.b64decode` raises for a
      non-ASCII string; `FirmPageTimeout` is the 12-second wait for the firm page;
      `PageNotAdvanced` is the 12-second wait for the first listing to change. */
  datatype Fault = NonAsciiBase64 | FirmPageTimeout | PageNotAdvanced(page: nat)
}

=== FILE: run_batch.dfy ===
/** `scripts/run_batch.py`: the queries file, the selection of its lines,
    the search address of a query, and the page loop of `run_one_query`
    that collects, deduplicates and enriches the firms a search lists. */
module RunBatch {
  import opened Outcomes
  import opened Text
  import opened Codecs
  import LinkResolver
  import opened Browser
  import opened Listing
  import DetailExtractor

  /** The configuration block at the top of the script. */
  const CitySlug: string := "astana"
  const StartLine: int := 1
  const EndLine: int := 1
  const MaxPages: int := 13
  const MaxEnrich: Option<nat> := None

  // ---------------------------------------------------------------------------
  // The queries file

  /** A line that holds a query: something besides whitespace, and not a
      `#` comment once stripped. */
  predicate IsQueryLine(l: string) {
    Strip(l) != "" && !StartsWith(Strip(l), "#")
  }

  /** A query as `read_queries` returns it: non-empty, already stripped, not
      a comment, and on one line. */
  predicate IsQuery(q: string) {
    q != "" && Trimmed(q) && !StartsWith(q, "#") && forall i :: 0 <= i < |q| ==> !IsLineBreak(q[i])
  }

  /** The stripped query lines of `ls`, in order. */
  function QueryLines(ls: seq<string>): (qs: seq<string>)
    ensures |qs| <= |ls|
  {
    if ls == [] then []
    else if IsQueryLine(ls[0]) then [Strip(ls[0])] + QueryLines(ls[1..])
    else QueryLines(ls[1..])
  }

  /** `read_queries`, given the text of the file. */
  function ReadQueries(text: string): (qs: seq<string>) {
    QueryLines(SplitLines(text))
  }

  /** The stripped text of a line has no line break in it. */
  lemma StripKeepsLine(l: string)
    requires forall i :: 0 <= i < |l| ==> !IsLineBreak(l[i])
    ensures forall i :: 0 <= i < |Strip(l)| ==> !IsLineBreak(Strip(l)[i])
  {
    StripSpec(l);
    var off := |l| - |LStrip(l)|;
    forall i | 0 <= i < |Strip(l)| ensures !IsLineBreak(Strip(l)[i]) {
      assert Strip(l)[i] == l[off + i];
    }
  }

  /** No line of `ls` holds a line break. */
  predicate NoBreaks(ls: seq<string>) {
    forall k :: 0 <= k < |ls| ==> forall i :: 0 <= i < |ls[k]| ==> !IsLineBreak(ls[k][i])
  }

  /** Some query line of `ls` strips to `q`. */
  predicate FromLine(ls: seq<string>, q: string) {
    exists k :: 0 <= k < |ls| && IsQueryLine(ls[k]) && Strip(ls[k]) == q
  }

  /** Every query read from lines without breaks is a clean query. */
  lemma {:induction false} QueryLinesClean(ls: seq<string>)
    requires NoBreaks(ls)
    ensures forall k :: 0 <= k < |QueryLines(ls)| ==> IsQuery(QueryLines(ls)[k])
  {
    if ls != [] {
      var tail := ls[1..];
      assert NoBreaks(tail) by {
        forall k | 0 <= k < |tail| ensures forall i :: 0 <= i < |tail[k]| ==> !IsLineBreak(tail[k][i]) {
          assert tail[k] == ls[k + 1];
        }
      }
      QueryLinesClean(tail);
      StripKeepsLine(ls[0]);
    }
  }

  /** A query is read exactly when some query line strips to it. */
  lemma {:induction false} QueryLinesMembers(ls: seq<string>, q: string)
    ensures q in QueryLines(ls) <==> FromLine(ls, q)
  {
    if ls != [] {
      QueryLinesMembers(ls[1..], q);
      FromLineCons(ls, q);
    }
  }

  lemma FromLineCons(ls: seq<string>, q: string)
    requires ls != []
    ensures FromLine(ls, q) <==> (IsQueryLine(ls[0]) && Strip(ls[0]) == q) || FromLine(ls[1..], q)
  {
    var tail := ls[1..];
    if FromLine(tail, q) {
      var k :| 0 <= k < |tail| && IsQueryLine(tail[k]) && Strip(tail[k]) == q;
      assert ls[k + 1] == tail[k];
    }
    if FromLine(ls, q) {
      var k :| 0 <= k < |ls| && IsQueryLine(ls[k]) && Strip(ls[k]) == q;
      if k > 0 {
        assert tail[k - 1] == ls[k];
      }
    }
  }

  /** Every query read is a clean query, and exactly the stripped query lines
      are read. */
  lemma QueryLinesSpec(ls: seq<string>)
    requires NoBreaks(ls)
    ensures forall k :: 0 <= k < |QueryLines(ls)| ==> IsQuery(QueryLines(ls)[k])
    ensures forall q :: q in QueryLines(ls) <==> FromLine(ls, q)
  {
    QueryLinesClean(ls);
    forall q ensures q in QueryLines(ls) <==> FromLine(ls, q) {
      QueryLinesMembers(ls, q);
    }
  }

  /** The queries of a file are clean, and a query is read exactly when some
      line of the file strips to it. */
  lemma ReadQueriesSpec(text: string)
    ensures forall k :: 0 <= k < |ReadQueries(text)| ==> IsQuery(ReadQueries(text)[k])
    ensures forall q :: q in ReadQueries(text) <==>
      exists k :: 0 <= k < |SplitLines(text)| && IsQueryLine(SplitLines(text)[k]) && Strip(SplitLines(text)[k]) == q
  {
    var ls := SplitLines(text);
    assert NoBreaks(ls);
    QueryLinesSpec(ls);
    assert ReadQueries(text) == QueryLines(ls);
  }

  /** A file written one clean query per line is read back as those
      queries. */
  lemma {:induction false} ReadQueriesOfUnlines(qs: seq<string>)
    requires forall k :: 0 <= k < |qs| ==> IsQuery(qs[k])
    ensures ReadQueries(Unlines(qs)) == qs
  {
    SplitLinesOfUnlines(qs);
    QueryLinesOfQueries(qs);
  }

  lemma {:induction false} QueryLinesOfQueries(qs: seq<string>)
    requires forall k :: 0 <= k < |qs| ==> IsQuery(qs[k])
    ensures QueryLines(qs) == qs
  {
    if qs != [] {
      StripOfTrimmed(qs[0]);
      assert IsQuery(qs[0]);
      QueryLinesOfQueries(qs[1..]);
    }
  }

  // ---------------------------------------------------------------------------
  // The selection of query lines

  /** A Python slice bound against a sequence of length `n`: a negative
      bound counts from the end, and the result is clamped to `0..n`. */
  function Bound(i: int, n: nat): (j: nat)
    ensures j <= n
    ensures 0 <= i <= n ==> j == i
    ensures n < i ==> j == n
  {
    var k := if i < 0 then i + n else i;
    if k < 0 then 0 else if k > n then n else k
  }

  /** `xs[lo:hi]`. */
  function PySlice<T>(xs: seq<T>, lo: int, hi: int): (r: seq<T>)
    ensures 0 <= lo && 0 <= hi ==> |r| == if hi <= lo || |xs| <= lo then 0 else (if hi < |xs| then hi else |xs|) - lo
    ensures 0 <= lo && r != [] ==> lo + |r| <= |xs|
    ensures 0 <= lo ==> forall i :: 0 <= i < |r| ==> r[i] == xs[lo + i]
  {
    var a := Bound(lo, |xs|);
    var b := Bound(hi, |xs|);
    if a < b then xs[a..b] else []
  }

  /** The selection as written: `queries[START_LINE - 1: END_LINE + 1]`. */
  function SelectedAsWritten(queries: seq<string>, startLine: int, endLine: int): seq<string> {
    PySlice(queries, startLine - 1, endLine + 1)
  }

  /** The selection the comment `END включительно` (END inclusive) asks for:
      `queries[START_LINE - 1: END_LINE]`. */
  function Selected(queries: seq<string>, startLine: int, endLine: int): seq<string> {
    PySlice(queries, startLine - 1, endLine)
  }

  /** The corrected selection holds exactly the queries numbered
      `startLine..endLine` from 1, as far as the file goes. (Line numbers
      below 1 would count from the end, as Python slices do.) */
  lemma SelectedInclusive(queries: seq<string>, startLine: int, endLine: int)
    requires 1 <= startLine && 0 <= endLine
    ensures var last := if endLine < |queries| then endLine else |queries|;
            |Selected(queries, startLine, endLine)| == if last < startLine then 0 else last - startLine + 1
    ensures forall i :: 0 <= i < |Selected(queries, startLine, endLine)| ==>
      Selected(queries, startLine, endLine)[i] == queries[startLine - 1 + i]
  {
    var r := PySlice(queries, startLine - 1, endLine);
    assert Selected(queries, startLine, endLine) == r;
  }

  /** As written, one line past `endLine` is selected whenever the file has
      one. */
  lemma SelectedAsWrittenOverruns(queries: seq<string>, startLine: int, endLine: int)
    requires 1 <= startLine <= endLine < |queries|
    ensures |SelectedAsWritten(queries, startLine, endLine)| == endLine - startLine + 2
    ensures SelectedAsWritten(queries, startLine, endLine)[endLine - startLine + 1] == queries[endLine]
    ensures queries[endLine] !in Selected(queries, startLine, endLine) ==>
      SelectedAsWritten(queries, startLine, endLine) != Selected(queries, startLine, endLine)
  {
  }

  /** With the script's own settings (`START_LINE = END_LINE = 1`) and a file
      of two queries, both are run although only the first is meant. */
  lemma SelectionExample()
    ensures SelectedAsWritten(["a", "b"], StartLine, EndLine) == ["a", "b"]
    ensures Selected(["a", "b"], StartLine, EndLine) == ["a"]
  {
    assert ["a", "b"][0..2] == ["a", "b"];
  }

  // ---------------------------------------------------------------------------
  // The search address

  /** `build_query_url`: the city's search page for the stripped query,
      percent-encoded. */
  function BuildQueryUrl(city: string, query: string): (url: string) {
    "https://2gis.kz/" + city + "/search/" + Quote(Strip(query))
  }

  /** The UTF-8 encoding of text without `/` holds no `/` byte: multi-byte
      sequences use bytes of `0x80` and above only. */
  lemma {:induction false} Utf8EncodeNoSlash(s: string)
    requires '/' !in s
    ensures forall i :: 0 <= i < |Utf8Encode(s)| ==> Utf8Encode(s)[i] != '/' as int as byte
  {
    if s != [] {
      Utf8EncodeNoSlash(s[1..]);
      var e := EncodeChar(s[0]);
      assert s[0] != '/';
      assert forall i :: 0 <= i < |e| ==> e[i] != '/' as int as byte;
      assert Utf8Encode(s) == e + Utf8Encode(s[1..]);
    }
  }

  /** A query without `/` is the last path segment of its search address, and
      unquoting that segment gives the stripped query back. */
  lemma QueryOfUrl(city: string, query: string)
    requires '/' !in Strip(query)
    ensures LastSegment(BuildQueryUrl(city, query)) == Quote(Strip(query))
    ensures Unquote(LastSegment(BuildQueryUrl(city, query))) == Strip(query)
  {
    var q := Quote(Strip(query));
    Utf8EncodeNoSlash(Strip(query));
    LinkResolver.QuoteBytesNoSlash(Utf8Encode(Strip(query)), true);
    var prefix := "https://2gis.kz/" + city + "/search";
    assert BuildQueryUrl(city, query) == prefix + "/" + q;
    LinkResolver.LastSegmentOfPath(prefix, q);
    UnquoteOfQuote(Strip(query));
  }

  // ---------------------------------------------------------------------------
  // `run_one_query`

  /** What a search yields when every advance completes and every enriched
      firm's card loads: the rows of the pages up to the last one reached,
      tagged with `tag` (the query) and enriched up to the budget. Otherwise the run
      stops with a fault. */
  function QueryRows(key: Card -> string, look: Directory, site: seq<ResultsPage>, tag: Option<string>, maxPages: int, maxEnrich: Option<nat>): Option<seq<Row>>
    requires 1 <= |site|
  {
    match Visit(site, maxPages, 1)
    case Err(_) => None
    case Ok(last) =>
      var cards := Collected(key, site, last);
      var limit := Limit(|cards|, maxEnrich);
      Enriched(cards, tag, limit, look)
  }

  /** What the loop holds on reaching page `page`: the rows of the pages
      before it, tagged, their keys seen, and the rows enriched up to the
      budget without a fault. */
  ghost predicate Reached(key: Card -> string, look: Directory, site: seq<ResultsPage>, page: nat, tag: Option<string>, maxEnrich: Option<nat>,
                          rows: seq<Row>, seen: set<string>, count: nat)
    requires page <= |site|
  {
    var cards := Collected(key, site, page);
    && count == Limit(|cards|, maxEnrich)
    && rows == Expected(cards, tag, count, look)
    && seen == KeysBy(key, cards)
    && AllFound(cards, count, look)
  }

  /** The work done on page `page`: its cards merged, then the rows not yet
      enriched enriched, up to the budget. A lookup that fails ends it with
      its fault, and that firm is one of the rows of the pages up to `page`
      within the budget. */
  method VisitPage(key: Card -> string, look: Directory, v: Version, site: seq<ResultsPage>, page: nat, tag: Option<string>, maxEnrich: Option<nat>,
                   rows: seq<Row>, seen: set<string>, count: nat, d: Driver, w: Web)
    returns (r: Result<seq<Row>, Fault>, seen': set<string>, count': nat, d': Driver)
    requires 1 <= page <= |site|
    requires Reached(key, look, site, page - 1, tag, maxEnrich, rows, seen, count)
    requires Valid(d) && IsOpen(d, d.current) && Serves(look, w, v)
    ensures Valid(d') && IsOpen(d', d.current) && d'.current == d.current
    ensures r.Ok? ==> Reached(key, look, site, page, tag, maxEnrich, r.value, seen', count')
    ensures r.Err? ==> && LookupFault(r.error, v)
                       && count <= count' < Limit(|Collected(key, site, page)|, maxEnrich)
                       && (forall i :: 0 <= i < count' ==> Found(look, Collected(key, site, page)[i].firmId))
                       && look(Collected(key, site, page)[count'].firmId) == Err(r.error)
  {
    ghost var before := Collected(key, site, page - 1);
    ghost var cards := Collected(key, site, page);
    MergedPage(key, site, page, tag, count, look);
    var merged;
    merged, seen' := MergeCards(key, rows, seen, site[page - 1].cards, tag);
    assert merged == Expected(cards, tag, count, look);
    CollectedPrefix(key, site, page - 1, page);
    CapOfLimit(|before|, |cards|, maxEnrich);
    r, count', d' := EnrichRows(look, v, merged, count, maxEnrich, d, w);
    if r.Err? {
      assert merged[count'].card == cards[count'];
      AllFoundGrow(cards, tag, count, count', look, before);
    } else {
      ExpectedEnrich(cards, tag, count, count', look, r.value);
      AllFoundGrow(cards, tag, count, count', look, before);
    }
  }

  /** The page loop of `run_one_query` on the results `site` of a search:
      the work on each page, then a stop at `maxPages` or at the last page,
      or a click through to the next page. The first card that does not
      load, and the first click that does not bring a new page, end the run
      with their fault. */
  method PageLoop(key: Card -> string, look: Directory, v: Version, site: seq<ResultsPage>, tag: Option<string>, maxPages: int, maxEnrich: Option<nat>, d: Driver, w: Web)
    returns (r: Result<seq<Row>, Fault>, d': Driver)
    requires 1 <= |site|
    requires Valid(d) && IsOpen(d, d.current) && Serves(look, w, v)
    ensures Valid(d') && IsOpen(d', d.current) && d'.current == d.current
    ensures r.Ok? <==> QueryRows(key, look, site, tag, maxPages, maxEnrich).Some?
    ensures r.Ok? ==> r.value == QueryRows(key, look, site, tag, maxPages, maxEnrich).value
    ensures r.Err? ==> LookupFault(r.error, v) || Visit(site, maxPages, 1) == Err(r.error)
  {
    var rows: seq<Row> := [];
    var seen: set<string> := {};
    var count: nat := 0;
    var page: nat := 1;
    d' := d;
    assert site[..0] == [];
    while true
      invariant 1 <= page <= |site|
      invariant Visit(site, maxPages, 1) == Visit(site, maxPages, page)
      invariant Reached(key, look, site, page - 1, tag, maxEnrich, rows, seen, count)
      invariant Valid(d') && IsOpen(d', d.current) && d'.current == d.current
      decreases |site| - page
    {
      var res, seen', count', e := VisitPage(key, look, v, site, page, tag, maxEnrich, rows, seen, count, d', w);
      d' := e;
      if res.Err? {
        EnrichFaultStops(key, look, site, page, tag, maxPages, maxEnrich, count');
        return Err(res.error), d';
      }
      if page >= maxPages || page >= |site| {
        rows := res.value;
        break;
      }
      if !Advances(site, page) {
        return Err(PageNotAdvanced(page)), d';
      }
      rows, seen, count := res.value, seen', count';
      page := page + 1;
    }
    r := Ok(rows);
  }

  /** The found prefix of the rows of a page grows by what enrichment went
      through. */
  lemma AllFoundGrow(cards: seq<Card>, tag: Option<string>, count: nat, count': nat, look: Directory, before: seq<Card>)
    requires count <= count' <= |cards|
    requires |before| <= |cards| && cards[..|before|] == before && count <= |before|
    requires AllFound(before, count, look)
    requires forall i :: count <= i < count' ==> Found(look, Expected(cards, tag, count, look)[i].card.firmId)
    ensures AllFound(cards, count', look)
  {
    forall i | 0 <= i < |cards| && i < count ensures Found(look, cards[i].firmId) {
      assert cards[i] == cards[..|before|][i] == before[i];
    }
    AllFoundExtend(cards, tag, count, count', look);
  }

  /** A firm whose lookup fails among the rows enriched by page `page` is
      one the whole run would have to enrich. */
  lemma EnrichFaultStops(key: Card -> string, look: Directory, site: seq<ResultsPage>, page: nat, tag: Option<string>, maxPages: int, maxEnrich: Option<nat>, at: nat)
    requires 1 <= page <= |site|
    requires Visit(site, maxPages, 1) == Visit(site, maxPages, page)
    requires at < Limit(|Collected(key, site, page)|, maxEnrich)
    requires !Found(look, Collected(key, site, page)[at].firmId)
    ensures QueryRows(key, look, site, tag, maxPages, maxEnrich).None?
  {
    var v := Visit(site, maxPages, page);
    if v.Ok? {
      FaultPersists(key, look, site, page, v.value, maxEnrich, at);
    }
  }

  /** A firm among the first page's rows within the budget whose card holds
      an undecodable redirect ends the query as written without rows; the
      mended lookup finds that firm. */
  lemma UndecodableCardStopsQuery(key: Card -> string, look: Directory, w: Web, site: seq<ResultsPage>, tag: Option<string>,
                                  maxPages: int, maxEnrich: Option<nat>, at: nat)
    requires 1 <= |site|
    requires Serves(look, w, AsWritten)
    requires at < Limit(|Collected(key, site, 1)|, maxEnrich)
    requires Contains(DetailExtractor.CardUrl(w, Collected(key, site, 1)[at].firmId), Collected(key, site, 1)[at].firmId)
    requires DetailExtractor.ScanWebsiteAsWritten(DetailExtractor.CardPage(w, Collected(key, site, 1)[at].firmId).hrefs).Err?
    ensures QueryRows(key, look, site, tag, maxPages, maxEnrich).None?
    ensures forall mended: Directory :: Serves(mended, w, Mended) ==> Found(mended, Collected(key, site, 1)[at].firmId)
  {
    var id := Collected(key, site, 1)[at].firmId;
    UndecodableCard(look, w, AsWritten, id);
    EnrichFaultStops(key, look, site, 1, tag, maxPages, maxEnrich, at);
    forall mended: Directory | Serves(mended, w, Mended) ensures Found(mended, id) {
      UndecodableCard(mended, w, Mended, id);
    }
  }

  /** `run_one_query` with the normalised address as the key. */
  method RunOneQuery(look: Directory, v: Version, site: seq<ResultsPage>, query: string, maxPages: int, maxEnrich: Option<nat>, d: Driver, w: Web)
    returns (r: Result<seq<Row>, Fault>, d': Driver)
    requires 1 <= |site|
    requires Valid(d) && IsOpen(d, d.current) && Serves(look, w, v)
    ensures Valid(d') && IsOpen(d', d.current) && d'.current == d.current
    ensures r.Ok? <==> QueryRows(Key, look, site, Some(query), maxPages, maxEnrich).Some?
    ensures r.Ok? ==> r.value == QueryRows(Key, look, site, Some(query), maxPages, maxEnrich).value
    ensures r.Err? ==> LookupFault(r.error, v) || Visit(site, maxPages, 1) == Err(r.error)
  {
    r, d' := PageLoop(Key, look, v, site, Some(query), maxPages, maxEnrich, d, w);
  }

  // ---------------------------------------------------------------------------
  // `main`

  /** The results of every search the browser can be sent to, by address:
      page 1 is always there, with or without cards. */
  type Search = string -> seq<ResultsPage>

  /** The master table of a run over `queries`: the rows of each query in
      turn, or nothing once one of them stops with a fault. */
  function MasterRows(look: Directory, results: Search, queries: seq<string>): Option<seq<Row>>
    requires forall url :: 1 <= |results(url)|
  {
    if queries == [] then Some([])
    else
      match MasterRows(look, results, queries[..|queries| - 1])
      case None => None
      case Some(before) =>
        var q := queries[|queries| - 1];
        match QueryRows(Key, look, results(BuildQueryUrl(CitySlug, q)), Some(q), MaxPages, MaxEnrich)
        case None => None
        case Some(rows) => Some(before + rows)
  }

  /** Once a query stops with a fault, so does every longer run. */
  lemma {:induction false} MasterRowsStops(look: Directory, results: Search, queries: seq<string>, i: nat)
    requires forall url :: 1 <= |results(url)|
    requires i <= |queries|
    requires MasterRows(look, results, queries[..i]).None?
    ensures MasterRows(look, results, queries).None?
    decreases |queries| - i
  {
    if i < |queries| {
      assert queries[..i + 1][..i] == queries[..i];
      MasterRowsStops(look, results, queries, i + 1);
    } else {
      assert queries[..i] == queries;
    }
  }

  /** The loop of `main` over `queries`: each query run on its search page
      in turn from the same browser, their rows concatenated into the master
      table. The first fault ends the run. */
  method Batch(look: Directory, v: Version, results: Search, queries: seq<string>, d: Driver, w: Web)
    returns (r: Result<seq<Row>, Fault>, d': Driver)
    requires forall url :: 1 <= |results(url)|
    requires Valid(d) && IsOpen(d, d.current) && Serves(look, w, v)
    ensures Valid(d') && IsOpen(d', d.current) && d'.current == d.current
    ensures r.Ok? <==> MasterRows(look, results, queries).Some?
    ensures r.Ok? ==> r.value == MasterRows(look, results, queries).value
    ensures r.Err? ==> LookupFault(r.error, v) || r.error.PageNotAdvanced?
  {
    var master: seq<Row> := [];
    d' := d;
    var i := 0;
    assert queries[..0] == [];
    while i < |queries|
      invariant 0 <= i <= |queries|
      invariant MasterRows(look, results, queries[..i]) == Some(master)
      invariant Valid(d') && IsOpen(d', d.current) && d'.current == d.current
    {
      var q := queries[i];
      var site := results(BuildQueryUrl(CitySlug, q));
      var res, e := RunOneQuery(look, v, site, q, MaxPages, MaxEnrich, d', w);
      d' := e;
      assert queries[..i + 1][..i] == queries[..i];
      if res.Err? {
        MasterRowsStops(look, results, queries, i + 1);
        return Err(res.error), d';
      }
      master := master + res.value;
      i := i + 1;
    }
    assert queries[..i] == queries;
    r := Ok(master);
  }

  /** `main` as written: the lines `START_LINE - 1 .. END_LINE + 1` of the
      queries file (one past the intended range), each firm enriched by
      `get_primary_contact` as written. */
  method BatchAsWritten(look: Directory, results: Search, text: string, d: Driver, w: Web)
    returns (r: Result<seq<Row>, Fault>, d': Driver)
    requires forall url :: 1 <= |results(url)|
    requires Valid(d) && IsOpen(d, d.current) && Serves(look, w, AsWritten)
    ensures Valid(d') && IsOpen(d', d.current) && d'.current == d.current
    ensures r.Ok? <==> MasterRows(look, results, SelectedAsWritten(ReadQueries(text), StartLine, EndLine)).Some?
    ensures r.Ok? ==> r.value == MasterRows(look, results, SelectedAsWritten(ReadQueries(text), StartLine, EndLine)).value
    ensures r.Err? ==> r.error in {FirmPageTimeout, NonAsciiBase64} || r.error.PageNotAdvanced?
  {
    r, d' := Batch(look, AsWritten, results, SelectedAsWritten(ReadQueries(text), StartLine, EndLine), d, w);
  }

  /** `main` mended: exactly the lines `START_LINE..END_LINE`, each firm
      enriched by the mended lookup, so that only a card that never loads
      or a page that does not advance ends the run. */
  method BatchMended(look: Directory, results: Search, text: string, d: Driver, w: Web)
    returns (r: Result<seq<Row>, Fault>, d': Driver)
    requires forall url :: 1 <= |results(url)|
    requires Valid(d) && IsOpen(d, d.current) && Serves(look, w, Mended)
    ensures Valid(d') && IsOpen(d', d.current) && d'.current == d.current
    ensures r.Ok? <==> MasterRows(look, results, Selected(ReadQueries(text), StartLine, EndLine)).Some?
    ensures r.Ok? ==> r.value == MasterRows(look, results, Selected(ReadQueries(text), StartLine, EndLine)).value
    ensures r.Err? ==> r.error == FirmPageTimeout || r.error.PageNotAdvanced?
  {
    r, d' := Batch(look, Mended, results, Selected(ReadQueries(text), StartLine, EndLine), d, w);
  }
}

=== FILE: run_list.dfy ===
/** `scripts/run_selenium_list.py`: the earlier, single-search version of the
    page loop. Its stop checks and the click to the next page come first in
    the loop body; the cards read at the top of the body are merged only
    after the click, untagged, and enrichment resumes at the old length of
    the rows, within a budget of 750. */
module RunList {
  import opened Outcomes
  import opened Browser
  import opened Listing
  import opened RunBatch

  /** The script's settings. */
  const ListMaxPages: int := 3
  const ListMaxEnrich: nat := 750

  /** What the script's loop leaves in `rows` when every advance completes
      and every enriched firm's card loads: the rows of the pages BEFORE the
      last one reached, enriched up to the budget. */
  function ListRows(key: Card -> string, look: Directory, site: seq<ResultsPage>, maxPages: int, maxEnrich: nat): Option<seq<Row>>
    requires 1 <= |site|
  {
    match Visit(site, maxPages, 1)
    case Err(_) => None
    case Ok(last) =>
      var cards := Collected(key, site, last - 1);
      var limit := Limit(|cards|, Some(maxEnrich));
      Enriched(cards, None, limit, look)
  }

  /** The merge and enrichment of the cards of page `p`, done once the loop
      has moved on to page `p + 1`. `count` is `enriched_count`, which the
      previous round set to the length of the rows. */
  method MergePrevious(key: Card -> string, look: Directory, v: Version, site: seq<ResultsPage>, p: nat, maxEnrich: nat,
                       rows: seq<Row>, seen: set<string>, count: nat, d: Driver, w: Web)
    returns (r: Result<seq<Row>, Fault>, seen': set<string>, at: nat, d': Driver)
    requires 1 <= p <= |site|
    requires Reached(key, look, site, p - 1, None, Some(maxEnrich), rows, seen, Limit(|Collected(key, site, p - 1)|, Some(maxEnrich)))
    requires count == |rows|
    requires Valid(d) && IsOpen(d, d.current) && Serves(look, w, v)
    ensures Valid(d') && IsOpen(d', d.current) && d'.current == d.current
    ensures r.Ok? ==> Reached(key, look, site, p, None, Some(maxEnrich), r.value, seen', Limit(|Collected(key, site, p)|, Some(maxEnrich)))
    ensures r.Err? ==> && LookupFault(r.error, v)
                       && at < Limit(|Collected(key, site, p)|, Some(maxEnrich))
                       && look(Collected(key, site, p)[at].firmId) == Err(r.error)
  {
    ghost var before := Collected(key, site, p - 1);
    ghost var cards := Collected(key, site, p);
    var limit := Limit(|before|, Some(maxEnrich));
    MergedPage(key, site, p, None, limit, look);
    var merged;
    merged, seen' := MergeCards(key, rows, seen, site[p - 1].cards, None);
    assert merged == Expected(cards, None, limit, look);
    CollectedPrefix(key, site, p - 1, p);
    var count';
    r, count', d' := EnrichRows(look, v, merged, count, Some(maxEnrich), d, w);
    at := count';
    if r.Err? {
      assert merged[count'].card == cards[count'];
    } else if |before| < maxEnrich {
      CapOfLimit(|before|, |cards|, Some(maxEnrich));
      ExpectedEnrich(cards, None, count, count', look, r.value);
      AllFoundGrow(cards, None, count, count', look, before);
    } else {
      assert r.value == merged;
      forall i | 0 <= i < |cards| && i < limit ensures Found(look, cards[i].firmId) {
        assert cards[i] == cards[..|before|][i] == before[i];
      }
    }
  }

  /** The script's page loop as written, on the results `site` of its one
      search: stop at `maxPages` or the last page, click through to the next
      page, and only then merge and enrich the cards of the page just left.
      The cards of the page the loop stops on are never merged. */
  method ListLoop(key: Card -> string, look: Directory, v: Version, site: seq<ResultsPage>, maxPages: int, maxEnrich: nat, d: Driver, w: Web)
    returns (r: Result<seq<Row>, Fault>, d': Driver)
    requires 1 <= |site|
    requires Valid(d) && IsOpen(d, d.current) && Serves(look, w, v)
    ensures Valid(d') && IsOpen(d', d.current) && d'.current == d.current
    ensures r.Ok? <==> ListRows(key, look, site, maxPages, maxEnrich).Some?
    ensures r.Ok? ==> r.value == ListRows(key, look, site, maxPages, maxEnrich).value
    ensures r.Err? ==> LookupFault(r.error, v) || Visit(site, maxPages, 1) == Err(r.error)
  {
    var rows: seq<Row> := [];
    var seen: set<string> := {};
    var count: nat := 0;
    var page: nat := 1;
    d' := d;
    assert site[..0] == [];
    while true
      invariant 1 <= page <= |site|
      invariant Visit(site, maxPages, 1) == Visit(site, maxPages, page)
      invariant Reached(key, look, site, page - 1, None, Some(maxEnrich), rows, seen, Limit(|Collected(key, site, page - 1)|, Some(maxEnrich)))
      invariant count == |rows|
      invariant Valid(d') && IsOpen(d', d.current) && d'.current == d.current
      decreases |site| - page
    {
      if page >= maxPages || page >= |site| {
        break;
      }
      if !Advances(site, page) {
        return Err(PageNotAdvanced(page)), d';
      }
      page := page + 1;
      var res, seen', at, e := MergePrevious(key, look, v, site, page - 1, maxEnrich, rows, seen, count, d', w);
      d' := e;
      if res.Err? {
        ListFaultStops(key, look, site, page, maxPages, maxEnrich, at);
        return Err(res.error), d';
      }
      rows, seen := res.value, seen';
      count := |rows|;
    }
    r := Ok(rows);
  }

  /** A firm whose lookup fails among the rows of the pages before `page`
      is one the whole run would have to enrich. */
  lemma ListFaultStops(key: Card -> string, look: Directory, site: seq<ResultsPage>, page: nat, maxPages: int, maxEnrich: nat, at: nat)
    requires 2 <= page <= |site|
    requires Visit(site, maxPages, 1) == Visit(site, maxPages, page)
    requires at < Limit(|Collected(key, site, page - 1)|, Some(maxEnrich))
    requires !Found(look, Collected(key, site, page - 1)[at].firmId)
    ensures ListRows(key, look, site, maxPages, maxEnrich).None?
  {
    var v := Visit(site, maxPages, page);
    if v.Ok? {
      FaultPersists(key, look, site, page - 1, v.value - 1, Some(maxEnrich), at);
      NoRowsAfterFault(key, look, site, maxPages, maxEnrich, v.value);
    }
  }

  lemma NoRowsAfterFault(key: Card -> string, look: Directory, site: seq<ResultsPage>, maxPages: int, maxEnrich: nat, last: nat)
    requires 1 <= last <= |site| && Visit(site, maxPages, 1) == Ok(last)
    requires !AllFound(Collected(key, site, last - 1), Limit(|Collected(key, site, last - 1)|, Some(maxEnrich)), look)
    ensures ListRows(key, look, site, maxPages, maxEnrich).None?
  {
  }

  /** The script as written: its one search, normalised addresses as keys,
      three pages and 750 enrichments at most, each firm enriched by
      `get_primary_contact` as written. */
  method RunList(look: Directory, site: seq<ResultsPage>, d: Driver, w: Web)
    returns (r: Result<seq<Row>, Fault>, d': Driver)
    requires 1 <= |site|
    requires Valid(d) && IsOpen(d, d.current) && Serves(look, w, AsWritten)
    ensures Valid(d') && IsOpen(d', d.current) && d'.current == d.current
    ensures r.Ok? <==> ListRows(Key, look, site, ListMaxPages, ListMaxEnrich).Some?
    ensures r.Ok? ==> r.value == ListRows(Key, look, site, ListMaxPages, ListMaxEnrich).value
    ensures r.Err? ==> r.error in {FirmPageTimeout, NonAsciiBase64} || r.error.PageNotAdvanced?
  {
    r, d' := ListLoop(Key, look, AsWritten, site, ListMaxPages, ListMaxEnrich, d, w);
  }

  /** The script mended: each page merged and enriched before the stop
      checks, as `run_one_query` does, so that the last page reached is
      kept, and each firm enriched by the mended lookup. */
  method RunListMended(look: Directory, site: seq<ResultsPage>, d: Driver, w: Web)
    returns (r: Result<seq<Row>, Fault>, d': Driver)
    requires 1 <= |site|
    requires Valid(d) && IsOpen(d, d.current) && Serves(look, w, Mended)
    ensures Valid(d') && IsOpen(d', d.current) && d'.current == d.current
    ensures r.Ok? <==> QueryRows(Key, look, site, None, ListMaxPages, Some(ListMaxEnrich)).Some?
    ensures r.Ok? ==> r.value == QueryRows(Key, look, site, None, ListMaxPages, Some(ListMaxEnrich)).value
    ensures r.Err? ==> r.error == FirmPageTimeout || r.error.PageNotAdvanced?
  {
    r, d' := PageLoop(Key, look, Mended, site, None, ListMaxPages, Some(ListMaxEnrich), d, w);
  }

  /** A search with a single page of one firm: the script as written saves
      no row, while the mended loop keeps the firm. */
  lemma LastPageDropped(key: Card -> string, look: Directory, c: Card)
    requires key(c) != "" && Found(look, c.firmId)
    ensures var site := [ResultsPage([c], Some(c.firmId))];
      && ListRows(key, look, site, ListMaxPages, ListMaxEnrich) == Some([])
      && QueryRows(key, look, site, None, ListMaxPages, Some(ListMaxEnrich)) == Some([Row(c, None, EnrichmentFor(look, c.firmId))])
  {
    var site := [ResultsPage([c], Some(c.firmId))];
    assert Visit(site, ListMaxPages, 1) == Ok(1);
    SinglePage(key, c);
    assert Limit(1, Some(ListMaxEnrich)) == 1;
    assert AllFound([c], 1, look);
    assert Expected([c], None, 1, look) == [Row(c, None, EnrichmentFor(look, c.firmId))];
  }

  /** The pages before the only page hold no card; the only page holds its
      one card. */
  lemma SinglePage(key: Card -> string, c: Card)
    requires key(c) != ""
    ensures Collected(key, [ResultsPage([c], Some(c.firmId))], 0) == []
    ensures Collected(key, [ResultsPage([c], Some(c.firmId))], 1) == [c]
  {
    var site := [ResultsPage([c], Some(c.firmId))];
    assert site[..0] == [];
    assert site[..1] == site;
    assert AllCards(site[..1]) == AllCards([]) + [c];
    assert DedupBy(key, {}, [c]) == DedupBy(key, {}, []) + [c] by {
      assert [c][..0] == [];
    }
  }
}

=== FILE: text.dfy ===
/** The handful of Python `str` operations the collector relies on, with the
    exact character classes CPython uses where that matters. */
module Text {
  import opened Outcomes

  /** CPython's `str.isspace`: the characters `strip()` and `split()` remove. */
  predicate IsSpace(c: char) {
    || c == ' ' || ('\t' <= c <= '\r') || ('\U{1C}' <= c <= '\U{1F}')
    || c == '\U{85}' || c == '\U{A0}' || c == '\U{1680}'
    || ('\U{2000}' <= c <= '\U{200A}') || c == '\U{2028}' || c == '\U{2029}'
    || c == '\U{202F}' || c == '\U{205F}' || c == '\U{3000}'
  }

  /** True when no character of `s` is whitespace. */
  predicate NoSpace(s: string) {
    forall i :: 0 <= i < |s| ==> !IsSpace(s[i])
  }

  /** The number of leading whitespace characters. */
  function LeadLen(s: string): (n: nat)
    ensures n <= |s|
    ensures forall i :: 0 <= i < n ==> IsSpace(s[i])
    ensures n == |s| || !IsSpace(s[n])
  {
    if s == [] || !IsSpace(s[0]) then 0 else 1 + LeadLen(s[1..])
  }

  /** The number of trailing whitespace characters. */
  function TrailLen(s: string): (n: nat)
    ensures n <= |s|
    ensures forall i :: |s| - n <= i < |s| ==> IsSpace(s[i])
    ensures n == |s| || !IsSpace(s[|s| - 1 - n])
  {
    if s == [] || !IsSpace(s[|s| - 1]) then 0 else 1 + TrailLen(s[..|s| - 1])
  }

  /** `s.lstrip()`: drop leading whitespace. */
  function LStrip(s: string): (r: string)
    ensures |r| <= |s| && r == s[|s| - |r|..]
    ensures r == [] || !IsSpace(r[0])
    ensures forall i :: 0 <= i < |s| - |r| ==> IsSpace(s[i])
  {
    s[LeadLen(s)..]
  }

  /** `s.rstrip()`: drop trailing whitespace. */
  function RStrip(s: string): (r: string)
    ensures |r| <= |s| && r == s[..|r|]
    ensures r == [] || !IsSpace(r[|r| - 1])
    ensures forall i :: |r| <= i < |s| ==> IsSpace(s[i])
  {
    s[..|s| - TrailLen(s)]
  }

  /** Neither starts nor ends with whitespace. */
  predicate Trimmed(s: string) {
    s == [] || (!IsSpace(s[0]) && !IsSpace(s[|s| - 1]))
  }

  /** `s.strip()`: the slice of `s` left after cutting whitespace from both
      ends; it neither starts nor ends with whitespace, and everything cut away
      is whitespace. */
  function Strip(s: string): (r: string)
    ensures |r| <= |s| && Trimmed(r)
  {
    RStrip(LStrip(s))
  }

  /** Where the stripped text sits in `s`: a slice whose surroundings are all
      whitespace. */
  lemma StripSpec(s: string)
    ensures var i := |s| - |LStrip(s)|; var r := Strip(s);
      && i + |r| <= |s| && r == s[i..i + |r|]
      && (forall k :: 0 <= k < i ==> IsSpace(s[k]))
      && (forall k :: i + |r| <= k < |s| ==> IsSpace(s[k]))
  {
    StripSlice(s);
    assert Strip(s) == RStrip(LStrip(s));
  }

  lemma StripSlice(s: string)
    ensures var l := LStrip(s); var r := RStrip(l); var i := |s| - |l|;
      && i + |r| <= |s| && r == s[i..i + |r|]
      && (forall k :: i + |r| <= k < |s| ==> IsSpace(s[k]))
  {
    var l := LStrip(s);
    var r := RStrip(l);
    var i := |s| - |l|;
    SliceOfSlice(s, i, l, r);
    TailSpaces(s, i, l, |r|);
  }

  lemma SliceOfSlice(s: string, i: nat, l: string, r: string)
    requires i <= |s| && l == s[i..] && |r| <= |l| && r == l[..|r|]
    ensures i + |r| <= |s| && r == s[i..i + |r|]
  {
  }

  lemma TailSpaces(s: string, i: nat, l: string, n: nat)
    requires i <= |s| && l == s[i..] && n <= |l|
    requires forall j :: n <= j < |l| ==> IsSpace(l[j])
    ensures forall k :: i + n <= k < |s| ==> IsSpace(s[k])
  {
    forall k | i + n <= k < |s| ensures IsSpace(s[k]) {
      assert s[k] == l[k - i];
    }
  }

  lemma StripIdempotent(s: string)
    ensures Strip(Strip(s)) == Strip(s)
  {
    var r := Strip(s);
    if r != [] {
      assert LStrip(r) == r;
      assert RStrip(r) == r;
    }
  }

  /** A string that starts and ends with non-whitespace is its own strip. */
  lemma StripOfTrimmed(s: string)
    requires Trimmed(s)
    ensures Strip(s) == s
  {
    if s != [] {
      assert LStrip(s) == s;
      assert RStrip(s) == s;
    }
  }

  /** `s.startswith(p)`. */
  predicate StartsWith(s: string, p: string) {
    |p| <= |s| && s[..|p|] == p
  }

  /** `t` occurs in `s` at index `i`. */
  predicate OccursAt(s: string, t: string, i: int) {
    0 <= i && i + |t| <= |s| && s[i..i + |t|] == t
  }

  /** `s.find(t)`: the index of the first occurrence of `t`, if any. */
  function Find(s: string, t: string): (r: Option<nat>)
    ensures r.Some? ==> OccursAt(s, t, r.value)
    ensures r.Some? ==> forall j :: 0 <= j < r.value ==> !OccursAt(s, t, j)
    ensures r.None? ==> forall j :: !OccursAt(s, t, j)
    decreases |s|
  {
    if StartsWith(s, t) then Some(0)
    else if s == [] then None
    else
      var rest := Find(s[1..], t);
      OccursShift(s, t);
      if rest.Some? then Some(rest.value + 1) else None
  }

  /** An occurrence in `s` past index 0 is an occurrence in `s[1..]`. */
  lemma OccursShift(s: string, t: string)
    requires s != []
    ensures forall j {:trigger OccursAt(s[1..], t, j)} :: 0 <= j ==> (OccursAt(s, t, j + 1) <==> OccursAt(s[1..], t, j))
    ensures forall j :: 1 <= j ==> (OccursAt(s, t, j) <==> OccursAt(s[1..], t, j - 1))
    ensures OccursAt(s, t, 0) <==> StartsWith(s, t)
  {
    forall j | 0 <= j ensures OccursAt(s, t, j + 1) <==> OccursAt(s[1..], t, j) {
      if j + 1 + |t| <= |s| {
        SliceOfTail(s, j, |t|);
      }
    }
    forall j | 1 <= j ensures OccursAt(s, t, j) <==> OccursAt(s[1..], t, j - 1) {
      if j + |t| <= |s| {
        SliceOfTail(s, j - 1, |t|);
      }
    }
  }

  lemma SliceOfTail(s: string, j: int, n: int)
    requires s != [] && 0 <= j && 0 <= n && j + 1 + n <= |s|
    ensures s[j + 1..j + 1 + n] == s[1..][j..j + n]
  {
    var a := s[j + 1..j + 1 + n];
    var b := s[1..][j..j + n];
    assert |a| == |b|;
    forall k | 0 <= k < n ensures a[k] == b[k] {
      assert a[k] == s[j + 1 + k];
      assert b[k] == s[1..][j + k];
    }
  }

  /** Python's `t in s`. */
  predicate Contains(s: string, t: string) {
    Find(s, t).Some?
  }

  lemma ContainsAt(s: string, t: string, i: int)
    requires OccursAt(s, t, i)
    ensures Contains(s, t)
  {
  }

  /** `t` occurs in `s` exactly when it occurs at some index. */
  lemma ContainsIff(s: string, t: string)
    ensures Contains(s, t) <==> exists i :: OccursAt(s, t, i)
  {
    if Contains(s, t) {
      assert OccursAt(s, t, Find(s, t).value);
    }
  }

  /** A string containing `t` contains the first character of `t`. */
  lemma FirstCharOfOccurrence(s: string, t: string)
    requires t != []
    ensures Contains(s, t) ==> t[0] in s
  {
    if Contains(s, t) {
      var i := Find(s, t).value;
      assert OccursAt(s, t, i);
      assert s[i] == s[i..i + |t|][0];
    }
  }

  /** An occurrence inside a slice is an occurrence in the whole. */
  lemma ContainsInSlice(s: string, t: string, lo: int, hi: int)
    requires 0 <= lo <= hi <= |s|
    requires Contains(s[lo..hi], t)
    ensures Contains(s, t)
  {
    var u := s[lo..hi];
    var i := Find(u, t).value;
    assert OccursAt(u, t, i);
    var a := u[i..i + |t|];
    var b := s[lo + i..lo + i + |t|];
    forall k | 0 <= k < |t| ensures a[k] == b[k] {
      assert a[k] == u[i + k] == s[lo + i + k];
    }
    assert a == b;
    assert OccursAt(s, t, lo + i);
    ContainsAt(s, t, lo + i);
  }

  /** `s.split(t, 1)[0]`: everything before the first occurrence of `t`. */
  function Before(s: string, t: string): (r: string)
    ensures |r| <= |s| && r == s[..|r|]
  {
    match Find(s, t)
    case Some(i) => s[..i]
    case None => s
  }

  /** `s.split(t, 1)[1]` when `t` occurs: everything after its first occurrence. */
  function After(s: string, t: string): (r: string)
    requires Contains(s, t)
  {
    var i := Find(s, t).value;
    s[i + |t|..]
  }

  /** `s.split('/')[-1]`: the text after the last slash, or all of `s`. */
  function LastSegment(s: string): (r: string)
    ensures |r| <= |s| && r == s[|s| - |r|..]
    ensures '/' !in r
    ensures |r| == |s| || s[|s| - |r| - 1] == '/'
  {
    if s == [] then []
    else if s[|s| - 1] == '/' then []
    else LastSegment(s[..|s| - 1]) + [s[|s| - 1]]
  }

  // ---------------------------------------------------------------------------
  // Case folding

  /** `str.lower()` on one character, for ASCII, Latin-1 and basic Cyrillic. */
  function LowerChar(c: char): char {
    if 'A' <= c <= 'Z' then (c as int + 32) as char
    else if '\U{C0}' <= c <= '\U{DE}' && c != '\U{D7}' then (c as int + 32) as char
    else if '\U{410}' <= c <= '\U{42F}' then (c as int + 32) as char
    else if '\U{400}' <= c <= '\U{40F}' then (c as int + 80) as char
    else c
  }

  lemma LowerCharIdempotent(c: char)
    ensures LowerChar(LowerChar(c)) == LowerChar(c)
  {
  }

  /** `s.lower()`, character by character. */
  function Lower(s: string): (r: string)
    ensures |r| == |s|
    ensures forall i :: 0 <= i < |s| ==> r[i] == LowerChar(s[i])
  {
    seq(|s|, i requires 0 <= i < |s| => LowerChar(s[i]))
  }

  lemma LowerConcat(a: string, b: string)
    ensures Lower(a + b) == Lower(a) + Lower(b)
  {
  }

  /** True when lowering leaves `s` unchanged. */
  predicate IsLower(s: string) {
    forall i :: 0 <= i < |s| ==> LowerChar(s[i]) == s[i]
  }

  lemma LowerIsLower(s: string)
    ensures IsLower(Lower(s))
  {
    forall i | 0 <= i < |s| { LowerCharIdempotent(s[i]); }
  }

  lemma LowerOfLower(s: string)
    requires IsLower(s)
    ensures Lower(s) == s
  {
  }

  // ---------------------------------------------------------------------------
  // Splitting into words: `s.split()` and `" ".join(...)`

  /** Length of the leading run of non-whitespace characters. */
  function TokenLen(s: string): (n: nat)
    ensures n <= |s|
    ensures forall i :: 0 <= i < n ==> !IsSpace(s[i])
    ensures n == |s| || IsSpace(s[n])
  {
    if s == [] || IsSpace(s[0]) then 0 else 1 + TokenLen(s[1..])
  }

  /** `s.split()`: the maximal whitespace-free runs of `s`, in order. */
  function Words(s: string): (ws: seq<string>)
    ensures AreWords(ws)
    decreases |s|
  {
    var t := LStrip(s);
    if t == [] then []
    else
      var n := TokenLen(t);
      assert n != 0 && NoSpace(t[..n]) by { FirstWord(t); }
      var rest := Words(t[n..]);
      assert AreWords([t[..n]] + rest) by { AreWordsCons(t[..n], rest); }
      [t[..n]] + rest
  }

  /** The leading token of a string that starts with a non-space character
      is a word. */
  lemma FirstWord(t: string)
    requires t != [] && !IsSpace(t[0])
    ensures TokenLen(t) != 0 && NoSpace(t[..TokenLen(t)])
  {
    var n := TokenLen(t);
    forall i | 0 <= i < n ensures !IsSpace(t[..n][i]) {
      assert t[..n][i] == t[i];
    }
  }

  lemma AreWordsCons(w: string, rest: seq<string>)
    requires w != [] && NoSpace(w) && AreWords(rest)
    ensures AreWords([w] + rest)
  {
    forall k | 0 <= k < |[w] + rest| ensures ([w] + rest)[k] != [] && NoSpace(([w] + rest)[k]) {
      if k > 0 {
        assert ([w] + rest)[k] == rest[k - 1];
      }
    }
  }

  /** `" ".join(ws)`. */
  function JoinSpace(ws: seq<string>): string {
    if |ws| == 0 then []
    else if |ws| == 1 then ws[0]
    else ws[0] + " " + JoinSpace(ws[1..])
  }

  /** Shape of a string produced by joining words: tokens separated by single
      ASCII spaces, no other whitespace, nothing at the ends. */
  predicate SingleSpaced(s: string) {
    && (forall i :: 0 <= i < |s| ==> IsSpace(s[i]) ==> s[i] == ' ')
    && (s == [] || (s[0] != ' ' && s[|s| - 1] != ' '))
    && (forall i :: 0 <= i < |s| - 1 ==> !(s[i] == ' ' && s[i + 1] == ' '))
  }

  /** Words are non-empty and free of whitespace. */
  predicate AreWords(ws: seq<string>) {
    forall k :: 0 <= k < |ws| ==> ws[k] != [] && NoSpace(ws[k])
  }

  lemma {:induction false} JoinNonEmpty(ws: seq<string>)
    requires AreWords(ws)
    ensures JoinSpace(ws) == [] <==> ws == []
    ensures ws != [] ==> JoinSpace(ws)[0] == ws[0][0]
    ensures ws != [] ==> JoinSpace(ws)[|JoinSpace(ws)| - 1] != ' '
  {
    if |ws| >= 2 {
      JoinNonEmpty(ws[1..]);
      assert !IsSpace(ws[0][0]);
    } else if |ws| == 1 {
      assert !IsSpace(ws[0][|ws[0]| - 1]);
    }
  }

  lemma {:induction false} JoinShape(ws: seq<string>)
    requires AreWords(ws)
    ensures SingleSpaced(JoinSpace(ws))
  {
    JoinNonEmpty(ws);
    if |ws| >= 2 {
      JoinShape(ws[1..]);
      JoinNonEmpty(ws[1..]);
      var w := ws[0];
      var rest := JoinSpace(ws[1..]);
      var s := w + " " + rest;
      assert s == JoinSpace(ws);
      assert rest[0] != ' ' by { assert !IsSpace(ws[1][0]); }
      forall i | 0 <= i < |s| - 1
        ensures !(s[i] == ' ' && s[i + 1] == ' ')
      {
        if i < |w| {
          assert s[i] == w[i] && !IsSpace(w[i]);
        } else if i > |w| {
          assert s[i] == rest[i - |w| - 1] && s[i + 1] == rest[i - |w|];
        } else {
          assert s[i + 1] == rest[0];
        }
      }
      forall i | 0 <= i < |s|
        ensures s[i] == ' ' || !IsSpace(s[i])
      {
        if i < |w| {
          assert s[i] == w[i] && !IsSpace(w[i]);
        } else if i > |w| {
          assert s[i] == rest[i - |w| - 1];
        }
      }
    } else if |ws| == 1 {
      forall i | 0 <= i < |ws[0]| - 1
        ensures !(ws[0][i] == ' ' && ws[0][i + 1] == ' ')
      {
        assert !IsSpace(ws[0][i]);
      }
    }
  }

  /** Every character of a join is a space or a character of some word. */
  lemma {:induction false} JoinChars(ws: seq<string>, p: char -> bool)
    requires p(' ')
    requires forall k, i :: 0 <= k < |ws| && 0 <= i < |ws[k]| ==> p(ws[k][i])
    ensures forall i :: 0 <= i < |JoinSpace(ws)| ==> p(JoinSpace(ws)[i])
  {
    if |ws| >= 2 {
      JoinChars(ws[1..], p);
      var w := ws[0];
      var rest := JoinSpace(ws[1..]);
      var s := w + " " + rest;
      forall i | 0 <= i < |s| ensures p(s[i]) {
        if i < |w| {
          assert s[i] == ws[0][i];
        } else if i > |w| {
          assert s[i] == rest[i - |w| - 1];
        }
      }
    } else if |ws| == 1 {
      assert forall i :: 0 <= i < |ws[0]| ==> p(ws[0][i]);
    }
  }

  lemma TokenLenOfWord(w: string, rest: string)
    requires NoSpace(w)
    requires rest == [] || IsSpace(rest[0])
    ensures TokenLen(w + rest) == |w|
    decreases |w|
  {
    if w != [] {
      assert (w + rest)[1..] == w[1..] + rest;
      TokenLenOfWord(w[1..], rest);
    } else {
      assert w + rest == rest;
    }
  }

  lemma LStripIdempotent(s: string)
    ensures LStrip(LStrip(s)) == LStrip(s)
  {
  }

  /** Leading whitespace does not change the words. */
  lemma WordsOfLStrip(s: string)
    ensures Words(LStrip(s)) == Words(s)
  {
    LStripIdempotent(s);
  }

  /** The first word of a string that starts with a word followed by a space
      or the end. */
  lemma WordsOfWordThen(w: string, rest: string)
    requires w != [] && NoSpace(w)
    requires rest == [] || IsSpace(rest[0])
    ensures Words(w + rest) == [w] + Words(rest)
  {
    var s := w + rest;
    assert LStrip(s) == s by {
      assert s[0] == w[0];
      assert LeadLen(s) == 0;
    }
    assert TokenLen(s) == |w| by {
      TokenLenOfWord(w, rest);
    }
    assert s[..|w|] == w;
    assert s[|w|..] == rest;
  }

  /** A leading space does not change the words. */
  lemma WordsSkipSpace(x: string)
    ensures Words(" " + x) == Words(x)
  {
    assert (" " + x)[1..] == x;
    assert LStrip(" " + x) == LStrip(x);
    WordsOfLStrip(" " + x);
    WordsOfLStrip(x);
  }

  lemma WordsOfWordSpace(w: string, rest: string)
    requires w != [] && NoSpace(w)
    ensures Words(w + " " + rest) == [w] + Words(rest)
  {
    assert w + " " + rest == w + (" " + rest);
    WordsOfWordThen(w, " " + rest);
    WordsSkipSpace(rest);
  }

  /** Splitting joined words gives back the words: `" ".join` and `split()`
      are inverse on whitespace-free non-empty words. */
  lemma {:induction false} WordsOfJoin(ws: seq<string>)
    requires AreWords(ws)
    ensures Words(JoinSpace(ws)) == ws
  {
    if |ws| == 1 {
      WordsOfOne(ws[0]);
    } else if |ws| >= 2 {
      AreWordsTail(ws);
      WordsOfJoin(ws[1..]);
      WordsOfJoinStep(ws);
    }
  }

  lemma AreWordsTail(ws: seq<string>)
    requires ws != [] && AreWords(ws)
    ensures AreWords(ws[1..])
  {
    var tail := ws[1..];
    forall k | 0 <= k < |tail| ensures tail[k] != [] && NoSpace(tail[k]) {
      assert tail[k] == ws[k + 1];
    }
  }

  lemma WordsOfJoinStep(ws: seq<string>)
    requires |ws| >= 2 && AreWords(ws)
    requires Words(JoinSpace(ws[1..])) == ws[1..]
    ensures Words(JoinSpace(ws)) == ws
  {
    var tail := ws[1..];
    var rest := JoinSpace(tail);
    assert JoinSpace(ws) == ws[0] + " " + rest;
    assert ws[0] != [] && NoSpace(ws[0]);
    assert Words(ws[0] + " " + rest) == [ws[0]] + tail by {
      WordsOfWordSpace(ws[0], rest);
    }
    assert ws == [ws[0]] + tail;
  }

  lemma WordsOfOne(w: string)
    requires w != [] && NoSpace(w)
    ensures Words(w) == [w]
  {
    assert w + [] == w;
    assert Words(w + []) == [w] + Words([]) by {
      WordsOfWordThen(w, []);
    }
    assert Words([]) == [] by {
      assert LStrip([]) == [];
    }
  }

  // ---------------------------------------------------------------------------
  // Lines: `str.splitlines()`

  /** The characters `str.splitlines()` breaks on (`\r\n` counts as one break). */
  predicate IsLineBreak(c: char) {
    || c == '\n' || c == '\r' || c == '\U{0B}' || c == '\U{0C}'
    || ('\U{1C}' <= c <= '\U{1E}') || c == '\U{85}' || c == '\U{2028}' || c == '\U{2029}'
  }

  /** Length of the text before the first line break. */
  function LineLen(s: string): (n: nat)
    ensures n <= |s|
    ensures forall i :: 0 <= i < n ==> !IsLineBreak(s[i])
    ensures n == |s| || IsLineBreak(s[n])
  {
    if s == [] || IsLineBreak(s[0]) then 0 else 1 + LineLen(s[1..])
  }

  /** `s.splitlines()`: the lines of `s` without their terminators; a final
      terminator does not start an extra empty line. */
  function SplitLines(s: string): (ls: seq<string>)
    ensures forall k :: 0 <= k < |ls| ==> forall i :: 0 <= i < |ls[k]| ==> !IsLineBreak(ls[k][i])
    decreases |s|
  {
    if s == [] then []
    else
      var n := LineLen(s);
      var next :=
        if n == |s| then n
        else if s[n] == '\r' && n + 1 < |s| && s[n + 1] == '\n' then n + 2
        else n + 1;
      [s[..n]] + SplitLines(s[next..])
  }

  /** Lines each followed by `\n`: the text `splitlines()` reads back. */
  function Unlines(ls: seq<string>): string {
    if ls == [] then [] else ls[0] + "\n" + Unlines(ls[1..])
  }

  /** `splitlines()` undoes `Unlines` for lines without breaks. */
  lemma {:induction false} SplitLinesOfUnlines(ls: seq<string>)
    requires forall k :: 0 <= k < |ls| ==> forall i :: 0 <= i < |ls[k]| ==> !IsLineBreak(ls[k][i])
    ensures SplitLines(Unlines(ls)) == ls
  {
    if ls != [] {
      var tail := ls[1..];
      forall k | 0 <= k < |tail| ensures forall i :: 0 <= i < |tail[k]| ==> !IsLineBreak(tail[k][i]) {
        assert tail[k] == ls[k + 1];
      }
      SplitLinesOfUnlines(tail);
      SplitLinesOfLine(ls[0], Unlines(tail));
      assert ls == [ls[0]] + tail;
    }
  }

  /** A line ended by `\n` is the first line, and the rest is read on. */
  lemma SplitLinesOfLine(l: string, rest: string)
    requires forall i :: 0 <= i < |l| ==> !IsLineBreak(l[i])
    ensures SplitLines(l + "\n" + rest) == [l] + SplitLines(rest)
  {
    var s := l + "\n" + rest;
    assert s == l + ("\n" + rest);
    LineLenOfLine(l, "\n" + rest);
    assert s[|l|] == '\n';
    assert s[..|l|] == l;
    assert s[|l| + 1..] == rest;
  }

  lemma LineLenOfLine(l: string, rest: string)
    requires forall i :: 0 <= i < |l| ==> !IsLineBreak(l[i])
    requires rest != [] && IsLineBreak(rest[0])
    ensures LineLen(l + rest) == |l|
    decreases |l|
  {
    if l != [] {
      assert (l + rest)[1..] == l[1..] + rest;
      LineLenOfLine(l[1..], rest);
    } else {
      assert l + rest == rest;
    }
  }

  /** The index of the first `true`. */
  function FirstTrue(bs: seq<bool>): (r: Option<nat>)
    ensures r.Some? ==> r.value < |bs| && bs[r.value]
    ensures r.Some? ==> forall j :: 0 <= j < r.value ==> !bs[j]
    ensures r.None? ==> forall j :: 0 <= j < |bs| ==> !bs[j]
  {
    if bs == [] then None
    else if bs[0] then Some(0)
    else
      var r := FirstTrue(bs[1..]);
      if r.Some? then Some(r.value + 1) else None
  }

  /** `FirstTrue` read from the front: `0` when the head is `true`, otherwise
      one past the first `true` of the rest. */
  lemma FirstTrueCons(bs: seq<bool>)
    requires bs != []
    ensures FirstTrue(bs) == if bs[0] then Some(0)
                             else if FirstTrue(bs[1..]).Some? then Some(FirstTrue(bs[1..]).value + 1)
                             else None
  {
  }
}
